=== FILE: README.md ===
# Resource data binding and element factories of dojo/labs, in Dafny

This project models the resource data-binding engine of dojo/labs in three generations, together with the element factories that widgets render through. Each part is a module:

- **DataStore**. One store partition, as the data middleware keeps it under its path prefix:
  - `data`, `idMap` and `order`;
  - the page cache `pagination['size-N']`;
  - the per-item metas;
  - the status slots `meta.actions[action][type]`;
  - the cursors `meta.pagination.current[initiator]`;
  - the cursor map the provider widget reads, `meta.pagination[initiator]`;
  - `loadedPages`.

  Commands return store operations (`Op`), and `Apply` runs them in order, as the store's `replace` does on the paths involved.
- **DataCommands**. The commands of the framework data middleware:
  - `initializeResource`, `beforeReadMany` and `processReadMany`/`readMany`;
  - `nextPage`, `prevPage` and `gotoPage`;
  - `invalidatePagination` and `failedResource`;
  - the undo operations the read process records for `beforeReadMany`.

  `uuid()` is a counter `next`, so a batch of `n` items gets the synthetic ids `next .. next+n-1`.
- **DataMiddleware**. The `data()` middleware as a state machine over an `Engine`. The engine holds the store, the `(consumer, path)` subscription handles, the id counter and the reads in flight. A read is dispatched in one step: `beforeReadMany` is applied and the read is recorded as pending. It is settled in another step: either the `readMany` writes, or the error hook, which re-applies the undo and then `failedResource`. The queries are `getStatus`, `total`, `current` and `getOrRead`; the page commands are `next`, `previous` and `goto`.
- **Provider**. The `provider(config)` widget of the resources package, on the same engine. Its window is taken from `meta.pagination[initiatorId]`, but no command ever writes that path (the commands write `meta.pagination.current[initiatorId]`). The model keeps both maps, so a widget's `total()` and `current()` stay undefined and its window is always the requested one.
- **LegacyCommands and LegacyProvider**. The oldest engine, `createResourceProvider`:
  - a single `read.many.status` string;
  - per-item path writes;
  - an error hook that only applies the undo operations.
- **Subscriptions**. Change listeners are registered once per key.
- **Elements**. The element factories `w`, `v` and `tsx`, plus `widget()` and `middleware()`. One definition covers both the vdom-next and the framework copy of `tsx.ts`. The framework copy imports `v`, `isWNode` and `isVNode` from `d.ts`, which is not part of this model; the vdom-next definitions stand for both.

### Where the code and its tests disagree

The model follows the code. Two tests of the oldest provider expect other behaviour:

- `packages/resources/tests/unit/ResourceProvider.ts:96-134` expects a second provider instance to read again. In the code, `_initial` is always `false`, so a completed partition is never read again (`LegacyProvider.CompletedIsStable`).
- `packages/resources/tests/unit/ResourceProvider.ts:177-201` expects the status `'failed'` after a failed read. The code's error hook only applies the undo, so the status goes back to what it was (`LegacyProvider.FailedReadRestores`).

Three quirks of the framework middleware are also modelled as written:

- `failedResource` writes the completed list, minus one occurrence of the initiator, into `loading`. When the initiator never completed, `splice(-1, 1)` drops the last completed consumer instead (`DataCommands.FailedResourceMarksAnotherConsumerLoading`).
- With a total of 0, the page commands clamp to the negative offset `-size` (`DataCommands.ZeroTotalClampsBelowZero`).
- A page command on a consumer without a cursor throws. The error hook's `failedResource` gets no action or type, but it still pushes the consumer in place onto the stored `read.many.failed` array, so the consumer is reported as failed (`DataCommands.FailedPageCommand`, `DataMiddleware.PageStep`).

## Model

| member | source | states |
|---|---|---|
| Common.RemoveFirstOccurrence | packages/framework/src/widget-core/middleware/data/commands.ts:146-157 | `splice(indexOf(x), 1)` removes exactly one `x` (as multisets) when `x` is present, and otherwise drops the last element |
| Common.JsRem | packages/framework/src/widget-core/middleware/data/commands.ts:194-213 | JavaScript `%` truncates: the remainder has the sign of the dividend and is smaller than the divisor in magnitude |
| Common.CeilDiv | packages/framework/src/widget-core/middleware/data/index.ts:148-154 | `Math.ceil(a / b)` is the `n` with `b(n-1) < a <= bn` (mirrored for negative `b`) |
| Subscriptions.Subscribe | packages/framework/src/widget-core/middleware/data/index.ts:164-177 | the `storeHandles.get(key)` guard: afterwards a listener for the key exists, no key is registered twice, and other keys' counts are unchanged |
| Subscriptions.AtMostOneListenerPerKey | packages/framework/src/widget-core/middleware/data/index.ts:164-177 | any sequence of subscriptions leaves at most one listener per key, and exactly the subscribed keys |
| DataStore.ApplyKeepsByInitiator | packages/resources/src/provider.ts:158-172 | no store operation any command emits writes `meta.pagination[initiator]`, the map `_total` and `_current` read |
| DataCommands.InitializeResource | packages/framework/src/widget-core/middleware/data/commands.ts:65-80 | on an uninitialised partition, creates the `read.many` slot with empty lists and writes nothing else; on an initialised one it emits nothing |
| DataCommands.InitializeIsIdempotent | packages/framework/src/widget-core/middleware/data/commands.ts:65-80 | a second initialisation emits nothing and changes nothing |
| DataCommands.BeforeReadManyEffect | packages/framework/src/widget-core/middleware/data/commands.ts:82-100 | appends the initiator to `read.many.loading`, stores a paginated window as its cursor with the old total, and leaves everything else alone |
| DataCommands.UndoBeforeReadMany | packages/framework/src/widget-core/middleware/data/commands.ts:87-96 | the recorded undo operations, applied right after `beforeReadMany`, restore the partition exactly |
| DataCommands.FreshIdsAreNew | packages/framework/src/widget-core/middleware/data/commands.ts:121-144 | a batch's synthetic ids are pairwise distinct and unused by the partition when every stored id is below the counter |
| DataCommands.ReadManyKeepsEntities | packages/framework/src/widget-core/middleware/data/commands.ts:121-144 | when every stored id is below the counter, a successful read keeps every stored record and item meta and leaves every id below the advanced counter |
| DataCommands.EntityOpsKeepEntities | packages/framework/src/widget-core/middleware/data/commands.ts:121-144 | storing a batch under fresh ids keeps every older record and item meta |
| DataStore.ApplyUndoKeepsEntities | packages/framework/src/widget-core/middleware/data/index.ts:88-104 | re-applying the recorded undo (status lists and cursors only) leaves records and item metas unchanged |
| DataCommands.BatchIdMap | packages/framework/src/widget-core/middleware/data/commands.ts:121-144 | each `idKey` value of the batch maps to the synthetic id of the LAST item carrying it, and no other key is mapped |
| DataCommands.ProcessReadMany | packages/framework/src/widget-core/middleware/data/commands.ts:102-175 | a response that did not succeed throws `Read many operation failed`, and only such a response does |
| DataCommands.ReadManyStages | packages/framework/src/widget-core/middleware/data/commands.ts:102-175 | the operations of a successful read are its entity, status and placement writes, in that order, each stage reading only what the earlier ones leave unchanged |
| DataCommands.ReadManyStoresItems | packages/framework/src/widget-core/middleware/data/commands.ts:121-144 | every templated item is stored under its fresh id with a completed-by-initiator meta, and every other record is kept |
| DataCommands.ReadManyMapsIds | packages/framework/src/widget-core/middleware/data/commands.ts:121-144 | every item's `idKey` value maps to the fresh id of the last item with that value, and keys absent from the batch keep their old mapping |
| DataCommands.ReadManyCompletes | packages/framework/src/widget-core/middleware/data/commands.ts:146-157 | one occurrence of the initiator leaves `loading` (the last entry when it is absent), the initiator is appended to `completed`, and `failed` and the other slots are untouched |
| DataCommands.ReadManyPlacesBatch | packages/framework/src/widget-core/middleware/data/commands.ts:159-175 | a paginated read caches the page with its total, appends its key to the loaded pages and puts the total on the cursor; an unpaginated one replaces `order` with the batch |
| DataCommands.NextPage | packages/framework/src/widget-core/middleware/data/commands.ts:194-213 | fails exactly when the initiator has no cursor; otherwise moves only its offset, keeping size, total and start |
| DataCommands.PrevPage | packages/framework/src/widget-core/middleware/data/commands.ts:215-233 | fails exactly when the initiator has no cursor; otherwise moves only its offset |
| DataCommands.GotoPage | packages/framework/src/widget-core/middleware/data/commands.ts:235-255 | fails exactly when the initiator has no cursor; otherwise moves only its offset |
| DataCommands.LastPageStartIsLastAlignedOffset | packages/framework/src/widget-core/middleware/data/commands.ts:194-213 | the clamp target `total - (total % size \|\| size)` is the largest size-aligned offset below the total |
| DataCommands.NextPageStaysInRange | packages/framework/src/widget-core/middleware/data/commands.ts:194-213 | `nextPage` stays in `[0, total)` and keeps an aligned cursor on the page grid |
| DataCommands.PrevPageStaysInRange | packages/framework/src/widget-core/middleware/data/commands.ts:215-233 | `prevPage` never goes below 0 and keeps an aligned cursor aligned |
| DataCommands.GotoPageStaysInRange | packages/framework/src/widget-core/middleware/data/commands.ts:235-255 | `gotoPage` lands on an aligned offset between 0 and the last page start, whatever the page number |
| DataCommands.NextPageFixedOnLastPage | packages/framework/src/widget-core/middleware/data/commands.ts:194-213 | on the last page `nextPage` does not move |
| DataCommands.ZeroTotalClampsBelowZero | packages/framework/src/widget-core/middleware/data/commands.ts:194-213 | with a total of 0 and a positive size, `nextPage` from any cursor whose next offset is not negative, and `gotoPage` to any page from 1 on, yield the negative offset `-size` |
| DataCommands.InvalidatePagination | packages/framework/src/widget-core/middleware/data/commands.ts:257-261 | empties the loaded-page list and changes nothing else |
| DataCommands.PushFailed | packages/framework/src/widget-core/middleware/data/commands.ts:268-273 | the in-place `push` onto the stored `read.many.failed` array appends the initiator there and keeps every other list, slot and field |
| DataCommands.FailedResource | packages/framework/src/widget-core/middleware/data/commands.ts:263-280 | the failed list of `read.many`, plus the initiator, goes into the target slot's failed list and, through the in-place push, into `read.many.failed` too, whatever the action and type; the completed list, minus one occurrence of the initiator, goes into the target's loading list; for another target `read.many`'s loading and completed lists are kept; every slot other than the target and `read/many` is kept |
| DataCommands.FailedResourceMarksAnotherConsumerLoading | packages/framework/src/widget-core/middleware/data/commands.ts:263-280 | when the failing initiator never completed, `loading` receives the completed list minus its last entry, so every other consumer that had completed is reported as loading |
| DataCommands.FailedPageCommand | packages/framework/src/widget-core/middleware/data/commands.ts:263-280 | without an action or type, `failedResource` still appends the initiator to `read.many.failed` (the in-place push) and keeps the other lists and fields |
| DataMiddleware.CreateEngine | packages/framework/src/widget-core/middleware/data/index.ts:118 | the middleware starts on an initialised partition with empty status lists, no handles and no reads in flight |
| DataMiddleware.GetStatus | packages/framework/src/widget-core/middleware/data/index.ts:121-146 | throws exactly when the selected slot is missing, and otherwise reports whether the consumer is in the selected list |
| DataMiddleware.StatusDefaults | packages/framework/src/widget-core/middleware/data/index.ts:121-146 | without options the query reads `read.many`, and with only an action it reads that action's `many` slot; on an initialised partition the default query never throws |
| DataMiddleware.PageCount | packages/framework/src/widget-core/middleware/data/index.ts:148-154 | undefined exactly without a cursor; otherwise the number of pages of `size` needed to hold the total |
| DataMiddleware.PageIndex | packages/framework/src/widget-core/middleware/data/index.ts:156-162 | undefined exactly without a cursor; otherwise the 1-based page the offset lies on |
| DataMiddleware.WindowIsCurrentPage | packages/framework/src/widget-core/middleware/data/index.ts:156-162 | a cursor stored from a requested window reports the requested page as current |
| DataMiddleware.LastPageIsTotal | packages/framework/src/widget-core/middleware/data/index.ts:148-162 | on the page `next` clamps to, the current page equals the page count |
| DataMiddleware.PageOps | packages/framework/src/widget-core/middleware/data/index.ts:190-203 | each page command fails exactly without a cursor and otherwise moves the cursor to its command's offset |
| DataMiddleware.PageStep | packages/framework/src/widget-core/middleware/data/index.ts:190-203 | subscribes the consumer to the pagination meta and changes only its cursor's offset; without a cursor, the consumer is appended to `read.many.failed` and nothing else changes |
| DataMiddleware.PageRecords | packages/framework/src/widget-core/middleware/data/index.ts:263-266 | one entry per cached id, present exactly when the id has data |
| DataMiddleware.AllIds | packages/framework/src/widget-core/middleware/data/index.ts:268-276 | the flattened `order` holds exactly the ids of its batches |
| DataMiddleware.PresentContents | packages/framework/src/widget-core/middleware/data/index.ts:268-276 | only records of listed ids with data are returned, and each listed id with data has its record returned |
| DataMiddleware.AllPresent | packages/framework/src/widget-core/middleware/data/index.ts:268-276 | when every id has data, the records come back one per id, in order |
| DataMiddleware.StartReadEffect | packages/framework/src/widget-core/middleware/data/index.ts:233-255 | starting a read marks the consumer loading, stores its window, draws a batch id, records one pending read and subscribes the consumer to `data` |
| DataMiddleware.DispatchEffect | packages/framework/src/widget-core/middleware/data/index.ts:233-255 | a dispatch first invalidates the loaded pages when the consumer has not completed, then starts the read |
| DataMiddleware.GetOrReadDispatch | packages/framework/src/widget-core/middleware/data/index.ts:205-261 | the loading guard returns undefined and changes nothing; otherwise exactly one read is dispatched when one is wanted and none when not |
| DataMiddleware.NoSecondDispatchWhileLoading | packages/framework/src/widget-core/middleware/data/index.ts:220-231 | a call repeated right after a dispatching call is held back and dispatches nothing |
| DataMiddleware.GetOrReadResult | packages/framework/src/widget-core/middleware/data/index.ts:257-276 | undefined exactly when the consumer has not completed and the page has no cached ids; otherwise the cached page's records or those of `order` |
| DataMiddleware.CompletedReadIsStable | packages/framework/src/widget-core/middleware/data/index.ts:205-276 | a completed, non-loading consumer's unpaginated call changes nothing and returns the records of `order` |
| DataMiddleware.LoadedPageIsStable | packages/framework/src/widget-core/middleware/data/index.ts:205-255 | a completed consumer asking for a loaded page reads nothing |
| DataMiddleware.Settle | packages/framework/src/widget-core/middleware/data/index.ts:88-104 | settling removes exactly that pending read and keeps the engine valid; success completes the consumer and draws one id per item; a failure, while the store still holds what the read's `beforeReadMany` wrote, rolls it back and puts the consumer in `failed`, and otherwise the undo's leading `test` throws and the store is left unchanged |
| DataMiddleware.SettleKeepsRecords | packages/framework/src/widget-core/middleware/data/commands.ts:121-144 | in a valid engine a success never loses or overwrites a stored record or meta, and a failure leaves them unchanged |
| DataMiddleware.ValidDrawsFreshIds | packages/framework/src/widget-core/middleware/data/commands.ts:121-144 | in a valid engine the ids the next response draws are pairwise distinct and hold no record or meta yet |
| DataMiddleware.StartReadStillHolds | packages/framework/src/widget-core/middleware/data/index.ts:88-104 | right after a read starts, the store still holds every value its `beforeReadMany` wrote, so the undo's tests would pass |
| DataMiddleware.OvertakenFailureKeepsStore | packages/framework/src/widget-core/middleware/data/index.ts:88-104 | when a second read started after the first, the first read's failure leaves the store unchanged: its consumer stays loading and the failed list does not change |
| DataMiddleware.StartReadThenFail | packages/framework/src/widget-core/middleware/data/index.ts:88-104 | a read that fails right after it started leaves the store as `failedResource` would leave the store from before the read |
| DataMiddleware.FailedReadRollsBack | packages/framework/src/widget-core/middleware/data/index.ts:88-104 | a failed first read restores cursor, data, order and cache; the loaded pages stay invalidated; and the consumer is failed |
| DataMiddleware.SettleUnpaginated | packages/framework/src/widget-core/middleware/data/index.ts:233-255 | a successful unpaginated read leaves `order` as the single batch with the templated items under their fresh ids |
| DataMiddleware.RenderAfterSettle | packages/framework/src/widget-core/middleware/data/index.ts:257-276 | after the read settled, the next call returns the templated items |
| DataMiddleware.ReadThenRender | packages/framework/src/widget-core/middleware/data/index.ts:205-276 | round trip: a new consumer first gets undefined; once the read succeeds it gets the templated items in response order |
| DataMiddleware.OneBatchRecords | packages/framework/src/widget-core/middleware/data/index.ts:268-276 | flattening an `order` that holds one stored batch gives back the batch's templated items in order |
| DataMiddleware.GetOrReadKeepsValid | packages/framework/src/widget-core/middleware/data/index.ts:164-177 | every call keeps the partition initialised, at most one handle per consumer and path, every stored id below the counter, and pending undos to status lists and cursors |
| Provider.WidgetStatus | packages/resources/src/provider.ts:131-156 | `_getStatus` reads `action/type`, `action/many` or `read/many`, throws exactly when that slot is missing, and otherwise reports membership |
| Provider.WidgetWindow | packages/resources/src/provider.ts:215-235 | the stored cursor's window, moved to a truthy requested start that differs from the stored one; without a stored cursor, the requested window |
| Provider.WidgetDispatch | packages/resources/src/provider.ts:239-257 | a loading widget gets undefined and changes nothing; otherwise exactly one read starts when one is wanted (no invalidation) and none when not |
| Provider.WidgetResult | packages/resources/src/provider.ts:259-278 | undefined exactly when the widget has not completed, even for a cached page; otherwise the cached page's records or those of `order` |
| Provider.WidgetRerenderDoesNotRead | packages/resources/src/provider.ts:214-279 | re-rendering a completed widget whose page is cached changes nothing and returns the same again |
| Provider.NewWidgetFailedRead | packages/resources/src/provider.ts:88-103 | a new widget's failed read leaves the store as `failedResource` would leave the store from before the call |
| Provider.CursorNeverStored | packages/resources/src/provider.ts:158-172 | no call, page command or settle writes `meta.pagination[id]`, so without it `_total` and `_current` stay undefined and the window is the requested one |
| Provider.Release | packages/resources/src/provider.ts:119-129 | destroying a widget removes exactly its own handles and keeps the others unique |
| Provider.DestroyWidget | packages/resources/src/provider.ts:119-129 | after destruction the engine stays valid and the widget holds no handle on any path |
| LegacyCommands.PutEntry | packages/resources/src/commands.ts:54 | writing `order[batchId]` keeps an existing key's position and appends a new key |
| LegacyCommands.LegacyBeforeReadMany | packages/resources/src/commands.ts:18-25 | one operation, which sets the status to `'loading'` and nothing else |
| LegacyCommands.LegacyBeforeReadManyUndo | packages/resources/src/ResourceProvider.ts:19-27 | the recorded undo, applied after `beforeReadMany`, restores the partition |
| LegacyCommands.LegacyReadMany | packages/resources/src/commands.ts:27-57 | a failed read throws `Read many operation failed`; otherwise `3n+2` operations ending with the `'completed'` status and the order entry of the fresh ids |
| LegacyCommands.LegacyReadManyLayout | packages/resources/src/commands.ts:41-50 | item `i` is written by operations `3i`, `3i+1` and `3i+2`: id mapping, templated data and completed meta under `next + i` |
| LegacyCommands.EmptyReadMany | packages/resources/tests/unit/commands.ts:21-40 | an empty read emits exactly the status and an empty order entry |
| LegacyCommands.TwoItemReadMany | packages/resources/tests/unit/commands.ts:42-78 | two items give the two triples in input order, then the status and the order entry |
| LegacyCommands.ApplyItemOps | packages/resources/src/commands.ts:41-50 | the per-item writes merge the batch's id mappings, data and metas into the partition |
| LegacyCommands.LegacyReadManyStoresItem | packages/resources/src/commands.ts:41-50 | after a successful read, item `i`'s templated data and completed meta sit under `next + i` |
| LegacyCommands.LegacyReadManyKeepsData | packages/resources/src/commands.ts:41-55 | a record under an id outside the batch is kept |
| LegacyCommands.LegacyReadManyEffect | packages/resources/src/commands.ts:39-55 | the status is `'completed'`, `order[batchId]` holds the distinct fresh ids, and each `idKey` value maps to its last item's id |
| LegacyProvider.OrderIds | packages/resources/src/ResourceProvider.ts:62-75 | flattening `order` yields exactly the ids its array and truthy single values name |
| LegacyProvider.RecordsContents | packages/resources/src/ResourceProvider.ts:62-75 | only records of listed ids with data are returned, and each one is |
| LegacyProvider.LegacyGetOrRead | packages/resources/src/ResourceProvider.ts:36-76 | nothing while loading; a dispatch with a new listener, a fresh batch id and a restoring undo while not completed; the records of `order` once completed; every stored id stays below the counter |
| LegacyProvider.LegacySettle | packages/resources/src/ResourceProvider.ts:19-27 | success completes the partition and draws one id per item; failure applies only the recorded undo; every stored id stays below the counter |
| LegacyProvider.LegacySettleKeepsRecords | packages/resources/src/commands.ts:41-55 | a success never loses or overwrites a stored record or item meta, and a failure changes only the status |
| LegacyCommands.LegacyReadManyKeepsEntities | packages/resources/src/commands.ts:41-55 | when every stored id is below the counter, a successful read keeps every stored record and item meta and leaves every id below the advanced counter |
| LegacyCommands.StatusOnlyKeepsEntities | packages/resources/src/ResourceProvider.ts:19-27 | the recorded undo, status writes only, leaves everything but the status unchanged |
| LegacyProvider.FailedReadRestores | packages/resources/src/ResourceProvider.ts:19-27 | a failed read leaves the partition exactly as before the call, and the status never becomes `'failed'` |
| LegacyProvider.AllPresentRecords | packages/resources/src/ResourceProvider.ts:62-75 | ids that all have data give back their records in order |
| LegacyProvider.WrittenBatchRecords | packages/resources/src/ResourceProvider.ts:62-75 | the fresh ids, read through data the batch was written into, give back the templated items in order |
| LegacyProvider.SettledRecords | packages/resources/src/ResourceProvider.ts:58-75 | a successful read into a partition without batches leaves exactly its templated items to render |
| LegacyProvider.ReadThenRender | packages/resources/src/ResourceProvider.ts:36-76 | round trip: the first call returns nothing; after the read succeeds, the next call returns the templated items in order and a further call changes nothing |
| LegacyProvider.CompletedIsStable | packages/resources/src/ResourceProvider.ts:44 | once completed, no call by any widget reads again |
| LegacyProvider.RedispatchAddsListener | packages/resources/src/ResourceProvider.ts:45-52 | every dispatch registers one more listener, even for a widget that has one |
| LegacyProvider.ReleaseListeners | packages/resources/src/ResourceProvider.ts:48-52 | destroying a widget removes all its handles and no others |
| Elements.NodeKinds | packages/vdom-next/src/widget-core/tsx.ts:53-68 | a `dom()` node is a virtual node, nothing is both a widget node and a virtual node, and strings, `true` and falsy values are neither |
| Elements.SpreadAllIsFlatten | packages/vdom-next/src/widget-core/tsx.ts:101-107 | folding `spreadChildren` appends the deep flatten of the list |
| Elements.SpreadChildrenFlattens | packages/framework/src/widget-core/tsx.ts:134-140 | the children built hold no arrays, keep the non-array values in left-to-right order, and are left unchanged by a second flatten |
| Elements.InvokeFactory | packages/vdom-next/src/widget-core/tsx.ts:130-132 | calling a `widget()` factory makes a widget node of its callback and marks the callback with its middlewares |
| Elements.W | packages/vdom-next/src/widget-core/tsx.ts:119-146 | a factory is called; an existing widget node is re-created with its properties overridden and its children replaced when new ones are given; anything else becomes a new node's constructor |
| Elements.WMergeLaw | packages/framework/src/widget-core/tsx.ts:116-131 | re-wrapping a node `w` made equals one `w` call with the merged properties and the later children |
| Elements.FactoryDelegates | packages/framework/src/widget-core/tsx.ts:88-93 | a factory's node is the node `w` makes for its callback directly |
| Elements.MergeProps | packages/vdom-next/src/widget-core/tsx.ts:174-183 | classes are concatenated; styles and other properties are merged with the new values winning |
| Elements.MergePropsAssociative | packages/vdom-next/src/widget-core/tsx.ts:174-183 | merging properties in two steps or in one gives the same result |
| Elements.V | packages/vdom-next/src/widget-core/tsx.ts:156-192 | an array argument is the children and a function the deferred callback; over a node the tag is unwrapped, properties merged and children kept unless given; the result is a plain virtual node |
| Elements.VMergeLaw | packages/vdom-next/src/widget-core/tsx.ts:174-191 | extending a node twice equals extending it once with the merged properties |
| Elements.Tsx | packages/vdom-next/src/widget-core/tsx.ts:194-209 | a string tag (a name or a string value) makes `v` of it; a registry tag with a truthy marker makes `w` of the marker's value without the marker; a `FromRegistry` class makes `w` of its item name; anything else makes `w` of itself; the properties default to `{}` and the children are deep-flattened |
| Elements.TsxAutoRegistry | packages/vdom-next/src/widget-core/tsx.ts:194-209 | a registry tag with a truthy marker makes a widget node of the marker's value, with every other property and its value, and the flattened children |
| Elements.TsxReplacesNodeChildren | packages/framework/src/widget-core/tsx.ts:142-157 | `tsx` over a widget node always replaces its children, by `[]` when none are given |
| Elements.WidgetFactory | packages/vdom-next/src/widget-core/tsx.ts:215-233 | `widget()` makes a factory that `w` recognises and whose call marks the callback |
| Elements.CreateMiddleware | packages/vdom-next/src/widget-core/tsx.ts:235-269 | with a callback, both arguments are kept; without one, the first argument is the callback |

## Left out

- Asynchrony: `await read()` and the process's promise timing are not modelled. A read is dispatched in one step and settled in a later one, chosen by the caller.
- `uuid()` is a counter. Only distinctness from earlier ids matters to the engine, and a counter gives that.
- The path prefix and the page-key strings `size-N-offset-M` are not modelled as strings. A partition is one value, and page keys are pairs; the string encoding is injective, so nothing is lost.
- The store itself is not part of this model: `onChange` callbacks, `invalidate()`, the patch machinery, and a missing injector or store. Operations are applied as the `replace` semantics on each path prescribe. Applying the undo operations is taken to be all-or-nothing: when one of their leading `test` operations fails, the store is left as it was (`DataMiddleware.Settle`).
- The build-time-render branch of `getOrRead` and its `console.log` are left out; they are I/O.
- Missing status lists are read as empty lists. A status write on a missing slot creates it, as `replace` creates missing parents.
- A `SetCursorTotal` write on a consumer without a cursor is dropped. Cursors are removed only by a failed read's undo, so this needs such an undo to remove the cursor while a paginated read of the same consumer is still pending. The store would instead create a cursor holding only `total`, and the model does not follow what that cursor then does: `total()` and `current()` would give `NaN` rather than `undefined` (`packages/framework/src/widget-core/middleware/data/index.ts:148-162`); a loading consumer asking for page 1 would no longer be held back, since `start` is missing (`index.ts:220-224`); and `nextPage` would write the offset `NaN` rather than throw, where the model's page command fails (`packages/framework/src/widget-core/middleware/data/commands.ts:197-211`).
- The error hook of the page-command process receives a payload with no action or type. Its `failedResource` call is modelled by the in-place push onto `read.many.failed` alone; the two `replace` writes at the `undefined` action path are not modelled, because how the store builds a path from `undefined` segments is not part of this model.
- Elements.Tsx: a `null` or `undefined` tag makes reading `tag.type` throw; the model passes it to `w` like any other value.
- Numbers are integers. `NaN`, fractional pages and floating-point division are not modelled, with two exceptions: `total % 0` counts as falsy, and the `NaN` or `Infinity` that `Math.ceil(total / size)` gives for a missing total or a zero size is the `NotFinite` case of `DataMiddleware.PageNumber`.
- `options.options`, the REST resource factories, the intersection, resize, base and cache middlewares, and the resource configuration types are outside the core.
- LegacyProvider.LegacyGetOrRead: `_initial` is never set to `true` in the code, so the forced first read is not modelled.
- LegacyProvider: the difference between a missing and an empty `order`, and a template that returns a falsy value, are not distinguished: both render nothing for that entry.
- The listener-count expectation of `packages/resources/tests/unit/ResourceProvider.ts:135-176` depends on render invalidation counts, which are not modelled.
- Elements: hand-made functions with an `isFactory` field, `w` with `undefined` properties, and a non-object `styles` value are not modelled: the model reads every non-object `styles` as `{}`, while the code spreads a string by character index (`{...'ab'}` is `{0: 'a', 1: 'b'}`) and an array by element index. Neither are the registry class details of `isWidget`, or `d.ts`.
- DataMiddleware.Present: its ensures states only the length bound and that every entry is present. The contents are stated in `DataMiddleware.PresentContents` and `DataMiddleware.AllPresent`.
- LegacyProvider.Records: its ensures states only the length bound. The contents are stated in `LegacyProvider.RecordsContents` and `LegacyProvider.AllPresentRecords`.
- LegacyCommands.ItemOps: its ensures states only the operation count. The layout is stated in `LegacyCommands.ItemOpsLayout` and `LegacyCommands.LegacyReadManyLayout`.

=== FILE: common.dfy ===
/**
 * Small building blocks shared by every module of the model: the usual
 * Option/Result wrappers and the handful of JavaScript array and number
 * operations whose exact semantics the resource engine depends on.
 */
module Common {

  datatype Option<+T> = None | Some(value: T)

  /** A thrown error is modelled as an `Err` carrying the error message. */
  datatype Result<+T> = Ok(value: T) | Err(error: string)

  /** Number of occurrences of `x` in `s`. */
  function Count<T(==)>(s: seq<T>, x: T): nat
  {
    multiset(s)[x]
  }

  /** `s.indexOf(x)`: the position of the first occurrence, or -1. */
  function IndexOf<T(==)>(s: seq<T>, x: T): (i: int)
    ensures -1 <= i < |s|
    ensures i == -1 <==> x !in s
    ensures 0 <= i ==> s[i] == x && x !in s[..i]
  {
    if |s| == 0 then -1
    else if s[0] == x then 0
    else
      var j := IndexOf(s[1..], x);
      if j == -1 then -1
      else
        assert s[..j + 1] == [s[0]] + s[1..][..j];
        j + 1
  }

  /**
   * `s.splice(start, 1)` applied to a copy of `s`: a negative start counts
   * from the end (so -1 means the last element), a start past the end
   * removes nothing.
   */
  function RemoveAt<T>(s: seq<T>, start: int): (r: seq<T>)
    ensures |s| == 0 ==> r == []
    ensures -|s| <= start < |s| ==> |r| == |s| - 1
    ensures start == -1 && |s| > 0 ==> r == s[..|s| - 1]
    ensures 0 <= start < |s| ==> r == s[..start] + s[start + 1..]
    ensures start >= |s| ==> r == s
  {
    var k := if start < 0 then (if |s| + start < 0 then 0 else |s| + start)
             else (if start > |s| then |s| else start);
    if k < |s| then s[..k] + s[k + 1..] else s
  }

  /**
   * The idiom `s.splice(s.indexOf(x), 1)`: removes the first occurrence of
   * `x` when there is one, and otherwise drops the LAST element.
   */
  lemma {:induction false} RemoveFirstOccurrence<T>(s: seq<T>, x: T)
    ensures x in s ==> multiset(RemoveAt(s, IndexOf(s, x))) == multiset(s) - multiset{x}
    ensures x in s ==> forall y :: y != x ==> Count(RemoveAt(s, IndexOf(s, x)), y) == Count(s, y)
    ensures x !in s && |s| > 0 ==> RemoveAt(s, IndexOf(s, x)) == s[..|s| - 1]
    ensures |RemoveAt(s, IndexOf(s, x))| == if |s| == 0 then 0 else |s| - 1
  {
    var i := IndexOf(s, x);
    if x in s {
      var r := RemoveAt(s, i);
      assert r == s[..i] + s[i + 1..];
      assert s == s[..i] + [x] + s[i + 1..];
      calc {
        multiset(s);
        multiset(s[..i]) + multiset([x]) + multiset(s[i + 1..]);
        multiset(r) + multiset{x};
      }
    }
  }

  /** Falsy numbers in JavaScript: `undefined` (None) and 0. */
  predicate FalsyNumber(n: Option<int>)
  {
    n.None? || n.value == 0
  }

  function Abs(a: int): nat
  {
    if a < 0 then -a else a
  }

  /** `a % b` in JavaScript (b != 0): truncated, the remainder has the sign of `a`. */
  function JsRem(a: int, b: int): (r: int)
    requires b != 0
    ensures Abs(r) < Abs(b)
    ensures a >= 0 ==> 0 <= r && r == a % Abs(b)
    ensures a < 0 ==> r <= 0 && r == -((-a) % Abs(b))
  {
    if a >= 0 then a % Abs(b)
    else
      -((-a) % Abs(b))
  }

  /** `Math.ceil(a / b)` for b != 0. */
  function CeilDiv(a: int, b: int): (r: int)
    requires b != 0
    ensures b > 0 ==> b * (r - 1) < a <= b * r
    ensures b < 0 ==> b * r <= a < b * (r - 1)
  {
    if b > 0 then
      var q := (-a) / b;
      assert b * q <= -a < b * q + b;
      -q
    else
      var q := a / b;
      assert b * q <= a < b * q - b;
      q
  }
}

=== FILE: data_commands.dfy ===
/**
 * The commands of the data middleware (the most capable engine): pure
 * functions from the current partition and a payload to patch operations.
 * Their effect is stated on `Apply(s, ops)`.
 */
module DataCommands {
  import opened Common
  import opened DataStore

  /** `PaginationPayload`: the window one read asks for. */
  datatype Window = Window(offset: int, size: int, start: int)

  /** `ManyResourceResponse`. */
  datatype Response = Response(data: seq<Record>, total: Option<int>, success: bool)

  /** The fields of `ReadManyPayload` the commands read (`config.template` is passed apart). */
  datatype ReadPayload = ReadPayload(initiator: Uuid, batchId: Uuid, idKey: string, pagination: Option<Window>)

  const ReadFailedMessage := "Read many operation failed"

  /** The page total stored when the response has no (or a zero) total. */
  const UnknownTotal := 1000000000

  /** A page command reading a missing cursor throws a TypeError. */
  const MissingCursorMessage := "Cannot read property 'offset' of undefined"

  /** Every status slot other than `action/actionType` is untouched. */
  ghost predicate OtherSlotsKept(s: Partition, t: Partition, action: string, actionType: string)
  {
    forall a, ty :: (a, ty) != (action, actionType) ==> Slot(t, a, ty) == Slot(s, a, ty)
  }

  // ---------------------------------------------------------------- init

  function InitializeResource(s: Partition): (ops: seq<Op>)
    ensures ops == [] <==> s.actions.Some?
    ensures var t := Apply(s, ops);
      && t.actions.Some?
      && (s.actions.None? ==> Ready(t) && forall k :: ReadMany(t, k) == [])
      && t == s.(actions := t.actions)
  {
    if s.actions.Some? then []
    else
      var op := SetActions(map["read" := map["many" := NoStatuses]]);
      ApplyOne(s, op);
      [op]
  }

  /** Running initialisation a second time emits nothing and changes nothing. */
  lemma InitializeIsIdempotent(s: Partition)
    ensures var t := Apply(s, InitializeResource(s));
      InitializeResource(t) == [] && Apply(t, InitializeResource(t)) == t
  {
  }

  // ---------------------------------------------------------- before read

  function BeforeReadMany(s: Partition, initiator: Uuid, pagination: Option<Window>): seq<Op>
  {
    var loadingOp := SetStatusList("read", "many", Loading, ReadMany(s, Loading) + [initiator]);
    if pagination.Some? then
      var w := pagination.value;
      // the spread of the old cursor under the window keeps only its `total`
      var kept := if initiator in s.current then s.current[initiator].total else None;
      [loadingOp, SetCursor(initiator, Cursor(w.offset, w.size, kept, w.start))]
    else
      [loadingOp]
  }

  /**
   * `beforeReadMany` appends the initiator to `read.many.loading` and, for
   * a paginated read, stores the window as the initiator's cursor, keeping
   * the total it had; nothing else changes.
   */
  lemma BeforeReadManyEffect(s: Partition, initiator: Uuid, pagination: Option<Window>)
    ensures var t := Apply(s, BeforeReadMany(s, initiator, pagination));
      && Ready(t)
      && ReadMany(t, Loading) == ReadMany(s, Loading) + [initiator]
      && ReadMany(t, Failed) == ReadMany(s, Failed)
      && ReadMany(t, Completed) == ReadMany(s, Completed)
      && OtherSlotsKept(s, t, "read", "many")
      && (pagination.None? ==> t.current == s.current)
      && (pagination.Some? ==>
            && initiator in t.current
            && t.current[initiator].offset == pagination.value.offset
            && t.current[initiator].size == pagination.value.size
            && t.current[initiator].start == pagination.value.start
            && t.current[initiator].total == (if initiator in s.current then s.current[initiator].total else None)
            && t.current - {initiator} == s.current - {initiator})
      && t == s.(actions := t.actions, current := t.current)
  {
    var ops := BeforeReadMany(s, initiator, pagination);
    PutListEffect(s, "read", "many", Loading, ReadMany(s, Loading) + [initiator]);
    if pagination.Some? {
      var s1 := ApplyOp(s, ops[0]);
      ApplyTwo(s, ops[0], ops[1]);
      SameActionsSameSlots(ApplyOp(s1, ops[1]), s1);
    } else {
      ApplyOne(s, ops[0]);
    }
  }

  /**
   * The undo operations the process records for `beforeReadMany`: the old
   * loading list, and the old cursor (or its removal when there was none).
   */
  function BeforeReadManyUndo(s: Partition, initiator: Uuid, pagination: Option<Window>): (undo: seq<Op>)
    ensures UndoOps(undo)
  {
    var restoreLoading := SetStatusList("read", "many", Loading, ReadMany(s, Loading));
    if pagination.None? then [restoreLoading]
    else if initiator in s.current then [restoreLoading, SetCursor(initiator, s.current[initiator])]
    else [restoreLoading, RemoveCursor(initiator)]
  }

  /** Writing back the list a slot already holds changes nothing. */
  lemma PutListUnchanged(s: Partition, kind: StatusKind)
    requires Ready(s)
    ensures ApplyOp(s, SetStatusList("read", "many", kind, ReadMany(s, kind))) == s
  {
    var acts: Actions := s.actions.value;
    var st: Statuses := acts["read"]["many"];
    assert WithList(st, kind, ListOf(st, kind)) == st;
    assert acts["read"]["many" := st] == acts["read"];
    assert acts["read" := acts["read"]] == acts;
  }

  /** Restoring the loading list right after `beforeReadMany` appended to it gives back the old status slots. */
  lemma RestoreLoading(s: Partition, x: seq<Uuid>)
    requires Ready(s)
    ensures ApplyOp(ApplyOp(s, SetStatusList("read", "many", Loading, x)), SetStatusList("read", "many", Loading, ReadMany(s, Loading))) == s
  {
    PutListOverwrites(s, "read", "many", Loading, x, ReadMany(s, Loading));
    PutListUnchanged(s, Loading);
  }

  /** Writing back the old cursor, or removing the one a window created, gives back the old cursors. */
  lemma RestoreCursor(s: Partition, initiator: Uuid, c: Cursor, undo: Op)
    requires undo == if initiator in s.current then SetCursor(initiator, s.current[initiator]) else RemoveCursor(initiator)
    ensures ApplyOp(ApplyOp(s, SetCursor(initiator, c)), undo) == s
  {
    if initiator in s.current {
      assert s.current[initiator := c][initiator := s.current[initiator]] == s.current;
    } else {
      assert s.current[initiator := c] - {initiator} == s.current;
    }
  }

  /** Undoing `beforeReadMany` right after it restores the partition exactly. */
  lemma UndoBeforeReadMany(s: Partition, initiator: Uuid, pagination: Option<Window>)
    requires Ready(s)
    ensures Apply(Apply(s, BeforeReadMany(s, initiator, pagination)), BeforeReadManyUndo(s, initiator, pagination)) == s
  {
    var ops := BeforeReadMany(s, initiator, pagination);
    var undo := BeforeReadManyUndo(s, initiator, pagination);
    RestoreLoading(s, ops[0].ids);
    if pagination.Some? {
      var c := ops[1].cursor;
      var s1 := ApplyOp(s, ops[0]);
      var s2 := ApplyOp(s1, ops[1]);
      ApplyTwo(s, ops[0], ops[1]);
      ApplyTwo(s2, undo[0], undo[1]);
      assert s2 == ApplyOp(s, ops[1]).(actions := s1.actions);
      assert ApplyOp(s2, undo[0]) == ApplyOp(s, ops[1]);
      RestoreCursor(s, initiator, c, undo[1]);
    } else {
      ApplyOne(s, ops[0]);
      ApplyOne(ApplyOp(s, ops[0]), undo[0]);
    }
  }

  // ------------------------------------------------------------- read many

  /** The synthetic ids `uuid()` hands out for a batch of `n` items. */
  function FreshIds(next: Uuid, n: nat): (ids: seq<Uuid>)
    ensures |ids| == n
    ensures forall i :: 0 <= i < n ==> ids[i] == next + i
  {
    seq(n, i requires 0 <= i < n => next + i)
  }

  /** Each item of a batch gets its own synthetic id, unused by the partition so far. */
  lemma FreshIdsAreNew(s: Partition, next: Uuid, n: nat)
    requires forall k :: k in s.data ==> k < next
    ensures forall i, j :: 0 <= i < j < n ==> FreshIds(next, n)[i] != FreshIds(next, n)[j]
    ensures forall i :: 0 <= i < n ==> FreshIds(next, n)[i] !in s.data
  {
  }

  /** Ids are drawn in order: every stored record and item meta has an id below `next`. */
  ghost predicate IdsBelow(s: Partition, next: Uuid)
  {
    && (forall k :: k in s.data ==> k < next)
    && (forall k :: k in s.items ==> k < next)
  }

  /** The ids of a batch are exactly those from `next` up to `next + n`. */
  lemma FreshIdsRange(next: Uuid, n: nat)
    ensures forall k :: k in FreshIds(next, n) <==> next <= k < next + n
  {
    var ids := FreshIds(next, n);
    forall k | next <= k < next + n
      ensures k in ids
    {
      assert ids[k - next] == k;
    }
  }

  /** `data[syntheticId] = template(item)` for each item. */
  function BatchData(items: seq<Record>, template: Record -> Record, next: Uuid): (m: map<Uuid, Record>)
    ensures forall k :: k in m <==> k in FreshIds(next, |items|)
    ensures forall i :: 0 <= i < |items| ==>
      FreshIds(next, |items|)[i] in m && m[FreshIds(next, |items|)[i]] == template(items[i])
  {
    var ids := FreshIds(next, |items|);
    map k | k in ids :: template(items[k - next])
  }

  /** `metaItems[syntheticId]`: the item was read, completed by the initiator. */
  function BatchItems(ids: seq<Uuid>, initiator: Uuid): (m: map<Uuid, ItemMeta>)
    ensures forall k :: k in m <==> k in ids
    ensures forall k :: k in m ==> m[k] == ItemMeta(Statuses([], [], [initiator]))
  {
    map k | k in ids :: ItemMeta(Statuses([], [], [initiator]))
  }

  /** The position of the last item whose `idKey` value is `k`, or -1 when there is none. */
  function LastIndexOfKey(items: seq<Record>, idKey: string, k: string): (r: int)
    ensures -1 <= r < |items|
    ensures r >= 0 ==> KeyOf(items[r], idKey) == k
    ensures forall j :: r < j < |items| ==> KeyOf(items[j], idKey) != k
    decreases |items|
  {
    if |items| == 0 then -1
    else if KeyOf(items[|items| - 1], idKey) == k then |items| - 1
    else
      var init := items[..|items| - 1];
      var r := LastIndexOfKey(init, idKey, k);
      assert forall j :: 0 <= j < |init| ==> init[j] == items[j];
      r
  }

  /**
   * `idMap[item[idKey]] = syntheticId`, item by item: the entry for a key is
   * the synthetic id of the LAST item carrying it (later duplicates win).
   */
  function BatchIdMap(items: seq<Record>, idKey: string, next: Uuid): (m: map<string, Uuid>)
    ensures forall k :: k in m <==> LastIndexOfKey(items, idKey, k) >= 0
    ensures forall k :: k in m ==> m[k] == next + LastIndexOfKey(items, idKey, k)
    decreases |items|
  {
    if |items| == 0 then map[]
    else BatchIdMap(items[..|items| - 1], idKey, next)[KeyOf(items[|items| - 1], idKey) := next + |items| - 1]
  }

  /** The merged entity maps; none when the batch is empty. */
  function EntityOps(s: Partition, items: seq<Record>, template: Record -> Record, p: ReadPayload, next: Uuid): seq<Op>
  {
    if |items| == 0 then []
    else [SetItems(s.items + BatchItems(FreshIds(next, |items|), p.initiator)),
          SetData(s.data + BatchData(items, template, next)),
          SetIdMap(s.idMap + BatchIdMap(items, p.idKey, next))]
  }

  /** One occurrence of the initiator leaves `loading`; it is appended to `completed`. */
  function StatusOps(s: Partition, initiator: Uuid): seq<Op>
  {
    var loading := ReadMany(s, Loading);
    [SetStatusList("read", "many", Loading, RemoveAt(loading, IndexOf(loading, initiator))),
     SetStatusList("read", "many", Completed, ReadMany(s, Completed) + [initiator])]
  }

  /** Where the batch is recorded: a cached page, or the whole `order` map. */
  function PlacementOps(s: Partition, p: ReadPayload, total: Option<int>, batchIds: seq<Uuid>): seq<Op>
  {
    if p.pagination.Some? then
      var w := p.pagination.value;
      [SetLoadedPages(s.loadedPages + [PageKey(w.size, w.offset)]),
       SetPage(w.size, w.offset, batchIds),
       SetPageTotal(w.size, if FalsyNumber(total) then UnknownTotal else total.value),
       SetCursorTotal(p.initiator, total)]
    else
      [SetOrder([Batch(p.batchId, batchIds)])]
  }

  /**
   * `processReadMany`: a response that did not succeed throws; otherwise the
   * batch gets fresh synthetic ids drawn from `next`.
   */
  function ProcessReadMany(s: Partition, p: ReadPayload, resp: Response, template: Record -> Record, next: Uuid): (r: Result<seq<Op>>)
    ensures r.Err? <==> !resp.success
    ensures r.Err? ==> r.error == ReadFailedMessage
  {
    if !resp.success then Err(ReadFailedMessage)
    else
      var batchIds := FreshIds(next, |resp.data|);
      Ok(EntityOps(s, resp.data, template, p, next) + StatusOps(s, p.initiator) + PlacementOps(s, p, resp.total, batchIds))
  }

  lemma ApplyMapWrites(s: Partition, items: map<Uuid, ItemMeta>, data: map<Uuid, Record>, idMap: map<string, Uuid>)
    ensures Apply(s, [SetItems(items), SetData(data), SetIdMap(idMap)]) == s.(items := items, data := data, idMap := idMap)
  {
    ApplyThree(s, SetItems(items), SetData(data), SetIdMap(idMap));
  }

  lemma EntityOpsShape(s: Partition, items: seq<Record>, template: Record -> Record, p: ReadPayload, next: Uuid)
    ensures var t := Apply(s, EntityOps(s, items, template, p, next));
      && (|items| == 0 ==> t == s)
      && (|items| > 0 ==>
            t == s.(items := s.items + BatchItems(FreshIds(next, |items|), p.initiator),
                    data := s.data + BatchData(items, template, next),
                    idMap := s.idMap + BatchIdMap(items, p.idKey, next)))
  {
    if |items| > 0 {
      var a := SetItems(s.items + BatchItems(FreshIds(next, |items|), p.initiator));
      var b := SetData(s.data + BatchData(items, template, next));
      var c := SetIdMap(s.idMap + BatchIdMap(items, p.idKey, next));
      assert EntityOps(s, items, template, p, next) == [a, b, c];
      ApplyMapWrites(s, a.items, b.data, c.idMap);
    }
  }

  lemma StatusOpsShape(s: Partition, initiator: Uuid)
    ensures var t := Apply(s, StatusOps(s, initiator));
      && Ready(t)
      && ReadMany(t, Loading) == RemoveAt(ReadMany(s, Loading), IndexOf(ReadMany(s, Loading), initiator))
      && ReadMany(t, Completed) == ReadMany(s, Completed) + [initiator]
      && ReadMany(t, Failed) == ReadMany(s, Failed)
      && OtherSlotsKept(s, t, "read", "many")
      && t == s.(actions := t.actions)
  {
    var ops := StatusOps(s, initiator);
    ApplyTwo(s, ops[0], ops[1]);
    PutListEffect(s, "read", "many", Loading, ops[0].ids);
    PutListEffect(ApplyOp(s, ops[0]), "read", "many", Completed, ops[1].ids);
  }

  /** The page-size cache after the batch was stored as one page. */
  ghost predicate PageStored(s: Partition, t: Partition, w: Window, total: Option<int>, batchIds: seq<Uuid>)
  {
    && w.size in t.pagination
    && w.offset in t.pagination[w.size].pages
    && t.pagination[w.size].pages[w.offset] == batchIds
    && t.pagination[w.size].total == Some(if FalsyNumber(total) then UnknownTotal else total.value)
    && (w.size in s.pagination ==>
          forall o :: o in s.pagination[w.size].pages && o != w.offset ==>
            o in t.pagination[w.size].pages && t.pagination[w.size].pages[o] == s.pagination[w.size].pages[o])
    && (forall z :: z in s.pagination && z != w.size ==> z in t.pagination && t.pagination[z] == s.pagination[z])
  }

  /** Writing a page and then its total stores the page and keeps every other cached page. */
  lemma PageWritesStore(s: Partition, w: Window, total: Option<int>, batchIds: seq<Uuid>)
    ensures var t := ApplyOp(ApplyOp(s, SetPage(w.size, w.offset, batchIds)),
                             SetPageTotal(w.size, if FalsyNumber(total) then UnknownTotal else total.value));
      PageStored(s, t, w, total, batchIds) && t == s.(pagination := t.pagination)
  {
  }

  lemma PlacementOpsShape(s: Partition, p: ReadPayload, total: Option<int>, batchIds: seq<Uuid>)
    ensures var t := Apply(s, PlacementOps(s, p, total, batchIds));
      && (p.pagination.None? ==> t == s.(order := [Batch(p.batchId, batchIds)]))
      && (p.pagination.Some? ==>
            && t == s.(loadedPages := t.loadedPages, pagination := t.pagination, current := t.current)
            && t.loadedPages == s.loadedPages + [PageKey(p.pagination.value.size, p.pagination.value.offset)]
            && PageStored(s, t, p.pagination.value, total, batchIds)
            && (p.initiator in s.current ==> t.current == s.current[p.initiator := s.current[p.initiator].(total := total)])
            && (p.initiator !in s.current ==> t.current == s.current))
  {
    var ops := PlacementOps(s, p, total, batchIds);
    if p.pagination.Some? {
      ApplyFour(s, ops[0], ops[1], ops[2], ops[3]);
      var s1 := ApplyOp(s, ops[0]);
      PageWritesStore(s1, p.pagination.value, total, batchIds);
      var s3 := ApplyOp(ApplyOp(s1, ops[1]), ops[2]);
      assert PageStored(s1, s3, p.pagination.value, total, batchIds);
      assert s3.pagination == ApplyOp(s3, ops[3]).pagination;
    } else {
      ApplyOne(s, ops[0]);
    }
  }

  /** A successful read's operations are its entity, status and placement writes, in that order. */
  lemma ReadManyConcat(s: Partition, p: ReadPayload, resp: Response, template: Record -> Record, next: Uuid)
    requires resp.success
    ensures Apply(s, ProcessReadMany(s, p, resp, template, next).value)
         == Apply(Apply(Apply(s, EntityOps(s, resp.data, template, p, next)), StatusOps(s, p.initiator)),
                  PlacementOps(s, p, resp.total, FreshIds(next, |resp.data|)))
  {
    var e := EntityOps(s, resp.data, template, p, next);
    var st := StatusOps(s, p.initiator);
    var pl := PlacementOps(s, p, resp.total, FreshIds(next, |resp.data|));
    ApplyConcat(s, e, st);
    ApplyConcat(s, e + st, pl);
  }

  /** The status and placement writes only read what the earlier stages leave unchanged. */
  lemma StagesReadTheirInputs(s: Partition, p: ReadPayload, resp: Response, template: Record -> Record, next: Uuid)
    ensures var s1 := Apply(s, EntityOps(s, resp.data, template, p, next));
      var s2 := Apply(s1, StatusOps(s1, p.initiator));
      && s1 == s.(items := s1.items, data := s1.data, idMap := s1.idMap)
      && s2 == s1.(actions := s2.actions)
      && StatusOps(s1, p.initiator) == StatusOps(s, p.initiator)
      && PlacementOps(s2, p, resp.total, FreshIds(next, |resp.data|)) == PlacementOps(s, p, resp.total, FreshIds(next, |resp.data|))
  {
    EntityOpsShape(s, resp.data, template, p, next);
    var s1 := Apply(s, EntityOps(s, resp.data, template, p, next));
    StatusOpsShape(s1, p.initiator);
    var s2 := Apply(s1, StatusOps(s1, p.initiator));
    StatusOpsReadsActions(s1, s, p.initiator);
    PlacementOpsReadsLoadedPages(s2, s, p, resp.total, FreshIds(next, |resp.data|));
  }

  /** The status writes depend on the action statuses alone. */
  lemma StatusOpsReadsActions(a: Partition, b: Partition, initiator: Uuid)
    requires a.actions == b.actions
    ensures StatusOps(a, initiator) == StatusOps(b, initiator)
  {
    assert Slot(a, "read", "many") == Slot(b, "read", "many");
    assert ReadMany(a, Loading) == ReadMany(b, Loading);
    assert ReadMany(a, Completed) == ReadMany(b, Completed);
  }

  /** The placement writes depend on the loaded-page list alone. */
  lemma PlacementOpsReadsLoadedPages(a: Partition, b: Partition, p: ReadPayload, total: Option<int>, batchIds: seq<Uuid>)
    requires a.loadedPages == b.loadedPages
    ensures PlacementOps(a, p, total, batchIds) == PlacementOps(b, p, total, batchIds)
  {
  }

  /** The three stages of a successful read, each applied to the state the previous one left. */
  lemma ReadManyStages(s: Partition, p: ReadPayload, resp: Response, template: Record -> Record, next: Uuid)
    requires resp.success
    ensures var s1 := Apply(s, EntityOps(s, resp.data, template, p, next));
      var s2 := Apply(s1, StatusOps(s1, p.initiator));
      var t := Apply(s, ProcessReadMany(s, p, resp, template, next).value);
      && s1 == s.(items := s1.items, data := s1.data, idMap := s1.idMap)
      && s2 == s1.(actions := s2.actions)
      && t == Apply(s2, PlacementOps(s2, p, resp.total, FreshIds(next, |resp.data|)))
      && t.data == s1.data && t.items == s1.items && t.idMap == s1.idMap && t.actions == s2.actions
  {
    StagesReadTheirInputs(s, p, resp, template, next);
    ReadManyConcat(s, p, resp, template, next);
    var s1 := Apply(s, EntityOps(s, resp.data, template, p, next));
    var s2 := Apply(s1, StatusOps(s1, p.initiator));
    PlacementOpsShape(s2, p, resp.total, FreshIds(next, |resp.data|));
  }

  /**
   * After a successful read the templated items are stored under their
   * fresh synthetic ids, marked completed by the initiator, and every other
   * entity keeps its record.
   */
  lemma ReadManyStoresItems(s: Partition, p: ReadPayload, resp: Response, template: Record -> Record, next: Uuid)
    requires resp.success
    ensures var t := Apply(s, ProcessReadMany(s, p, resp, template, next).value);
      var ids := FreshIds(next, |resp.data|);
      && (forall i :: 0 <= i < |resp.data| ==>
            && ids[i] in t.data && t.data[ids[i]] == template(resp.data[i])
            && ids[i] in t.items && t.items[ids[i]] == ItemMeta(Statuses([], [], [p.initiator])))
      && (forall k :: k in t.data ==> k in s.data || k in ids)
      && (forall k :: k in s.data && k !in ids ==> k in t.data && t.data[k] == s.data[k])
      && (|resp.data| == 0 ==> t.data == s.data && t.items == s.items && t.idMap == s.idMap)
  {
    ReadManyStages(s, p, resp, template, next);
    EntityOpsShape(s, resp.data, template, p, next);
    var ids := FreshIds(next, |resp.data|);
    forall i | 0 <= i < |resp.data|
      ensures ids[i] in ids
    {
    }
  }

  /** Merging a map of fresh ids into one whose ids are all older keeps every old entry. */
  lemma MergeFresh<V>(prior: map<Uuid, V>, added: map<Uuid, V>, next: Uuid, n: nat)
    requires forall k :: k in prior ==> k < next
    requires forall k :: k in added ==> next <= k < next + n
    ensures forall k :: k in prior + added ==> k < next + n
    ensures forall k :: k in prior ==> k in prior + added && (prior + added)[k] == prior[k]
  {
  }

  /** Storing a batch under fresh ids keeps every older record and item meta. */
  lemma EntityOpsKeepEntities(s: Partition, items: seq<Record>, template: Record -> Record, p: ReadPayload, next: Uuid)
    ensures IdsBelow(s, next) ==>
      var t := Apply(s, EntityOps(s, items, template, p, next));
      && IdsBelow(t, next + |items|)
      && (forall k :: k in s.data ==> k in t.data && t.data[k] == s.data[k])
      && (forall k :: k in s.items ==> k in t.items && t.items[k] == s.items[k])
  {
    var n := |items|;
    var t := Apply(s, EntityOps(s, items, template, p, next));
    EntityOpsShape(s, items, template, p, next);
    if n > 0 && IdsBelow(s, next) {
      var d := BatchData(items, template, next);
      var m := BatchItems(FreshIds(next, n), p.initiator);
      assert t.data == s.data + d && t.items == s.items + m;
      BatchKeysInRange(items, template, p, next);
      MergeFresh(s.data, d, next, n);
      MergeFresh(s.items, m, next, n);
    }
  }

  /** A batch's data and metas sit under the ids from `next` up to `next + n`. */
  lemma BatchKeysInRange(items: seq<Record>, template: Record -> Record, p: ReadPayload, next: Uuid)
    ensures forall k :: k in BatchData(items, template, next) ==> next <= k < next + |items|
    ensures forall k :: k in BatchItems(FreshIds(next, |items|), p.initiator) ==> next <= k < next + |items|
  {
    FreshIdsRange(next, |items|);
  }

  /**
   * A successful read into a partition whose ids are all below `next` never
   * overwrites a stored record or item meta, and leaves every id below the
   * advanced counter.
   */
  lemma ReadManyKeepsEntities(s: Partition, p: ReadPayload, resp: Response, template: Record -> Record, next: Uuid)
    requires resp.success
    ensures IdsBelow(s, next) ==>
      var t := Apply(s, ProcessReadMany(s, p, resp, template, next).value);
      && IdsBelow(t, next + |resp.data|)
      && (forall k :: k in s.data ==> k in t.data && t.data[k] == s.data[k])
      && (forall k :: k in s.items ==> k in t.items && t.items[k] == s.items[k])
  {
    ReadManyStages(s, p, resp, template, next);
    EntityOpsKeepEntities(s, resp.data, template, p, next);
  }

  /**
   * After a successful read every item's `idKey` value maps to the fresh
   * id of the last item with that value, and keys absent from the batch
   * keep their old mapping.
   */
  lemma ReadManyMapsIds(s: Partition, p: ReadPayload, resp: Response, template: Record -> Record, next: Uuid)
    requires resp.success
    ensures var t := Apply(s, ProcessReadMany(s, p, resp, template, next).value);
      && (forall i :: 0 <= i < |resp.data| ==>
            var k := KeyOf(resp.data[i], p.idKey);
            && k in t.idMap
            && t.idMap[k] == next + LastIndexOfKey(resp.data, p.idKey, k)
            && i <= LastIndexOfKey(resp.data, p.idKey, k))
      && (forall k :: k in s.idMap && LastIndexOfKey(resp.data, p.idKey, k) == -1 ==>
            k in t.idMap && t.idMap[k] == s.idMap[k])
  {
    ReadManyStages(s, p, resp, template, next);
    EntityOpsShape(s, resp.data, template, p, next);
    MergedIdMap(s.idMap, resp.data, p.idKey, next);
  }

  /** The batch id map merged over the prior one: batch keys point at their last item, other keys are kept. */
  lemma MergedIdMap(prior: map<string, Uuid>, items: seq<Record>, idKey: string, next: Uuid)
    ensures var t := prior + BatchIdMap(items, idKey, next);
      && (forall i :: 0 <= i < |items| ==>
            var k := KeyOf(items[i], idKey);
            && k in t
            && t[k] == next + LastIndexOfKey(items, idKey, k)
            && i <= LastIndexOfKey(items, idKey, k))
      && (forall k :: k in prior && LastIndexOfKey(items, idKey, k) == -1 ==> k in t && t[k] == prior[k])
  {
  }

  /**
   * After a successful read one occurrence of the initiator has left
   * `read.many.loading` (the last entry when it was not there), the
   * initiator was appended to `completed`, and `failed` is untouched.
   */
  lemma ReadManyCompletes(s: Partition, p: ReadPayload, resp: Response, template: Record -> Record, next: Uuid)
    requires resp.success
    ensures var t := Apply(s, ProcessReadMany(s, p, resp, template, next).value);
      var loading := ReadMany(s, Loading);
      && Ready(t)
      && ReadMany(t, Loading) == RemoveAt(loading, IndexOf(loading, p.initiator))
      && (p.initiator in loading ==> multiset(ReadMany(t, Loading)) == multiset(loading) - multiset{p.initiator})
      && ReadMany(t, Completed) == ReadMany(s, Completed) + [p.initiator]
      && ReadMany(t, Failed) == ReadMany(s, Failed)
      && OtherSlotsKept(s, t, "read", "many")
  {
    ReadManyStages(s, p, resp, template, next);
    var s1 := Apply(s, EntityOps(s, resp.data, template, p, next));
    var s2 := Apply(s1, StatusOps(s1, p.initiator));
    var t := Apply(s, ProcessReadMany(s, p, resp, template, next).value);
    StatusOpsShape(s1, p.initiator);
    SameActionsSameSlots(s1, s);
    SameActionsSameSlots(t, s2);
    RemoveFirstOccurrence(ReadMany(s, Loading), p.initiator);
  }

  /** Status slots are read from `meta.actions` alone. */
  lemma SameActionsSameSlots(a: Partition, b: Partition)
    requires a.actions == b.actions
    ensures Ready(a) == Ready(b)
    ensures forall k :: ReadMany(a, k) == ReadMany(b, k)
    ensures forall x, y :: Slot(a, x, y) == Slot(b, x, y)
  {
  }

  /**
   * After a successful paginated read the page is cached under its size and
   * offset (with the total, 1000000000 when it is falsy), its key is appended
   * to the loaded pages, and the initiator's cursor takes the response total;
   * an unpaginated read replaces `order` with the single batch.
   */
  lemma ReadManyPlacesBatch(s: Partition, p: ReadPayload, resp: Response, template: Record -> Record, next: Uuid)
    requires resp.success
    ensures var t := Apply(s, ProcessReadMany(s, p, resp, template, next).value);
      var ids := FreshIds(next, |resp.data|);
      && (p.pagination.None? ==>
            && t.order == [Batch(p.batchId, ids)]
            && t.loadedPages == s.loadedPages && t.pagination == s.pagination && t.current == s.current)
      && (p.pagination.Some? ==>
            var w := p.pagination.value;
            && t.order == s.order
            && t.loadedPages == s.loadedPages + [PageKey(w.size, w.offset)]
            && PageStored(s, t, w, resp.total, ids)
            && (p.initiator in s.current ==> t.current == s.current[p.initiator := s.current[p.initiator].(total := resp.total)])
            && (p.initiator !in s.current ==> t.current == s.current))
      && t.byInitiator == s.byInitiator
  {
    ReadManyStages(s, p, resp, template, next);
    var s1 := Apply(s, EntityOps(s, resp.data, template, p, next));
    var s2 := Apply(s1, StatusOps(s1, p.initiator));
    PlacementOpsShape(s2, p, resp.total, FreshIds(next, |resp.data|));
  }

  // ------------------------------------------------------------ pagination

  /** `total % size || size` (a NaN remainder for size 0 is falsy too). */
  function LastPageRemainder(total: int, size: int): int
  {
    if size != 0 && JsRem(total, size) != 0 then JsRem(total, size) else size
  }

  /** The offset the page commands clamp to: `total - (total % size || size)`. */
  function LastPageStart(total: int, size: int): int
  {
    total - LastPageRemainder(total, size)
  }

  function NextOffset(c: Cursor): int
  {
    var n := c.offset + c.size;
    if c.total.Some? && n >= c.total.value then LastPageStart(c.total.value, c.size) else n
  }

  function PrevOffset(c: Cursor): int
  {
    if c.offset - c.size < 0 then 0 else c.offset - c.size
  }

  function GotoOffset(c: Cursor, page: int): int
  {
    var n := (page - 1) * c.size;
    if n < 0 then 0
    else if c.total.Some? && n >= c.total.value then LastPageStart(c.total.value, c.size)
    else n
  }

  /** A page command replaces the initiator's cursor, keeping size, total and start. */
  ghost predicate MovesCursorTo(s: Partition, initiator: Uuid, ops: seq<Op>, offset: int)
  {
    && initiator in s.current
    && var c := s.current[initiator];
    Apply(s, ops) == s.(current := s.current[initiator := Cursor(offset, c.size, c.total, c.start)])
  }

  function NextPage(s: Partition, initiator: Uuid): (r: Result<seq<Op>>)
    ensures r.Err? <==> initiator !in s.current
    ensures r.Ok? ==> MovesCursorTo(s, initiator, r.value, NextOffset(s.current[initiator]))
  {
    if initiator !in s.current then Err(MissingCursorMessage)
    else
      var c := s.current[initiator];
      var op := SetCursor(initiator, Cursor(NextOffset(c), c.size, c.total, c.start));
      ApplyOne(s, op);
      Ok([op])
  }

  function PrevPage(s: Partition, initiator: Uuid): (r: Result<seq<Op>>)
    ensures r.Err? <==> initiator !in s.current
    ensures r.Ok? ==> MovesCursorTo(s, initiator, r.value, PrevOffset(s.current[initiator]))
  {
    if initiator !in s.current then Err(MissingCursorMessage)
    else
      var c := s.current[initiator];
      var op := SetCursor(initiator, Cursor(PrevOffset(c), c.size, c.total, c.start));
      ApplyOne(s, op);
      Ok([op])
  }

  function GotoPage(s: Partition, initiator: Uuid, page: int): (r: Result<seq<Op>>)
    ensures r.Err? <==> initiator !in s.current
    ensures r.Ok? ==> MovesCursorTo(s, initiator, r.value, GotoOffset(s.current[initiator], page))
  {
    if initiator !in s.current then Err(MissingCursorMessage)
    else
      var c := s.current[initiator];
      var op := SetCursor(initiator, Cursor(GotoOffset(c, page), c.size, c.total, c.start));
      ApplyOne(s, op);
      Ok([op])
  }

  /** Euclidean division is unique: a witness quotient and remainder are THE quotient and remainder. */
  lemma DivModUnique(a: int, size: int, k: int, r: int)
    requires size >= 1 && 0 <= r < size && a == k * size + r
    ensures a / size == k && a % size == r
  {
    var q := a / size;
    var m := a % size;
    assert a == q * size + m;
    assert (q - k) * size == r - m;
    MulSign(q - k, size);
  }

  /** A nonzero multiple of a positive size is at least that size away from 0. */
  lemma MulSign(d: int, size: int)
    requires size >= 1
    ensures d >= 1 ==> d * size >= size
    ensures d <= -1 ==> d * size <= -size
  {
  }

  lemma MulMonotone(x: int, y: int, size: int)
    requires size >= 0
    ensures x <= y ==> x * size <= y * size
  {
    assert y * size - x * size == (y - x) * size;
  }

  /** For positive sizes the clamp target is the start of the page holding `total - 1`. */
  lemma LastPageStartIsPageOfLastItem(total: int, size: int)
    requires total >= 1 && size >= 1
    ensures LastPageStart(total, size) == ((total - 1) / size) * size
  {
    var q := total / size;
    var r := total % size;
    assert JsRem(total, size) == r;
    if r == 0 {
      assert total == (q - 1) * size + size;
      DivModUnique(total - 1, size, q - 1, size - 1);
    } else {
      assert total == q * size + r;
      DivModUnique(total - 1, size, q, r - 1);
    }
  }

  /** A multiple of `size` is aligned. */
  lemma MultipleIsAligned(k: int, size: int)
    requires size >= 1
    ensures (k * size) % size == 0
  {
    DivModUnique(k * size, size, k, 0);
  }

  /** Moving an aligned offset by whole pages keeps it aligned. */
  lemma AlignedStep(a: int, size: int, d: int)
    requires size >= 1 && a % size == 0
    ensures (a + d * size) % size == 0
  {
    var k := a / size;
    assert a == k * size;
    assert a + d * size == (k + d) * size;
    MultipleIsAligned(k + d, size);
  }

  /**
   * For total >= 1 and size >= 1 the clamp target is the largest
   * size-aligned offset below the total: it starts the last page.
   */
  lemma LastPageStartIsLastAlignedOffset(total: int, size: int)
    requires total >= 1 && size >= 1
    ensures 0 <= LastPageStart(total, size) < total
    ensures LastPageStart(total, size) % size == 0
    ensures LastPageStart(total, size) + size >= total
    ensures forall a :: 0 <= a < total && a % size == 0 ==> a <= LastPageStart(total, size)
  {
    LastPageStartIsPageOfLastItem(total, size);
    PageOfLastItem(total, size);
  }

  lemma PageOfLastItem(total: int, size: int)
    requires total >= 1 && size >= 1
    ensures var l := ((total - 1) / size) * size;
      && 0 <= l < total && l % size == 0 && l + size >= total
      && forall a :: 0 <= a < total && a % size == 0 ==> a <= l
  {
    var q := (total - 1) / size;
    var l := q * size;
    assert total - 1 == l + (total - 1) % size;
    MultipleIsAligned(q, size);
    forall a | 0 <= a < total && a % size == 0
      ensures a <= l
    {
      AlignedOffsetBelowTotal(a, total, size);
    }
  }

  /** An aligned offset below the total is at most the start of the page holding `total - 1`. */
  lemma AlignedOffsetBelowTotal(a: int, total: int, size: int)
    requires size >= 1 && 0 <= a < total && a % size == 0
    ensures a <= ((total - 1) / size) * size
  {
    var q := (total - 1) / size;
    var k := a / size;
    assert a == k * size;
    assert total - 1 == q * size + (total - 1) % size;
    MulMonotone(q + 1, k, size);
    assert (q + 1) * size == q * size + size;
  }

  /** `nextPage` stays in [0, total) and, from an aligned offset, on the page grid. */
  lemma NextPageStaysInRange(c: Cursor)
    requires c.total.Some? && c.total.value >= 1 && c.size >= 1 && 0 <= c.offset
    ensures 0 <= NextOffset(c) < c.total.value
    ensures c.offset % c.size == 0 ==>
      NextOffset(c) % c.size == 0 && NextOffset(c) <= LastPageStart(c.total.value, c.size)
  {
    LastPageStartIsLastAlignedOffset(c.total.value, c.size);
    if c.offset % c.size == 0 {
      AlignedStep(c.offset, c.size, 1);
    }
  }

  /** `prevPage` never goes below 0 and keeps an aligned cursor aligned. */
  lemma PrevPageStaysInRange(c: Cursor)
    requires c.total.Some? && c.total.value >= 1 && c.size >= 1 && 0 <= c.offset < c.total.value
    ensures 0 <= PrevOffset(c) < c.total.value
    ensures c.offset % c.size == 0 ==>
      PrevOffset(c) % c.size == 0 && PrevOffset(c) <= LastPageStart(c.total.value, c.size)
  {
    LastPageStartIsLastAlignedOffset(c.total.value, c.size);
    if c.offset % c.size == 0 {
      if c.offset - c.size >= 0 {
        var a := c.offset - c.size;
        AlignedStep(c.offset, c.size, -1);
        assert a == c.offset + -1 * c.size;
        assert a % c.size == 0;
        assert PrevOffset(c) == a;
      } else {
        assert PrevOffset(c) == 0;
        MultipleIsAligned(0, c.size);
      }
    }
  }

  /** `gotoPage` lands on an aligned offset in [0, last page start] for every page number. */
  lemma GotoPageStaysInRange(c: Cursor, page: int)
    requires c.total.Some? && c.total.value >= 1 && c.size >= 1
    ensures 0 <= GotoOffset(c, page) <= LastPageStart(c.total.value, c.size)
    ensures GotoOffset(c, page) % c.size == 0
  {
    var n := (page - 1) * c.size;
    LastPageStartIsLastAlignedOffset(c.total.value, c.size);
    if n < 0 {
      MultipleIsAligned(0, c.size);
    } else if n < c.total.value {
      MultipleIsAligned(page - 1, c.size);
      assert GotoOffset(c, page) == n;
    }
  }

  /** On the last page `nextPage` is a fixed point. */
  lemma NextPageFixedOnLastPage(c: Cursor)
    requires c.total.Some? && c.total.value >= 1 && c.size >= 1
    requires c.offset == LastPageStart(c.total.value, c.size)
    ensures NextOffset(c) == c.offset
  {
    LastPageStartIsLastAlignedOffset(c.total.value, c.size);
  }

  /**
   * With a total of 0 the clamp yields the negative offset `-size`: for
   * `nextPage` from any cursor whose next offset is not negative, and for
   * `gotoPage` to any page from 1 on.
   */
  lemma ZeroTotalClampsBelowZero(c: Cursor, page: int)
    requires c.total == Some(0) && c.size >= 1
    ensures c.offset + c.size >= 0 ==> NextOffset(c) == -c.size
    ensures page >= 1 ==> GotoOffset(c, page) == -c.size
  {
    if page >= 1 {
      MulMonotone(0, page - 1, c.size);
    }
  }

  function InvalidatePagination(s: Partition): (ops: seq<Op>)
    ensures Apply(s, ops).loadedPages == []
    ensures Apply(s, ops) == s.(loadedPages := Apply(s, ops).loadedPages)
  {
    var op := SetLoadedPages([]);
    ApplyOne(s, op);
    [op]
  }

  // --------------------------------------------------------------- failure

  /**
   * The in-place `push` of the initiator onto the stored
   * `read.many.failed` array that `get` handed out, as a write of the
   * grown list back to that path.
   */
  function PushFailed(s: Partition, initiator: Uuid): (op: Op)
    ensures var t := ApplyOp(s, op);
      && Ready(t)
      && ReadMany(t, Failed) == ReadMany(s, Failed) + [initiator]
      && ReadMany(t, Loading) == ReadMany(s, Loading)
      && ReadMany(t, Completed) == ReadMany(s, Completed)
      && OtherSlotsKept(s, t, "read", "many")
      && t == s.(actions := t.actions)
  {
    var op := SetStatusList("read", "many", Failed, ReadMany(s, Failed) + [initiator]);
    PutListEffect(s, "read", "many", Failed, op.ids);
    op
  }

  /**
   * `failedResource`: reads `read.many.completed` and `read.many.failed`,
   * pushes the initiator onto the stored failed array in place, and writes
   * the completed list minus one occurrence of the initiator into the
   * `action/type` LOADING slot, and the grown failed list into its failed
   * slot. Because of the in-place push, `read.many.failed` gains the
   * initiator whatever `action/type` is.
   */
  function FailedResource(s: Partition, action: string, actionType: string, initiator: Uuid): (ops: seq<Op>)
    ensures var t := Apply(s, ops);
      var completed := ReadMany(s, Completed);
      && Slot(t, action, actionType).Some?
      && List(t, action, actionType, Failed) == ReadMany(s, Failed) + [initiator]
      && ReadMany(t, Failed) == ReadMany(s, Failed) + [initiator]
      && List(t, action, actionType, Loading) == RemoveAt(completed, IndexOf(completed, initiator))
      && List(t, action, actionType, Completed) == List(s, action, actionType, Completed)
      && ((action, actionType) != ("read", "many") ==>
            ReadMany(t, Loading) == ReadMany(s, Loading) && ReadMany(t, Completed) == ReadMany(s, Completed))
      && (forall a, ty :: (a, ty) != (action, actionType) && (a, ty) != ("read", "many") ==> Slot(t, a, ty) == Slot(s, a, ty))
      && t == s.(actions := t.actions)
  {
    var completed := ReadMany(s, Completed);
    var push := PushFailed(s, initiator);
    var s1 := ApplyOp(s, push);
    var a := SetStatusList(action, actionType, Loading, RemoveAt(completed, IndexOf(completed, initiator)));
    var b := SetStatusList(action, actionType, Failed, ReadMany(s, Failed) + [initiator]);
    ApplyThree(s, push, a, b);
    PutListEffect(s1, action, actionType, Loading, a.ids);
    PutListEffect(ApplyOp(s1, a), action, actionType, Failed, b.ids);
    [push, a, b]
  }

  /**
   * The part of `failedResource` that a page command's failure leaves in
   * the partition: the payload carries no action or type, but the initiator
   * is still pushed in place onto the stored `read.many.failed` array that
   * `get` handed out. The other statuses and every other field are kept.
   */
  function FailedPageCommand(s: Partition, initiator: Uuid): (ops: seq<Op>)
    ensures var t := Apply(s, ops);
      && Ready(t)
      && ReadMany(t, Failed) == ReadMany(s, Failed) + [initiator]
      && ReadMany(t, Loading) == ReadMany(s, Loading)
      && ReadMany(t, Completed) == ReadMany(s, Completed)
      && OtherSlotsKept(s, t, "read", "many")
      && t == s.(actions := t.actions)
  {
    var op := PushFailed(s, initiator);
    ApplyOne(s, op);
    [op]
  }

  /**
   * When the failing initiator never completed, `failedResource` copies the
   * completed list minus its LAST entry into `loading`: every other
   * consumer that had completed is now reported as loading.
   */
  lemma FailedResourceMarksAnotherConsumerLoading(s: Partition, initiator: Uuid)
    requires initiator !in ReadMany(s, Completed) && |ReadMany(s, Completed)| >= 1
    ensures var completed := ReadMany(s, Completed);
      ReadMany(Apply(s, FailedResource(s, "read", "many", initiator)), Loading) == completed[..|completed| - 1]
  {
    var completed := ReadMany(s, Completed);
    assert IndexOf(completed, initiator) == -1;
  }
}

=== FILE: data_middleware.dfy ===
/**
 * The data middleware (`createDataMiddleware`): one store partition shared by
 * every consumer of a resource configuration, the store-change handles the
 * consumers own, and the per-consumer operations `getOrRead`, the status
 * queries and the page controls.
 *
 * A read is dispatched and settled in two steps: `GetOrRead` applies the
 * synchronous part of the read process (`beforeReadMany`) and records the
 * pending read; `Settle` later applies `readMany`, or the error hook when the
 * response did not succeed.
 */
module DataMiddleware {
  import opened Common
  import opened DataStore
  import opened DataCommands
  import opened Subscriptions

  /** A store-change handle, registered under `${id}-${path}`. */
  datatype HandleKey = HandleKey(consumer: Uuid, path: StorePath)

  /**
   * A dispatched read: its payload, the writes `beforeReadMany` made, and
   * the undo operations of those writes.
   */
  datatype PendingRead = PendingRead(payload: ReadPayload, written: seq<Op>, undo: seq<Op>)

  /**
   * The middleware's state: the store partition, the shared handle map, the
   * `uuid()` supply and the reads still in flight.
   */
  datatype Engine = Engine(store: Partition, handles: seq<HandleKey>, next: Uuid, pending: seq<PendingRead>)

  /**
   * What the middleware keeps true between calls: the partition is
   * initialised, each consumer holds at most one handle per path, every
   * stored id was drawn before `next` (so the ids drawn for the next
   * response are fresh), and every pending read undoes only status lists
   * and cursors.
   */
  ghost predicate Valid(e: Engine)
  {
    && Ready(e.store)
    && Unique(e.handles)
    && IdsBelow(e.store, e.next)
    && forall i :: 0 <= i < |e.pending| ==> UndoOps(e.pending[i].undo)
  }

  /** Creating the middleware runs the initialisation process on an empty store. */
  function CreateEngine(next: Uuid): (e: Engine)
    ensures Valid(e)
    ensures e.store.actions.Some? && forall k :: ReadMany(e.store, k) == []
    ensures e.handles == [] && e.pending == []
  {
    Engine(Apply(EmptyPartition, InitializeResource(EmptyPartition)), [], next, [])
  }

  // ---------------------------------------------------------------- status

  /** `StatusOptions`: `action` and `type`, each possibly absent. */
  datatype StatusOptions = StatusOptions(action: Option<string>, actionType: Option<string>)

  const DefaultOptions := StatusOptions(None, None)

  /** A string option is truthy when present and non-empty. */
  predicate Truthy(x: Option<string>)
  {
    x.Some? && x.value != ""
  }

  /** A status query on a slot that does not exist throws a TypeError. */
  const MissingSlotMessage := "Cannot read property 'indexOf' of undefined"

  /** The status slot a query reads: `action/type`, `action/many` or `read/many`. */
  function StatusSlot(o: StatusOptions): (string, string)
  {
    if Truthy(o.action) && Truthy(o.actionType) then (o.action.value, o.actionType.value)
    else if Truthy(o.action) then (o.action.value, "many")
    else ("read", "many")
  }

  /** `getStatus`: whether the consumer is in the selected status list. */
  function GetStatus(s: Partition, id: Uuid, o: StatusOptions, kind: StatusKind): (r: Result<bool>)
    ensures r.Err? <==> Slot(s, StatusSlot(o).0, StatusSlot(o).1).None?
    ensures r.Ok? ==> (r.value <==> id in List(s, StatusSlot(o).0, StatusSlot(o).1, kind))
  {
    var (a, t) := StatusSlot(o);
    if Slot(s, a, t).None? then Err(MissingSlotMessage)
    else Ok(id in ListOf(Slot(s, a, t).value, kind))
  }

  /**
   * Without options the query reads `read.many`; with only an action it
   * reads that action's `many` slot; once the partition is initialised the
   * default query never throws.
   */
  lemma StatusDefaults(s: Partition, id: Uuid, action: string, kind: StatusKind)
    requires action != ""
    ensures GetStatus(s, id, DefaultOptions, kind) == GetStatus(s, id, StatusOptions(Some("read"), Some("many")), kind)
    ensures GetStatus(s, id, StatusOptions(Some(action), None), kind) == GetStatus(s, id, StatusOptions(Some(action), Some("many")), kind)
    ensures GetStatus(s, id, StatusOptions(None, Some(action)), kind) == GetStatus(s, id, DefaultOptions, kind)
    ensures Ready(s) ==> GetStatus(s, id, DefaultOptions, kind) == Ok(id in ReadMany(s, kind))
  {
  }

  // ------------------------------------------------------------ page info

  /** The value of `Math.ceil(..)` on a cursor: absent, NaN or infinite, or a page number. */
  datatype PageNumber = Undefined | NotFinite | Page(n: int)

  /** A consumer's cursor in a cursor map, if it has one. */
  function CursorOf(m: map<Uuid, Cursor>, id: Uuid): Option<Cursor>
  {
    if id in m then Some(m[id]) else None
  }

  /** `Math.ceil(total / size)` on a cursor: the number of pages. */
  function PageCount(c: Option<Cursor>): (r: PageNumber)
    ensures r.Undefined? <==> c.None?
    ensures r.Page? ==> c.value.total.Some? && c.value.size != 0 && r.n == CeilDiv(c.value.total.value, c.value.size)
    ensures c.Some? && c.value.total.Some? && c.value.size >= 1 ==>
      r.Page? && c.value.size * (r.n - 1) < c.value.total.value <= c.value.size * r.n
  {
    if c.None? then Undefined
    else if c.value.total.None? || c.value.size == 0 then NotFinite
    else Page(CeilDiv(c.value.total.value, c.value.size))
  }

  /** `Math.ceil(offset / size) + 1` on a cursor: the 1-based page it is on. */
  function PageIndex(c: Option<Cursor>): (r: PageNumber)
    ensures r.Undefined? <==> c.None?
    ensures r.Page? ==> c.value.size != 0 && r.n == CeilDiv(c.value.offset, c.value.size) + 1
    ensures c.Some? && c.value.size >= 1 ==>
      r.Page? && c.value.size * (r.n - 2) < c.value.offset <= c.value.size * (r.n - 1)
  {
    if c.None? then Undefined
    else if c.value.size == 0 then NotFinite
    else Page(CeilDiv(c.value.offset, c.value.size) + 1)
  }

  /** `total()`: the page count of `meta.pagination.current[id]`. */
  function Total(s: Partition, id: Uuid): PageNumber
  {
    PageCount(CursorOf(s.current, id))
  }

  /** `current()`: the page index of `meta.pagination.current[id]`. */
  function Current(s: Partition, id: Uuid): PageNumber
  {
    PageIndex(CursorOf(s.current, id))
  }

  /** `Math.ceil(a / b)` is the only n with b(n-1) < a <= bn. */
  lemma CeilDivUnique(a: int, b: int, n: int)
    requires b >= 1 && b * (n - 1) < a <= b * n
    ensures CeilDiv(a, b) == n
  {
    var r := CeilDiv(a, b);
    MulMonotone(r, n - 1, b);
    MulMonotone(n, r - 1, b);
  }

  /** `GetOrReadOptions.pagination`: the page asked for and the page size. */
  datatype PageRequest = PageRequest(start: int, size: int)

  /** A requested page becomes the window `{offset: (start - 1) * size, size, start}`. */
  function ToWindow(q: PageRequest): Window
  {
    Window((q.start - 1) * q.size, q.size, q.start)
  }

  /** A cursor stored from a requested window reports the requested page as current. */
  lemma WindowIsCurrentPage(c: Cursor, q: PageRequest)
    requires q.size >= 1 && c.offset == ToWindow(q).offset && c.size == q.size
    ensures PageIndex(Some(c)) == Page(q.start)
  {
    CeilDivUnique((q.start - 1) * q.size, q.size, q.start - 1);
  }

  /** On the page `nextPage` clamps to, the current page number is the page count. */
  lemma LastPageIsTotal(c: Cursor)
    requires c.total.Some? && c.total.value >= 1 && c.size >= 1 && c.offset == LastPageStart(c.total.value, c.size)
    ensures PageCount(Some(c)).Page? && PageIndex(Some(c)) == PageCount(Some(c))
  {
    var q := (c.total.value - 1) / c.size;
    LastPageStartIsPageOfLastItem(c.total.value, c.size);
    CeilDivUnique(c.offset, c.size, q);
    assert c.total.value - 1 == q * c.size + (c.total.value - 1) % c.size;
    CeilDivUnique(c.total.value, c.size, q + 1);
  }

  // ---------------------------------------------------------- page controls

  datatype PageCommand = NextPageCommand | PreviousPageCommand | GotoPageCommand(page: int)

  /** The offset a page command moves a cursor to. */
  function PageOffset(c: Cursor, cmd: PageCommand): int
  {
    match cmd
    case NextPageCommand => NextOffset(c)
    case PreviousPageCommand => PrevOffset(c)
    case GotoPageCommand(page) => GotoOffset(c, page)
  }

  function PageOps(s: Partition, id: Uuid, cmd: PageCommand): (r: Result<seq<Op>>)
    ensures r.Err? <==> id !in s.current
    ensures r.Ok? ==> MovesCursorTo(s, id, r.value, PageOffset(s.current[id], cmd))
  {
    match cmd
    case NextPageCommand => NextPage(s, id)
    case PreviousPageCommand => PrevPage(s, id)
    case GotoPageCommand(page) => GotoPage(s, id, page)
  }

  /**
   * `next()`, `previous()`, `goto(page)`: subscribe to the pagination meta
   * and run the page command. For a consumer without a cursor the command
   * throws; the error hook's undo has nothing to undo, and its
   * `failedResource` call appends the consumer to `read.many.failed`.
   */
  function PageStep(e: Engine, id: Uuid, cmd: PageCommand): (t: Engine)
    ensures HandleKey(id, PaginationMetaPath) in t.handles
    ensures Valid(e) ==> Valid(t)
    ensures id !in e.store.current ==>
      && t.store == e.store.(actions := t.store.actions)
      && ReadMany(t.store, Failed) == ReadMany(e.store, Failed) + [id]
      && ReadMany(t.store, Loading) == ReadMany(e.store, Loading)
      && ReadMany(t.store, Completed) == ReadMany(e.store, Completed)
    ensures id in e.store.current ==>
      var c := e.store.current[id];
      && id in t.store.current
      && t.store.current[id].size == c.size && t.store.current[id].total == c.total && t.store.current[id].start == c.start
      && t.store == e.store.(current := t.store.current)
      && t.store.current - {id} == e.store.current - {id}
    ensures t.next == e.next && t.pending == e.pending
  {
    var h := Subscribe(e.handles, HandleKey(id, PaginationMetaPath));
    var r := PageOps(e.store, id, cmd);
    if r.Ok? then
      var store := Apply(e.store, r.value);
      SameActionsSameSlots(store, e.store);
      e.(store := store, handles := h)
    else
      e.(store := Apply(e.store, FailedPageCommand(e.store, id)), handles := h)
  }

  // ------------------------------------------------------------- getOrRead

  /** `getPaginationIds`: the cached ids of the window's page, or none. */
  function PaginationIds(s: Partition, w: Option<Window>): seq<Uuid>
  {
    if w.Some? && w.value.size in s.pagination && w.value.offset in s.pagination[w.value.size].pages
    then s.pagination[w.value.size].pages[w.value.offset]
    else []
  }

  /** `ids.map(id => data[id])`: one entry per id, absent for ids without data. */
  function PageRecords(ids: seq<Uuid>, data: map<Uuid, Record>): (r: seq<Option<Record>>)
    ensures |r| == |ids|
    ensures forall i :: 0 <= i < |ids| ==> (r[i].Some? <==> ids[i] in data)
    ensures forall i :: 0 <= i < |ids| && ids[i] in data ==> r[i].value == data[ids[i]]
  {
    seq(|ids|, i requires 0 <= i < |ids| => if ids[i] in data then Some(data[ids[i]]) else None)
  }

  /** The synthetic ids of every batch of `order`, in key order. */
  function AllIds(order: seq<Batch>): (r: seq<Uuid>)
    ensures forall j :: j in r <==> exists b :: b in order && j in b.ids
    decreases |order|
  {
    if |order| == 0 then []
    else
      var rest := AllIds(order[1..]);
      assert forall b :: b in order <==> b == order[0] || b in order[1..];
      order[0].ids + rest
  }

  lemma AllIdsOfOneBatch(b: Batch)
    ensures AllIds([b]) == b.ids
  {
    assert [b][1..] == [];
  }

  /** The records of the ids that have data, in order (`data[id] && orderedData.push(data[id])`). */
  function Present(ids: seq<Uuid>, data: map<Uuid, Record>): (r: seq<Option<Record>>)
    ensures |r| <= |ids|
    ensures forall x :: x in r ==> x.Some?
    decreases |ids|
  {
    if |ids| == 0 then []
    else
      var rest := Present(ids[1..], data);
      if ids[0] in data then [Some(data[ids[0]])] + rest else rest
  }

  /** Every record returned is the data of a listed id, and every listed id with data has its record returned. */
  lemma {:induction false} PresentContents(ids: seq<Uuid>, data: map<Uuid, Record>)
    ensures forall x :: x in Present(ids, data) ==> exists j :: j in ids && j in data && data[j] == x.value
    ensures forall j :: j in ids && j in data ==> Some(data[j]) in Present(ids, data)
    decreases |ids|
  {
    if |ids| > 0 {
      PresentContents(ids[1..], data);
      assert forall j :: j in ids <==> j == ids[0] || j in ids[1..];
    }
  }

  /** When every id has data, the records come back one per id, in order. */
  lemma {:induction false} AllPresent(ids: seq<Uuid>, data: map<Uuid, Record>)
    requires forall j :: j in ids ==> j in data
    ensures |Present(ids, data)| == |ids|
    ensures forall i :: 0 <= i < |ids| ==> Present(ids, data)[i] == Some(data[ids[i]])
    decreases |ids|
  {
    if |ids| > 0 {
      assert ids[0] in data;
      AllPresent(ids[1..], data);
      var r := Present(ids, data);
      var rest := Present(ids[1..], data);
      assert r == [Some(data[ids[0]])] + rest;
      forall i | 0 <= i < |ids|
        ensures r[i] == Some(data[ids[i]])
      {
        if i > 0 {
          assert r[i] == rest[i - 1];
        }
      }
    }
  }

  /** The stored start of the consumer's cursor, 1 when it has none. */
  function StoredStart(s: Partition, id: Uuid): int
  {
    if id in s.current then s.current[id].start else 1
  }

  /**
   * The loading guard: a loading consumer gets `undefined`, unconditionally
   * for an unpaginated call and for a paginated one only when it asks for
   * the stored start page.
   */
  predicate LoadingGuard(s: Partition, id: Uuid, w: Option<Window>)
  {
    id in ReadMany(s, Loading) && (w.None? || w.value.start == StoredStart(s, id))
  }

  /** A read is wanted when the page was not loaded yet or the consumer has not completed. */
  predicate WantsRead(s: Partition, id: Uuid, w: Option<Window>)
  {
    (w.Some? && PageKey(w.value.size, w.value.offset) !in s.loadedPages) || id !in ReadMany(s, Completed)
  }

  /**
   * Dispatch a read: invalidate the loaded pages when the consumer has not
   * completed, then start the read process.
   */
  function Dispatch(e: Engine, id: Uuid, w: Option<Window>, idKey: string): Engine
  {
    var s := e.store;
    var s1 := if id in ReadMany(s, Completed) then s else Apply(s, InvalidatePagination(s));
    StartRead(e.(store := s1), id, w, idKey)
  }

  /**
   * Start the read process: subscribe the consumer to `data`, draw a batch
   * id, run `beforeReadMany` and record the pending read with its undo.
   */
  function StartRead(e: Engine, id: Uuid, w: Option<Window>, idKey: string): Engine
  {
    var p := ReadPayload(id, e.next, idKey, w);
    Engine(Apply(e.store, BeforeReadMany(e.store, id, w)),
           Subscribe(e.handles, HandleKey(id, DataPath)),
           e.next + 1,
           e.pending + [PendingRead(p, BeforeReadMany(e.store, id, w), BeforeReadManyUndo(e.store, id, w))])
  }

  /** What `getOrRead` returns, after any dispatch. */
  function Render(s: Partition, id: Uuid, w: Option<Window>): Option<seq<Option<Record>>>
  {
    var ids := PaginationIds(s, w);
    if id !in ReadMany(s, Completed) && |ids| == 0 then None
    else if |ids| > 0 then Some(PageRecords(ids, s.data))
    else Some(Present(AllIds(s.order), s.data))
  }

  /** The value of a `getOrRead` call and the state it leaves. */
  datatype Rendered = Rendered(result: Option<seq<Option<Record>>>, engine: Engine)

  /** `getOrRead(options)`, with `req` the requested page when the options carry one. */
  function GetOrRead(e: Engine, id: Uuid, req: Option<PageRequest>, idKey: string): Rendered
  {
    var w := if req.Some? then Some(ToWindow(req.value)) else None;
    if LoadingGuard(e.store, id, w) then Rendered(None, e)
    else
      var e1 := if WantsRead(e.store, id, w) then Dispatch(e, id, w, idKey) else e;
      Rendered(Render(e1.store, id, w), e1)
  }

  function RequestWindow(req: Option<PageRequest>): Option<Window>
  {
    if req.Some? then Some(ToWindow(req.value)) else None
  }

  /**
   * Starting a read marks the consumer loading, stores its window as its
   * cursor, records one pending read with a fresh batch id, and leaves
   * data, order, cached pages and the other status lists alone.
   */
  lemma StartReadEffect(e: Engine, id: Uuid, w: Option<Window>, idKey: string)
    requires Valid(e)
    ensures var t := StartRead(e, id, w, idKey);
      var s := e.store;
      && Valid(t)
      && ReadMany(t.store, Loading) == ReadMany(s, Loading) + [id]
      && ReadMany(t.store, Completed) == ReadMany(s, Completed)
      && ReadMany(t.store, Failed) == ReadMany(s, Failed)
      && t.store.data == s.data && t.store.order == s.order && t.store.pagination == s.pagination
      && t.store.loadedPages == s.loadedPages && t.store.byInitiator == s.byInitiator
      && (w.Some? ==> id in t.store.current && t.store.current[id].start == w.value.start
                      && t.store.current[id].offset == w.value.offset && t.store.current[id].size == w.value.size)
      && (w.None? ==> t.store.current == s.current)
      && t.next == e.next + 1
      && t.pending == e.pending + [PendingRead(ReadPayload(id, e.next, idKey, w), BeforeReadMany(s, id, w), BeforeReadManyUndo(s, id, w))]
      && HandleKey(id, DataPath) in t.handles
  {
    BeforeReadManyEffect(e.store, id, w);
  }

  /** Right after a read started, the store still holds everything its `beforeReadMany` wrote. */
  lemma StartReadStillHolds(e: Engine, id: Uuid, w: Option<Window>, idKey: string)
    requires Valid(e)
    ensures var t := StartRead(e, id, w, idKey);
      |t.pending| == |e.pending| + 1 && StillHolds(t.store, t.pending[|e.pending|].written)
  {
    var s := e.store;
    var t := StartRead(e, id, w, idKey);
    var ops := BeforeReadMany(s, id, w);
    BeforeReadManyEffect(s, id, w);
    PutListUnchanged(t.store, Loading);
    if w.Some? {
      var c := ops[1].cursor;
      assert t.store.current[id := c] == t.store.current;
    }
    forall op | op in ops
      ensures ApplyOp(t.store, op) == t.store
    {
    }
  }

  /**
   * A read that fails right after it started leaves the store exactly as
   * `failedResource` leaves the store from before the read: the error hook
   * undoes `beforeReadMany` first.
   */
  lemma StartReadThenFail(e: Engine, id: Uuid, w: Option<Window>, idKey: string, resp: Response, template: Record -> Record)
    requires Valid(e) && !resp.success
    ensures |StartRead(e, id, w, idKey).pending| == |e.pending| + 1
    ensures Settle(StartRead(e, id, w, idKey), |e.pending|, resp, template).store
         == Apply(e.store, FailedResource(e.store, "read", "many", id))
  {
    var e1 := StartRead(e, id, w, idKey);
    StartReadEffect(e, id, w, idKey);
    StartReadStillHolds(e, id, w, idKey);
    UndoBeforeReadMany(e.store, id, w);
    assert Apply(e1.store, e1.pending[|e.pending|].undo) == e.store;
  }

  /**
   * A failed read whose loading entry was overtaken is not rolled back:
   * once a second read (of any consumer) started after it, the first
   * read's undo test fails, so its failure leaves the store unchanged and
   * the consumer is still loading and not failed.
   */
  lemma OvertakenFailureKeepsStore(e: Engine, a: Uuid, wa: Option<Window>, b: Uuid, wb: Option<Window>, idKey: string, resp: Response, template: Record -> Record)
    requires Valid(e) && !resp.success
    ensures var e2 := StartRead(StartRead(e, a, wa, idKey), b, wb, idKey);
      && |e2.pending| == |e.pending| + 2
      && var t := Settle(e2, |e.pending|, resp, template);
      && t.store == e2.store
      && a in ReadMany(t.store, Loading)
      && ReadMany(t.store, Failed) == ReadMany(e.store, Failed)
  {
    var e1 := StartRead(e, a, wa, idKey);
    var e2 := StartRead(e1, b, wb, idKey);
    StartReadEffect(e, a, wa, idKey);
    StartReadEffect(e1, b, wb, idKey);
    var loading := ReadMany(e.store, Loading) + [a];
    var op := SetStatusList("read", "many", Loading, loading);
    assert e2.pending[|e.pending|].written[0] == op;
    PutListEffect(e2.store, "read", "many", Loading, loading);
    assert |ReadMany(e2.store, Loading)| == |loading| + 1;
    assert ApplyOp(e2.store, op) != e2.store;
    assert !StillHolds(e2.store, e2.pending[|e.pending|].written);
  }

  /**
   * A dispatch is a started read, after invalidating the loaded pages when
   * the consumer had not completed.
   */
  lemma DispatchEffect(e: Engine, id: Uuid, w: Option<Window>, idKey: string)
    requires Valid(e)
    ensures var t := Dispatch(e, id, w, idKey);
      var s := e.store;
      && Valid(t)
      && ReadMany(t.store, Loading) == ReadMany(s, Loading) + [id]
      && ReadMany(t.store, Completed) == ReadMany(s, Completed)
      && ReadMany(t.store, Failed) == ReadMany(s, Failed)
      && t.store.data == s.data && t.store.order == s.order && t.store.pagination == s.pagination
      && t.store.loadedPages == (if id in ReadMany(s, Completed) then s.loadedPages else [])
      && (w.Some? ==> id in t.store.current && t.store.current[id].start == w.value.start
                      && t.store.current[id].offset == w.value.offset && t.store.current[id].size == w.value.size)
      && (w.None? ==> t.store.current == s.current)
      && t.next == e.next + 1
      && t.pending == e.pending + [PendingRead(ReadPayload(id, e.next, idKey, w), t.pending[|e.pending|].written, t.pending[|e.pending|].undo)]
      && HandleKey(id, DataPath) in t.handles
  {
    var s := e.store;
    var s1 := if id in ReadMany(s, Completed) then s else Apply(s, InvalidatePagination(s));
    assert s1.actions == s.actions;
    StartReadEffect(e.(store := s1), id, w, idKey);
  }

  /**
   * The loading guard holds back every call of a loading consumer (for a
   * paginated call, one asking for its stored start page): it returns
   * `undefined` and changes nothing. Otherwise exactly one read is
   * dispatched when one is wanted and none when not.
   */
  lemma GetOrReadDispatch(e: Engine, id: Uuid, req: Option<PageRequest>, idKey: string)
    requires Valid(e)
    ensures var r := GetOrRead(e, id, req, idKey);
      var w := RequestWindow(req);
      && Valid(r.engine)
      && (LoadingGuard(e.store, id, w) ==> r == Rendered(None, e))
      && (!LoadingGuard(e.store, id, w) && !WantsRead(e.store, id, w) ==> r.engine == e)
      && (!LoadingGuard(e.store, id, w) && WantsRead(e.store, id, w) ==>
            && |r.engine.pending| == |e.pending| + 1
            && r.engine.pending[..|e.pending|] == e.pending
            && r.engine.pending[|e.pending|].payload == ReadPayload(id, e.next, idKey, w)
            && id in ReadMany(r.engine.store, Loading))
  {
    var w := RequestWindow(req);
    if !LoadingGuard(e.store, id, w) && WantsRead(e.store, id, w) {
      DispatchEffect(e, id, w, idKey);
    }
  }

  /**
   * No duplicate reads: when a call wants a read, the same call right
   * after it is held back by the loading guard and dispatches nothing.
   */
  lemma NoSecondDispatchWhileLoading(e: Engine, id: Uuid, req: Option<PageRequest>, idKey: string)
    requires Valid(e) && WantsRead(e.store, id, RequestWindow(req))
    ensures var r1 := GetOrRead(e, id, req, idKey);
      var r2 := GetOrRead(r1.engine, id, req, idKey);
      && r2 == Rendered(None, r1.engine)
      && |r2.engine.pending| <= |e.pending| + 1
  {
    var w := RequestWindow(req);
    GetOrReadDispatch(e, id, req, idKey);
    if !LoadingGuard(e.store, id, w) {
      DispatchEffect(e, id, w, idKey);
    }
  }

  /**
   * What an unguarded call returns, in terms of the state before it:
   * `undefined` exactly when the consumer has not completed and the page
   * has no cached ids; otherwise the cached page's records, one per id, or
   * the records of `order` in key order, skipping ids without data.
   */
  lemma GetOrReadResult(e: Engine, id: Uuid, req: Option<PageRequest>, idKey: string)
    requires Valid(e)
    requires !LoadingGuard(e.store, id, RequestWindow(req))
    ensures var r := GetOrRead(e, id, req, idKey);
      var s := e.store;
      var ids := PaginationIds(s, RequestWindow(req));
      && (r.result.None? <==> id !in ReadMany(s, Completed) && |ids| == 0)
      && (|ids| > 0 ==> r.result == Some(PageRecords(ids, s.data)))
      && (|ids| == 0 && id in ReadMany(s, Completed) ==> r.result == Some(Present(AllIds(s.order), s.data)))
  {
    var w := RequestWindow(req);
    if WantsRead(e.store, id, w) {
      DispatchEffect(e, id, w, idKey);
    }
  }

  /**
   * Once the consumer has completed and is not loading, an unpaginated call
   * never reads again: the state is unchanged and the result is the records
   * of `order`.
   */
  lemma CompletedReadIsStable(e: Engine, id: Uuid, idKey: string)
    requires Valid(e)
    requires id in ReadMany(e.store, Completed) && id !in ReadMany(e.store, Loading)
    ensures var r := GetOrRead(e, id, None, idKey);
      r.engine == e && r.result == Some(Present(AllIds(e.store.order), e.store.data))
  {
  }

  /** A completed consumer asking for a page that was loaded reads nothing. */
  lemma LoadedPageIsStable(e: Engine, id: Uuid, q: PageRequest, idKey: string)
    requires Valid(e)
    requires id in ReadMany(e.store, Completed) && id !in ReadMany(e.store, Loading)
    requires PageKey(q.size, ToWindow(q).offset) in e.store.loadedPages
    ensures GetOrRead(e, id, Some(q), idKey).engine == e
  {
  }

  // ---------------------------------------------------------------- settle

  /**
   * The end of the read process for the `k`th pending read: a successful
   * response applies `readMany` (drawing a synthetic id per item); a failed
   * one runs the error hook, which applies the undo operations and then
   * `failedResource` for `read/many`. Each undo write is preceded by a
   * `test` that its path still holds what `beforeReadMany` wrote; when a
   * later write changed one of them, the test throws, the hook stops, and
   * the store is left as it was.
   */
  function Settle(e: Engine, k: nat, resp: Response, template: Record -> Record): (t: Engine)
    requires k < |e.pending|
    ensures Valid(e) ==> Valid(t)
    ensures t.pending == e.pending[..k] + e.pending[k + 1..]
    ensures t.handles == e.handles
    ensures resp.success ==> t.next == e.next + |resp.data| && e.pending[k].payload.initiator in ReadMany(t.store, Completed)
    ensures !resp.success ==> t.next == e.next
    ensures !resp.success && StillHolds(e.store, e.pending[k].written) ==>
      e.pending[k].payload.initiator in ReadMany(t.store, Failed)
    ensures !resp.success && !StillHolds(e.store, e.pending[k].written) ==> t.store == e.store
  {
    var pr := e.pending[k];
    var rest := e.pending[..k] + e.pending[k + 1..];
    DropPendingKeepsUndos(e.pending, k);
    var r := ProcessReadMany(e.store, pr.payload, resp, template, e.next);
    if r.Ok? then
      ReadManyCompletes(e.store, pr.payload, resp, template, e.next);
      ReadManyKeepsEntities(e.store, pr.payload, resp, template, e.next);
      e.(store := Apply(e.store, r.value), next := e.next + |resp.data|, pending := rest)
    else if StillHolds(e.store, pr.written) then
      var s1 := Apply(e.store, pr.undo);
      ApplyUndoKeepsEntities(e.store, pr.undo);
      e.(store := Apply(s1, FailedResource(s1, "read", "many", pr.payload.initiator)), pending := rest)
    else
      e.(pending := rest)
  }

  /** In a valid engine the ids the next response draws are pairwise distinct and hold no record or meta yet. */
  lemma ValidDrawsFreshIds(e: Engine, n: nat)
    requires Valid(e)
    ensures var ids := FreshIds(e.next, n);
      && (forall i, j :: 0 <= i < j < n ==> ids[i] != ids[j])
      && (forall i :: 0 <= i < n ==> ids[i] !in e.store.data && ids[i] !in e.store.items)
  {
    FreshIdsAreNew(e.store, e.next, n);
  }

  /** Dropping one pending read keeps the others' undos to status lists and cursors. */
  lemma DropPendingKeepsUndos(pending: seq<PendingRead>, k: nat)
    requires k < |pending|
    ensures (forall i :: 0 <= i < |pending| ==> UndoOps(pending[i].undo)) ==>
      var rest := pending[..k] + pending[k + 1..];
      forall i :: 0 <= i < |rest| ==> UndoOps(rest[i].undo)
  {
    var rest := pending[..k] + pending[k + 1..];
    forall i | 0 <= i < |rest|
      ensures rest[i] == pending[if i < k then i else i + 1]
    {
    }
  }

  /**
   * Settling a read never loses or overwrites a stored record or item meta:
   * a success only adds the response's items under fresh ids, and a
   * failure leaves records and metas exactly as they were.
   */
  lemma SettleKeepsRecords(e: Engine, k: nat, resp: Response, template: Record -> Record)
    requires Valid(e) && k < |e.pending|
    ensures var t := Settle(e, k, resp, template).store;
      && (forall j :: j in e.store.data ==> j in t.data && t.data[j] == e.store.data[j])
      && (forall j :: j in e.store.items ==> j in t.items && t.items[j] == e.store.items[j])
      && (!resp.success ==> t.data == e.store.data && t.items == e.store.items)
  {
    var pr := e.pending[k];
    if resp.success {
      ReadManyKeepsEntities(e.store, pr.payload, resp, template, e.next);
    } else if StillHolds(e.store, pr.written) {
      ApplyUndoKeepsEntities(e.store, pr.undo);
    }
  }

  /**
   * A read that fails right after its dispatch is rolled back: the cursor,
   * data, order and cached pages are as before the call (the loaded pages
   * stay invalidated), the consumer is added to `failed`, and `loading`
   * receives the completed list minus one occurrence of the consumer.
   */
  lemma FailedReadRollsBack(e: Engine, id: Uuid, req: Option<PageRequest>, idKey: string, resp: Response, template: Record -> Record)
    requires Valid(e) && !resp.success
    requires id !in ReadMany(e.store, Loading) && id !in ReadMany(e.store, Completed)
    ensures var e1 := GetOrRead(e, id, req, idKey).engine;
      |e1.pending| == |e.pending| + 1 &&
      var t := Settle(e1, |e.pending|, resp, template).store;
      var s := e.store;
      var completed := ReadMany(s, Completed);
      && t.current == s.current && t.data == s.data && t.order == s.order && t.pagination == s.pagination
      && t.loadedPages == []
      && ReadMany(t, Failed) == ReadMany(s, Failed) + [id]
      && ReadMany(t, Completed) == completed
      && ReadMany(t, Loading) == RemoveAt(completed, IndexOf(completed, id))
  {
    var w := RequestWindow(req);
    var s := e.store;
    var s1 := Apply(s, InvalidatePagination(s));
    assert s1.actions == s.actions;
    assert GetOrRead(e, id, req, idKey).engine == StartRead(e.(store := s1), id, w, idKey);
    StartReadThenFail(e.(store := s1), id, w, idKey, resp, template);
  }

  /** A successful unpaginated read of a consumer that was not loading before its dispatch. */
  lemma SettleUnpaginated(e: Engine, id: Uuid, idKey: string, resp: Response, template: Record -> Record)
    requires Valid(e) && resp.success
    requires id !in ReadMany(e.store, Loading) && id !in ReadMany(e.store, Completed)
    ensures var e1 := Dispatch(e, id, None, idKey);
      && |e1.pending| == |e.pending| + 1
      && var e2 := Settle(e1, |e.pending|, resp, template);
      var ids := FreshIds(e.next + 1, |resp.data|);
      && Valid(e2)
      && ReadMany(e2.store, Loading) == ReadMany(e.store, Loading)
      && id in ReadMany(e2.store, Completed)
      && e2.store.order == [Batch(e.next, ids)]
      && (forall i :: 0 <= i < |resp.data| ==> ids[i] in e2.store.data && e2.store.data[ids[i]] == template(resp.data[i]))
  {
    var e1 := Dispatch(e, id, None, idKey);
    DispatchEffect(e, id, None, idKey);
    var k := |e.pending|;
    var p := e1.pending[k].payload;
    var e2 := Settle(e1, k, resp, template);
    assert e2.store == Apply(e1.store, ProcessReadMany(e1.store, p, resp, template, e1.next).value);
    ReadManyCompletes(e1.store, p, resp, template, e1.next);
    ReadManyStoresItems(e1.store, p, resp, template, e1.next);
    ReadManyPlacesBatch(e1.store, p, resp, template, e1.next);
    var loading := ReadMany(e1.store, Loading);
    assert IndexOf(loading, id) == |loading| - 1;
    assert loading[..|loading| - 1] == ReadMany(e.store, Loading);
  }

  /** After the dispatched read settled successfully, the next call returns its items. */
  lemma RenderAfterSettle(e: Engine, id: Uuid, idKey: string, resp: Response, template: Record -> Record)
    requires Valid(e) && resp.success
    requires id !in ReadMany(e.store, Loading) && id !in ReadMany(e.store, Completed)
    ensures |Dispatch(e, id, None, idKey).pending| == |e.pending| + 1
    ensures var e2 := Settle(Dispatch(e, id, None, idKey), |e.pending|, resp, template);
      GetOrRead(e2, id, None, idKey)
        == Rendered(Some(Templated(resp.data, template)), e2)
  {
    SettleUnpaginated(e, id, idKey, resp, template);
    var e2 := Settle(Dispatch(e, id, None, idKey), |e.pending|, resp, template);
    var ids := FreshIds(e.next + 1, |resp.data|);
    assert e2.store.order == [Batch(e.next, ids)];
    assert forall i :: 0 <= i < |resp.data| ==> ids[i] in e2.store.data && e2.store.data[ids[i]] == template(resp.data[i]);
    CompletedReadIsStable(e2, id, idKey);
    OneBatchRecords(e2.store, e.next, ids, resp.data, template);
  }

  /**
   * The unpaginated round trip: a consumer that has neither completed nor
   * is loading first gets `undefined` and dispatches a read; once the read
   * succeeds, the next call reads nothing and returns the templated items
   * in response order.
   */
  lemma ReadThenRender(e: Engine, id: Uuid, idKey: string, resp: Response, template: Record -> Record)
    requires Valid(e) && resp.success
    requires id !in ReadMany(e.store, Loading) && id !in ReadMany(e.store, Completed)
    ensures var r1 := GetOrRead(e, id, None, idKey);
      && r1.result.None?
      && |r1.engine.pending| == |e.pending| + 1
      && var e2 := Settle(r1.engine, |e.pending|, resp, template);
      GetOrRead(e2, id, None, idKey)
        == Rendered(Some(Templated(resp.data, template)), e2)
  {
    GetOrReadResult(e, id, None, idKey);
    assert GetOrRead(e, id, None, idKey) == Rendered(None, Dispatch(e, id, None, idKey));
    RenderAfterSettle(e, id, idKey, resp, template);
  }

  /** The response items passed through the template, each present. */
  function Templated(items: seq<Record>, template: Record -> Record): (r: seq<Option<Record>>)
    ensures |r| == |items|
    ensures forall i :: 0 <= i < |items| ==> r[i] == Some(template(items[i]))
  {
    seq(|items|, i requires 0 <= i < |items| => Some(template(items[i])))
  }

  /** The records of a single fully stored batch are its items' templates, in order. */
  lemma OneBatchRecords(s: Partition, batchId: Uuid, ids: seq<Uuid>, items: seq<Record>, template: Record -> Record)
    requires |ids| == |items| && s.order == [Batch(batchId, ids)]
    requires forall i :: 0 <= i < |items| ==> ids[i] in s.data && s.data[ids[i]] == template(items[i])
    ensures Present(AllIds(s.order), s.data) == Templated(items, template)
  {
    AllIdsOfOneBatch(Batch(batchId, ids));
    forall j | j in ids
      ensures j in s.data
    {
      var i :| 0 <= i < |ids| && ids[i] == j;
    }
    AllPresent(ids, s.data);
    var x := Present(ids, s.data);
    assert |x| == |items|;
    forall i | 0 <= i < |items|
      ensures x[i] == Some(template(items[i]))
    {
    }
  }

  /**
   * Every reachable state is valid: the partition stays initialised and
   * each consumer holds at most one handle per path.
   */
  lemma GetOrReadKeepsValid(e: Engine, id: Uuid, req: Option<PageRequest>, idKey: string)
    requires Valid(e)
    ensures Valid(GetOrRead(e, id, req, idKey).engine)
  {
    GetOrReadDispatch(e, id, req, idKey);
  }
}

=== FILE: data_store.dfy ===
/**
 * The store partition of one resource configuration (the record addressed
 * by `pathPrefix`), as a typed tree instead of string paths, together with
 * the patch operations the commands emit and their application.
 *
 * Every operation is a `replace` at one path; applying it replaces the value
 * there and creates missing parents. Ids minted by `uuid()` are natural
 * numbers drawn from a counter.
 */
module DataStore {
  import opened Common

  /** An id minted by `uuid()`: synthetic ids, batch ids and initiator ids. */
  type Uuid = nat

  /** A raw or templated record: its fields, as strings. */
  datatype Record = Record(fields: map<string, string>)

  /** `item[idKey]` used as an object key: missing fields stringify to "undefined". */
  function KeyOf(item: Record, idKey: string): string
  {
    if idKey in item.fields then item.fields[idKey] else "undefined"
  }

  /** `{ loading, failed, completed }` lists of initiator ids. */
  datatype Statuses = Statuses(loading: seq<Uuid>, failed: seq<Uuid>, completed: seq<Uuid>)

  datatype StatusKind = Loading | Failed | Completed

  function ListOf(st: Statuses, kind: StatusKind): seq<Uuid>
  {
    match kind
    case Loading => st.loading
    case Failed => st.failed
    case Completed => st.completed
  }

  function WithList(st: Statuses, kind: StatusKind, ids: seq<Uuid>): (r: Statuses)
    ensures ListOf(r, kind) == ids
    ensures forall k :: k != kind ==> ListOf(r, k) == ListOf(st, k)
  {
    match kind
    case Loading => st.(loading := ids)
    case Failed => st.(failed := ids)
    case Completed => st.(completed := ids)
  }

  const NoStatuses := Statuses([], [], [])

  /** `meta.actions`: action -> type -> statuses. */
  type Actions = map<string, map<string, Statuses>>

  /** A per-initiator pagination cursor. `total` is absent until a page was read. */
  datatype Cursor = Cursor(offset: int, size: int, total: Option<int>, start: int)

  /** The cache key `size-${size}-offset-${offset}` (an injective encoding). */
  datatype PageKey = PageKey(size: int, offset: int)

  /** `pagination['size-' + size]`: cached pages keyed by offset, and the total. */
  datatype PageCache = PageCache(pages: map<int, seq<Uuid>>, total: Option<int>)

  /** One entry of `order`: a batch id and its synthetic ids. */
  datatype Batch = Batch(batchId: Uuid, ids: seq<Uuid>)

  /** `meta.items[syntheticId]`. */
  datatype ItemMeta = ItemMeta(read: Statuses)

  datatype Partition = Partition(
    data: map<Uuid, Record>,
    idMap: map<string, Uuid>,
    order: seq<Batch>,                  // object keys in insertion order
    pagination: map<int, PageCache>,    // keyed by page size
    items: map<Uuid, ItemMeta>,
    actions: Option<Actions>,           // meta.actions, absent before initialisation
    current: map<Uuid, Cursor>,         // meta.pagination.current[initiator]
    byInitiator: map<Uuid, Cursor>,     // meta.pagination[initiator]
    loadedPages: seq<PageKey>)          // meta.pagination.loadedPages

  const EmptyPartition := Partition(map[], map[], [], map[], map[], None, map[], map[], [])

  /** The status slot `meta.actions[action][type]`, if it exists. */
  function Slot(s: Partition, action: string, actionType: string): Option<Statuses>
  {
    if s.actions.Some? && action in s.actions.value && actionType in s.actions.value[action]
    then Some(s.actions.value[action][actionType])
    else None
  }

  /** A status list, read with the `|| []` default. */
  function List(s: Partition, action: string, actionType: string, kind: StatusKind): seq<Uuid>
  {
    var slot := Slot(s, action, actionType);
    if slot.Some? then ListOf(slot.value, kind) else []
  }

  /** `meta.actions.read.many[kind]`. */
  function ReadMany(s: Partition, kind: StatusKind): seq<Uuid>
  {
    List(s, "read", "many", kind)
  }

  /** The partition was initialised: `meta.actions.read.many` exists. */
  predicate Ready(s: Partition)
  {
    Slot(s, "read", "many").Some?
  }

  datatype Op =
    | SetActions(actions: Actions)
    | SetStatusList(action: string, actionType: string, kind: StatusKind, ids: seq<Uuid>)
    | SetItems(items: map<Uuid, ItemMeta>)
    | SetData(data: map<Uuid, Record>)
    | SetIdMap(idMap: map<string, Uuid>)
    | SetOrder(order: seq<Batch>)
    | SetLoadedPages(keys: seq<PageKey>)
    | SetPage(size: int, offset: int, ids: seq<Uuid>)
    | SetPageTotal(size: int, total: int)
    | SetCursor(initiator: Uuid, cursor: Cursor)
    | SetCursorTotal(initiator: Uuid, cursorTotal: Option<int>)
    | RemoveCursor(initiator: Uuid)

  /** Replace one status list, creating missing parents with empty lists. */
  function PutList(actions: Option<Actions>, action: string, actionType: string, kind: StatusKind, ids: seq<Uuid>): Actions
  {
    var acts := if actions.Some? then actions.value else map[];
    var types := if action in acts then acts[action] else map[];
    var st := if actionType in types then types[actionType] else NoStatuses;
    acts[action := types[actionType := WithList(st, kind, ids)]]
  }

  function ApplyOp(s: Partition, op: Op): Partition
  {
    match op
    case SetActions(a) => s.(actions := Some(a))
    case SetStatusList(a, t, k, ids) => s.(actions := Some(PutList(s.actions, a, t, k, ids)))
    case SetItems(m) => s.(items := m)
    case SetData(m) => s.(data := m)
    case SetIdMap(m) => s.(idMap := m)
    case SetOrder(o) => s.(order := o)
    case SetLoadedPages(keys) => s.(loadedPages := keys)
    case SetPage(size, offset, ids) =>
      var cache := if size in s.pagination then s.pagination[size] else PageCache(map[], None);
      s.(pagination := s.pagination[size := cache.(pages := cache.pages[offset := ids])])
    case SetPageTotal(size, total) =>
      var cache := if size in s.pagination then s.pagination[size] else PageCache(map[], None);
      s.(pagination := s.pagination[size := cache.(total := Some(total))])
    case SetCursor(i, c) => s.(current := s.current[i := c])
    case SetCursorTotal(i, total) =>
      // A cursor is missing here only when a failed read's undo removed it
      // while this read was pending; the total is then dropped (see README).
      if i in s.current then s.(current := s.current[i := s.current[i].(total := total)]) else s
    case RemoveCursor(i) => s.(current := s.current - {i})
  }

  function Apply(s: Partition, ops: seq<Op>): Partition
    decreases |ops|
  {
    if |ops| == 0 then s else Apply(ApplyOp(s, ops[0]), ops[1..])
  }

  lemma {:induction false} ApplyConcat(s: Partition, a: seq<Op>, b: seq<Op>)
    ensures Apply(s, a + b) == Apply(Apply(s, a), b)
    decreases |a|
  {
    if |a| > 0 {
      assert (a + b)[0] == a[0] && (a + b)[1..] == a[1..] + b;
      ApplyConcat(ApplyOp(s, a[0]), a[1..], b);
    } else {
      assert a + b == b;
    }
  }

  lemma WithListTwice(st: Statuses, kind: StatusKind, x: seq<Uuid>, y: seq<Uuid>)
    ensures WithList(WithList(st, kind, x), kind, y) == WithList(st, kind, y)
  {
  }

  lemma PutListTwice(actions: Option<Actions>, action: string, actionType: string, kind: StatusKind, x: seq<Uuid>, y: seq<Uuid>)
    ensures PutList(Some(PutList(actions, action, actionType, kind, x)), action, actionType, kind, y)
         == PutList(actions, action, actionType, kind, y)
  {
    var acts: Actions := if actions.Some? then actions.value else map[];
    var types: map<string, Statuses> := if action in acts then acts[action] else map[];
    var st := if actionType in types then types[actionType] else NoStatuses;
    var w1 := WithList(st, kind, x);
    var w2 := WithList(st, kind, y);
    var a1 := acts[action := types[actionType := w1]];
    assert a1[action] == types[actionType := w1];
    assert a1[action][actionType] == w1;
    WithListTwice(st, kind, x, y);
    assert types[actionType := w1][actionType := w2] == types[actionType := w2];
    assert a1[action := types[actionType := w2]] == acts[action := types[actionType := w2]];
  }

  /** A second write to the same status list replaces the first. */
  lemma PutListOverwrites(s: Partition, action: string, actionType: string, kind: StatusKind, x: seq<Uuid>, y: seq<Uuid>)
    ensures ApplyOp(ApplyOp(s, SetStatusList(action, actionType, kind, x)), SetStatusList(action, actionType, kind, y))
         == ApplyOp(s, SetStatusList(action, actionType, kind, y))
  {
    PutListTwice(s.actions, action, actionType, kind, x, y);
  }

  lemma ApplyOne(s: Partition, a: Op)
    ensures Apply(s, [a]) == ApplyOp(s, a)
  {
    assert [a][1..] == [];
  }

  lemma ApplyTwo(s: Partition, a: Op, b: Op)
    ensures Apply(s, [a, b]) == ApplyOp(ApplyOp(s, a), b)
  {
    assert [a, b][1..] == [b];
    ApplyOne(ApplyOp(s, a), b);
  }

  lemma ApplyThree(s: Partition, a: Op, b: Op, c: Op)
    ensures Apply(s, [a, b, c]) == ApplyOp(ApplyOp(ApplyOp(s, a), b), c)
  {
    assert [a, b, c][1..] == [b, c];
    ApplyTwo(ApplyOp(s, a), b, c);
  }

  lemma ApplyFour(s: Partition, a: Op, b: Op, c: Op, d: Op)
    ensures Apply(s, [a, b, c, d]) == ApplyOp(ApplyOp(ApplyOp(ApplyOp(s, a), b), c), d)
  {
    assert [a, b, c, d][1..] == [b, c, d];
    ApplyThree(ApplyOp(s, a), b, c, d);
  }

  /** No command ever writes `meta.pagination[initiator]`. */
  lemma {:induction false} ApplyKeepsByInitiator(s: Partition, ops: seq<Op>)
    ensures Apply(s, ops).byInitiator == s.byInitiator
    decreases |ops|
  {
    if |ops| > 0 {
      ApplyOpKeepsByInitiator(s, ops[0]);
      ApplyKeepsByInitiator(ApplyOp(s, ops[0]), ops[1..]);
    }
  }

  lemma ApplyOpKeepsByInitiator(s: Partition, op: Op)
    ensures ApplyOp(s, op).byInitiator == s.byInitiator
  {
  }

  /**
   * Every path `ops` wrote still holds the value written there: writing it
   * again changes nothing. This is what the `test` operation heading each
   * recorded undo checks before the undo may run.
   */
  predicate StillHolds(s: Partition, ops: seq<Op>)
  {
    forall op :: op in ops ==> ApplyOp(s, op) == s
  }

  /** The operations a read records to undo `beforeReadMany`: status lists and cursors only. */
  predicate IsUndoOp(op: Op)
  {
    op.SetStatusList? || op.SetCursor? || op.RemoveCursor?
  }

  /** A list of undo operations only. */
  predicate UndoOps(ops: seq<Op>)
  {
    forall op :: op in ops ==> IsUndoOp(op)
  }

  /** Undo operations never touch the stored records or item metas. */
  lemma {:induction false} ApplyUndoKeepsEntities(s: Partition, ops: seq<Op>)
    ensures UndoOps(ops) ==> Apply(s, ops).data == s.data && Apply(s, ops).items == s.items
    decreases |ops|
  {
    if |ops| > 0 && UndoOps(ops) {
      assert ops[0] in ops;
      assert forall op :: op in ops[1..] ==> op in ops;
      UndoOpKeepsEntities(s, ops[0]);
      ApplyUndoKeepsEntities(ApplyOp(s, ops[0]), ops[1..]);
    }
  }

  lemma UndoOpKeepsEntities(s: Partition, op: Op)
    requires IsUndoOp(op)
    ensures ApplyOp(s, op).data == s.data && ApplyOp(s, op).items == s.items
  {
  }

  /** Writing a status list keeps every other slot and list. */
  lemma PutListEffect(s: Partition, action: string, actionType: string, kind: StatusKind, ids: seq<Uuid>)
    ensures var t := ApplyOp(s, SetStatusList(action, actionType, kind, ids));
      && Slot(t, action, actionType).Some?
      && List(t, action, actionType, kind) == ids
      && (forall k :: k != kind ==> List(t, action, actionType, k) == List(s, action, actionType, k))
      && (forall a, ty :: (a, ty) != (action, actionType) ==> Slot(t, a, ty) == Slot(s, a, ty))
  {
  }
}

=== FILE: elements.dfy ===
/**
 * The element factories of the widget core: `w` for widget nodes, `v` for
 * virtual DOM nodes, `tsx` for JSX, and the `widget()` / `middleware()`
 * builders. The vdom-next and framework versions of these share one
 * definition here; they differ only in which module supplies `v` and the
 * node-kind checks.
 *
 * JavaScript values are modelled by the shapes the factories look at:
 * property values (`PropValue`), children (`DNode`, which also holds the
 * nested arrays JSX produces) and the first argument of `w` (`Target`).
 */
module Elements {
  import opened Common

  const WNodeType := "__WNODE_TYPE"
  const VNodeType := "__VNODE_TYPE"
  const DomVNodeType := "__DOMVNODE_TYPE"
  const AutoRegistryKey := "__autoRegistryItem"

  /** A property value. */
  datatype PropValue =
    | PStr(s: string)
    | PNum(n: int)
    | PBool(b: bool)
    | PNull
    | PUndefined
    | PArray(items: seq<PropValue>)
    | PObject(fields: map<string, PropValue>)
    | PFunction(id: nat)

  type Props = map<string, PropValue>

  /** JavaScript truthiness of a property value. */
  predicate TruthyValue(x: PropValue)
  {
    match x
    case PStr(s) => s != ""
    case PNum(n) => n != 0
    case PBool(b) => b
    case PNull => false
    case PUndefined => false
    case _ => true
  }

  /** The middleware map handed to `widget()` or `middleware()`: name to middleware. */
  type MiddlewareMap = map<string, nat>

  /**
   * A child as JSX hands it over: a widget node, a virtual DOM node, text,
   * a boolean, `null`/`undefined`, or a (possibly nested) array of children.
   */
  datatype DNode =
    | WNode(widget: Target, properties: Props, children: seq<DNode>)
    | VNode(tag: string, properties: Props, vchildren: Option<seq<DNode>>, deferred: Option<nat>, dom: bool)
    | Text(text: string)
    | BoolNode(b: bool)
    | Nullish
    | Arr(items: seq<DNode>)

  /**
   * The first argument of `w` (and a non-string `tsx` tag): a registry label,
   * a widget class or render function, a factory made by `widget()`, a lazy
   * registry entry (`type: 'registry'`), a `FromRegistry` class, an existing
   * node, or any other value. An object whose `type` is `'registry'`,
   * `'__registry_item'` or `'__WNODE_TYPE'` is represented only by
   * `Registry`, `RegistryItem` or `NodeArg`; `Other` never holds one, since
   * `w` and `tsx` would route it by that field.
   */
  datatype Target =
    | Name(name: string)
    | Ctor(id: nat)
    | Factory(callback: nat, middlewares: Option<MiddlewareMap>)
    | Registry(id: nat)
    | RegistryItem(itemName: Option<string>)
    | NodeArg(node: DNode)
    | Other(value: PropValue)

  /** JavaScript truthiness of a child. */
  predicate Truthy(c: DNode)
  {
    match c
    case Text(s) => s != ""
    case BoolNode(b) => b
    case Nullish => false
    case _ => true
  }

  /** The child's `type` field, when it is an object that has one. */
  function TypeField(c: DNode): Option<string>
  {
    match c
    case WNode(_, _, _) => Some(WNodeType)
    case VNode(_, _, _, _, dom) => Some(if dom then DomVNodeType else VNodeType)
    case _ => None
  }

  /** The shape test shared by the three node checks: a truthy, non-`true`, non-string value. */
  predicate ObjectLike(c: DNode)
  {
    Truthy(c) && c != BoolNode(true) && !c.Text?
  }

  /** `isWNode`: an object whose `type` is the widget-node marker. */
  predicate IsWNode(c: DNode): (r: bool)
    ensures r <==> c.WNode?
  {
    ObjectLike(c) && TypeField(c) == Some(WNodeType)
  }

  /** `isVNode`: an object whose `type` is either virtual-node marker. */
  predicate IsVNode(c: DNode): (r: bool)
    ensures r <==> c.VNode?
  {
    ObjectLike(c) && (TypeField(c) == Some(VNodeType) || TypeField(c) == Some(DomVNodeType))
  }

  /** `isDomVNode`: an object whose `type` is the `dom()` marker. */
  predicate IsDomVNode(c: DNode): (r: bool)
    ensures r <==> c.VNode? && c.dom
  {
    ObjectLike(c) && TypeField(c) == Some(DomVNodeType)
  }

  /**
   * A `dom()` node is a virtual node, no value is both a widget node and a
   * virtual node, and strings, `true` and falsy values are neither.
   */
  lemma NodeKinds(c: DNode)
    ensures IsDomVNode(c) ==> IsVNode(c)
    ensures !(IsWNode(c) && IsVNode(c))
    ensures c.Text? || c.BoolNode? || !Truthy(c) ==> !IsWNode(c) && !IsVNode(c) && !IsDomVNode(c)
  {
  }

  /** `isWNodeFactory`: a function carrying a truthy `isFactory`, which only `widget()` sets. */
  predicate IsWNodeFactory(t: Target)
  {
    t.Factory?
  }

  // ---------------------------------------------------------------------
  // spreadChildren

  /** `spreadChildren(children, child)`: an array is folded in element by element, anything else appended. */
  function SpreadChildren(children: seq<DNode>, child: DNode): seq<DNode>
    decreases child, 1
  {
    if child.Arr? then SpreadAll(children, child.items) else children + [child]
  }

  /** `items.reduce(spreadChildren, children)`. */
  function SpreadAll(children: seq<DNode>, items: seq<DNode>): seq<DNode>
    decreases items, 0
  {
    if |items| == 0 then children
    else SpreadAll(SpreadChildren(children, items[0]), items[1..])
  }

  /** The reference deep flatten: the non-array values of a child, left to right. */
  function Flat(child: DNode): seq<DNode>
    decreases child, 1
  {
    if child.Arr? then FlatAll(child.items) else [child]
  }

  /** The deep flatten of a list of children. */
  function FlatAll(items: seq<DNode>): seq<DNode>
    decreases items, 0
  {
    if |items| == 0 then [] else Flat(items[0]) + FlatAll(items[1..])
  }

  /** A list without arrays in it. */
  predicate IsFlat(items: seq<DNode>)
  {
    forall i :: 0 <= i < |items| ==> !items[i].Arr?
  }

  /** `spreadChildren` appends exactly the deep flatten of the child. */
  lemma {:induction false} SpreadIsFlatten(children: seq<DNode>, child: DNode)
    ensures SpreadChildren(children, child) == children + Flat(child)
    decreases child, 1
  {
    if child.Arr? {
      SpreadAllIsFlatten(children, child.items);
    }
  }

  /** Folding `spreadChildren` over a list appends the list's deep flatten. */
  lemma {:induction false} SpreadAllIsFlatten(children: seq<DNode>, items: seq<DNode>)
    ensures SpreadAll(children, items) == children + FlatAll(items)
    decreases items, 0
  {
    if |items| > 0 {
      SpreadIsFlatten(children, items[0]);
      SpreadAllIsFlatten(children + Flat(items[0]), items[1..]);
      assert children + Flat(items[0]) + FlatAll(items[1..]) == children + (Flat(items[0]) + FlatAll(items[1..]));
    }
  }

  /** Flattening distributes over concatenation. */
  lemma {:induction false} FlatAllAppend(a: seq<DNode>, b: seq<DNode>)
    ensures FlatAll(a + b) == FlatAll(a) + FlatAll(b)
    decreases |a|
  {
    if |a| > 0 {
      assert (a + b)[0] == a[0] && (a + b)[1..] == a[1..] + b;
      FlatAllAppend(a[1..], b);
    } else {
      assert a + b == b;
    }
  }

  /** The deep flatten holds no arrays. */
  lemma {:induction false} FlatIsFlat(child: DNode)
    ensures IsFlat(Flat(child))
    decreases child, 1
  {
    if child.Arr? {
      FlatAllIsFlat(child.items);
    }
  }

  lemma {:induction false} FlatAllIsFlat(items: seq<DNode>)
    ensures IsFlat(FlatAll(items))
    decreases items, 0
  {
    if |items| > 0 {
      FlatIsFlat(items[0]);
      FlatAllIsFlat(items[1..]);
    }
  }

  /** A list without arrays is its own flatten. */
  lemma {:induction false} FlatListIsFixed(items: seq<DNode>)
    requires IsFlat(items)
    ensures FlatAll(items) == items
    decreases |items|
  {
    if |items| > 0 {
      FlatListIsFixed(items[1..]);
      assert items == [items[0]] + items[1..];
    }
  }

  /**
   * The children `tsx` builds: a list without arrays, holding the non-array
   * values in left-to-right order, which flattening again leaves unchanged.
   */
  lemma SpreadChildrenFlattens(items: seq<DNode>)
    ensures SpreadAll([], items) == FlatAll(items)
    ensures IsFlat(SpreadAll([], items))
    ensures SpreadAll([], SpreadAll([], items)) == SpreadAll([], items)
  {
    SpreadAllIsFlatten([], items);
    FlatAllIsFlat(items);
    SpreadAllIsFlatten([], FlatAll(items));
    FlatListIsFixed(FlatAll(items));
  }

  // ---------------------------------------------------------------------
  // w

  /** `children ? children : fallback`: any array, even an empty one, is truthy. */
  function ChildrenOr(children: Option<seq<DNode>>, fallback: seq<DNode>): seq<DNode>
  {
    if children.Some? then children.value else fallback
  }

  /** What calling a `widget()` factory yields: the node and the mark left on the callback. */
  datatype FactoryCall = FactoryCall(node: DNode, markedCallback: nat, markedMiddlewares: Option<MiddlewareMap>)

  /**
   * Calling a factory made by `widget()`: `w(callback, properties,
   * children)`, after which the callback carries `isWidget` and the
   * middlewares.
   */
  function InvokeFactory(f: Target, properties: Props, children: Option<seq<DNode>>): (r: FactoryCall)
    requires f.Factory?
    ensures r.node.WNode? && r.node.widget == Ctor(f.callback)
    ensures r.node.properties == properties && r.node.children == ChildrenOr(children, [])
    ensures r.markedCallback == f.callback && r.markedMiddlewares == f.middlewares
  {
    FactoryCall(WNode(Ctor(f.callback), properties, ChildrenOr(children, [])), f.callback, f.middlewares)
  }

  /**
   * `w(widgetConstructorOrNode, properties, children)`: a factory is
   * called; an existing widget node is re-created with its properties
   * overridden by the new ones, its children replaced when new ones are
   * given, and its constructor unwrapped; anything else becomes the
   * constructor of a new widget node.
   */
  function W(t: Target, properties: Props, children: Option<seq<DNode>>): (r: DNode)
    ensures r.WNode?
    ensures IsWNodeFactory(t) ==> r == InvokeFactory(t, properties, children).node
    ensures t.NodeArg? && IsWNode(t.node) ==>
      && r.widget == t.node.widget
      && (forall k :: k in r.properties <==> k in t.node.properties || k in properties)
      && (forall k :: k in properties ==> r.properties[k] == properties[k])
      && (forall k :: k in t.node.properties && k !in properties ==> r.properties[k] == t.node.properties[k])
      && r.children == ChildrenOr(children, t.node.children)
    ensures !IsWNodeFactory(t) && !(t.NodeArg? && IsWNode(t.node)) ==>
      r.widget == t && r.properties == properties && r.children == ChildrenOr(children, [])
  {
    if IsWNodeFactory(t) then InvokeFactory(t, properties, children).node
    else if t.NodeArg? && IsWNode(t.node) then
      WNode(t.node.widget, t.node.properties + properties, ChildrenOr(children, t.node.children))
    else WNode(t, properties, ChildrenOr(children, []))
  }

  /** Re-wrapping a node `w` made equals one `w` call with the merged properties and the later children. */
  lemma WMergeLaw(t: Target, p1: Props, c1: Option<seq<DNode>>, p2: Props, c2: Option<seq<DNode>>)
    ensures W(NodeArg(W(t, p1, c1)), p2, c2) == W(t, p1 + p2, if c2.Some? then c2 else c1)
  {
    if t.NodeArg? && IsWNode(t.node) {
      assert t.node.properties + p1 + p2 == t.node.properties + (p1 + p2);
    }
  }

  /** A factory's node is the node `w` makes for its callback directly. */
  lemma FactoryDelegates(middlewares: Option<MiddlewareMap>, callback: nat, properties: Props, children: Option<seq<DNode>>)
    ensures var f := WidgetFactory(middlewares, callback);
      && IsWNodeFactory(f)
      && W(f, properties, children) == W(Ctor(callback), properties, children)
      && InvokeFactory(f, properties, children).markedMiddlewares == middlewares
  {
  }

  // ---------------------------------------------------------------------
  // v

  /** The tag argument of `v`: a tag name or an existing virtual node. */
  datatype VTag = TagName(name: string) | TagNode(node: DNode)

  /** The second argument of `v`: properties, children, a deferred-properties callback, or nothing. */
  datatype VArg = PropsArg(props: Props) | ChildrenArg(items: seq<DNode>) | DeferredArg(callback: nat) | NoArg

  const ClassesKey := "classes"
  const StylesKey := "styles"

  /** `let { classes = [] } = p` then `Array.isArray(classes) ? classes : [classes]`. */
  function ClassList(p: Props): seq<PropValue>
  {
    if ClassesKey !in p || p[ClassesKey] == PUndefined then []
    else if p[ClassesKey].PArray? then p[ClassesKey].items
    else [p[ClassesKey]]
  }

  /** `let { styles = {} } = p`, as the object spread copies it. */
  function StyleMap(p: Props): map<string, PropValue>
  {
    if StylesKey in p && p[StylesKey].PObject? then p[StylesKey].fields else map[]
  }

  /** The properties other than `classes` and `styles`. */
  function Rest(p: Props): Props
  {
    map k | k in p && k != ClassesKey && k != StylesKey :: p[k]
  }

  /** Properties made of other properties, a class list and a style object. */
  function Assemble(rest: Props, classes: seq<PropValue>, styles: map<string, PropValue>): Props
  {
    rest[ClassesKey := PArray(classes)][StylesKey := PObject(styles)]
  }

  /**
   * The properties of `v(node, extra)`: the node's classes followed by the
   * new ones, the styles and every other property merged with the new
   * values winning.
   */
  function MergeProps(base: Props, extra: Props): (r: Props)
    ensures ClassList(r) == ClassList(base) + ClassList(extra)
    ensures StyleMap(r) == StyleMap(base) + StyleMap(extra)
    ensures Rest(r) == Rest(base) + Rest(extra)
  {
    var r := Assemble(Rest(base) + Rest(extra), ClassList(base) + ClassList(extra), StyleMap(base) + StyleMap(extra));
    assert Rest(r) == Rest(base) + Rest(extra);
    r
  }

  /** Two merges whose parts agree give the same properties. */
  lemma MergeByParts(x: Props, y: Props, rest: Props, classes: seq<PropValue>, styles: map<string, PropValue>)
    requires Rest(x) + Rest(y) == rest
    requires ClassList(x) + ClassList(y) == classes
    requires StyleMap(x) + StyleMap(y) == styles
    ensures MergeProps(x, y) == Assemble(rest, classes, styles)
  {
  }

  lemma MapUnionAssociative<K, V>(x: map<K, V>, y: map<K, V>, z: map<K, V>)
    ensures x + y + z == x + (y + z)
  {
  }

  /** Merging properties in two steps or in one gives the same properties. */
  lemma MergePropsAssociative(a: Props, b: Props, c: Props)
    ensures MergeProps(MergeProps(a, b), c) == MergeProps(a, MergeProps(b, c))
  {
    var rest := Rest(a) + Rest(b) + Rest(c);
    var classes := ClassList(a) + ClassList(b) + ClassList(c);
    var styles := StyleMap(a) + StyleMap(b) + StyleMap(c);
    MergeByParts(MergeProps(a, b), c, rest, classes, styles);
    MapUnionAssociative(Rest(a), Rest(b), Rest(c));
    MapUnionAssociative(StyleMap(a), StyleMap(b), StyleMap(c));
    assert ClassList(a) + (ClassList(b) + ClassList(c)) == classes;
    MergeByParts(a, MergeProps(b, c), rest, classes, styles);
  }

  /**
   * `v(tag, propertiesOrChildren, children)`: an array second argument is
   * the children, a function the deferred-properties callback; over an
   * existing node the tag is unwrapped, the properties merged and the
   * children kept unless new ones are given. The result is always a plain
   * virtual node.
   */
  function V(tag: VTag, arg: VArg, children: Option<seq<DNode>>): (r: DNode)
    requires tag.TagNode? ==> tag.node.VNode?
    ensures r.VNode? && !r.dom
    ensures r.deferred == if arg.DeferredArg? then Some(arg.callback) else None
    ensures tag.TagName? ==> r.tag == tag.name
    ensures tag.TagNode? ==> r.tag == tag.node.tag
    ensures arg.ChildrenArg? ==> r.vchildren == Some(arg.items)
    ensures !arg.ChildrenArg? && tag.TagName? ==> r.vchildren == children
    ensures !arg.ChildrenArg? && tag.TagNode? ==>
      r.vchildren == if children.Some? then children else tag.node.vchildren
    ensures tag.TagName? ==> r.properties == if arg.PropsArg? then arg.props else map[]
    ensures tag.TagNode? ==>
      r.properties == MergeProps(tag.node.properties, if arg.PropsArg? then arg.props else map[])
  {
    var properties := if arg.PropsArg? then arg.props else map[];
    var kids := if arg.ChildrenArg? then Some(arg.items) else children;
    var deferred := if arg.DeferredArg? then Some(arg.callback) else None;
    match tag
    case TagName(name) => VNode(name, properties, kids, deferred, false)
    case TagNode(n) =>
      VNode(n.tag, MergeProps(n.properties, properties), if kids.Some? then kids else n.vchildren, deferred, false)
  }

  /** Extending a node twice equals extending it once with the merged properties. */
  lemma VMergeLaw(n: DNode, p1: Props, p2: Props)
    requires n.VNode?
    ensures V(TagNode(V(TagNode(n), PropsArg(p1), None)), PropsArg(p2), None)
         == V(TagNode(n), PropsArg(MergeProps(p1, p2)), None)
  {
    MergePropsAssociative(n.properties, p1, p2);
  }

  // ---------------------------------------------------------------------
  // tsx

  /** A registry name taken from a property value: a string label, or the value itself. */
  function LabelOf(x: PropValue): Target
  {
    if x.PStr? then Name(x.s) else Other(x)
  }

  /** The tag as a JavaScript string (`typeof tag === 'string'`), when it is one. */
  function StringTag(t: Target): Option<string>
  {
    match t
    case Name(s) => Some(s)
    case Other(PStr(s)) => Some(s)
    case _ => None
  }

  /** The properties argument, read as `{}` when missing or `null`. */
  function PropsOrEmpty(properties: Option<Props>): Props
  {
    if properties.Some? then properties.value else map[]
  }

  /** A registry tag (`type: 'registry'`) whose properties carry a truthy `__autoRegistryItem`. */
  predicate AutoRegistered(tag: Target, p: Props)
  {
    tag.Registry? && AutoRegistryKey in p && TruthyValue(p[AutoRegistryKey])
  }

  /** The name a `FromRegistry` class's instance carries, `undefined` when it has none. */
  function ItemLabel(itemName: Option<string>): Target
  {
    if itemName.Some? then Name(itemName.value) else Other(PUndefined)
  }

  /**
   * `tsx(tag, properties, ...children)`: the children deep-flattened, a
   * `null` or missing properties object read as `{}`, then a string tag
   * goes to `v`, a registry tag with `__autoRegistryItem` to `w` of that
   * name (the key removed), a `FromRegistry` class to `w` of its item name,
   * and anything else to `w` itself.
   */
  function Tsx(tag: Target, properties: Option<Props>, children: seq<DNode>): (r: DNode)
    ensures var p := PropsOrEmpty(properties);
      var kids := Some(FlatAll(children));
      && (StringTag(tag).Some? ==> r == V(TagName(StringTag(tag).value), PropsArg(p), kids))
      && (AutoRegistered(tag, p) ==> r == W(LabelOf(p[AutoRegistryKey]), p - {AutoRegistryKey}, kids))
      && (tag.RegistryItem? ==> r == W(ItemLabel(tag.itemName), p, kids))
      && (StringTag(tag).None? && !AutoRegistered(tag, p) && !tag.RegistryItem? ==> r == W(tag, p, kids))
    ensures StringTag(tag).Some? ==> r.VNode? && r.tag == StringTag(tag).value && r.vchildren == Some(FlatAll(children))
    ensures StringTag(tag).None? ==> r.WNode? && r.children == FlatAll(children)
    ensures IsFlat(if r.WNode? then r.children else r.vchildren.value)
  {
    var kids := SpreadAll([], children);
    SpreadChildrenFlattens(children);
    var p := PropsOrEmpty(properties);
    if StringTag(tag).Some? then V(TagName(StringTag(tag).value), PropsArg(p), Some(kids))
    else if AutoRegistered(tag, p) then W(LabelOf(p[AutoRegistryKey]), p - {AutoRegistryKey}, Some(kids))
    else if tag.RegistryItem? then W(ItemLabel(tag.itemName), p, Some(kids))
    else W(tag, p, Some(kids))
  }

  /**
   * A registry tag with a truthy `__autoRegistryItem` makes a widget node
   * whose constructor is that value (a string as a registry label), whose
   * properties are all the others with their values, and whose children
   * are the flattened children.
   */
  lemma TsxAutoRegistry(id: nat, properties: Props, children: seq<DNode>)
    requires AutoRegistryKey in properties && TruthyValue(properties[AutoRegistryKey])
    ensures var r := Tsx(Registry(id), Some(properties), children);
      && r.WNode? && r.widget == LabelOf(properties[AutoRegistryKey])
      && r.properties == properties - {AutoRegistryKey}
      && r.children == FlatAll(children)
  {
    var widget := LabelOf(properties[AutoRegistryKey]);
    assert !IsWNodeFactory(widget) && !widget.NodeArg?;
  }

  /**
   * `tsx` over an existing widget node always passes an array of children,
   * so the node's own children are replaced, by `[]` when the JSX element
   * has none.
   */
  lemma TsxReplacesNodeChildren(n: DNode, properties: Props, children: seq<DNode>)
    requires n.WNode?
    ensures var r := Tsx(NodeArg(n), Some(properties), children);
      && r.WNode? && r.widget == n.widget
      && r.children == FlatAll(children)
      && (children == [] ==> r.children == [])
  {
    SpreadChildrenFlattens(children);
  }

  // ---------------------------------------------------------------------
  // widget() and middleware()

  /** `widget(middlewares)(callback)`: a factory marked `isFactory`. */
  function WidgetFactory(middlewares: Option<MiddlewareMap>, callback: nat): (f: Target)
    ensures IsWNodeFactory(f)
    ensures InvokeFactory(f, map[], None).markedCallback == callback
  {
    Factory(callback, middlewares)
  }

  /** The first argument of `createMiddleware`: a middleware map or a callback. */
  datatype MiddlewareArg = MapArg(middlewares: MiddlewareMap) | CallbackArg(id: nat)

  /** `{ middlewares, callback }` as `createMiddleware` returns it. */
  datatype MiddlewareResult = MiddlewareResult(middlewares: Option<MiddlewareArg>, callback: MiddlewareArg)

  /** `middleware()(first, callback?)`: with a callback, both are kept; without, the first argument is the callback. */
  function CreateMiddleware(first: MiddlewareArg, callback: Option<nat>): (r: MiddlewareResult)
    ensures r.middlewares.Some? <==> callback.Some?
    ensures callback.Some? ==> r.middlewares == Some(first) && r.callback == CallbackArg(callback.value)
    ensures callback.None? ==> r.callback == first
  {
    if callback.Some? then MiddlewareResult(Some(first), CallbackArg(callback.value))
    else MiddlewareResult(None, first)
  }
}

=== FILE: legacy_commands.dfy ===
/**
 * The oldest engine's commands: one resource partition with a single
 * `read.many` status string, and per-item path writes instead of merged
 * maps.
 */
module LegacyCommands {
  import opened Common
  import opened DataStore
  import opened DataCommands

  /** `meta.items[syntheticId]`: `{status, action, log: {}}`. */
  datatype LegacyItemMeta = LegacyItemMeta(status: string, action: string)

  /** The meta every read item gets. */
  const CompletedItem := LegacyItemMeta("completed", "read")

  /**
   * A value of `order`: an id list (what `readMany` writes), a single id,
   * or a falsy value.
   */
  datatype OrderEntry = Ids(ids: seq<Uuid>) | Single(id: Uuid) | Falsy

  /** One key of `order` (a batch id) and its value. */
  datatype OrderSlot = OrderSlot(key: Uuid, entry: OrderEntry)

  datatype LegacyPartition = LegacyPartition(
    data: map<Uuid, Record>,
    idMap: map<string, Uuid>,
    order: seq<OrderSlot>,            // object keys in insertion order
    items: map<Uuid, LegacyItemMeta>,
    status: Option<string>)           // meta.actions.read.many.status

  /** A `replace` at one path; `SetStatus(None)` removes the status (an undo of its creation). */
  datatype LegacyOp =
    | SetStatus(status: Option<string>)
    | PutIdMap(key: string, id: Uuid)
    | PutData(id: Uuid, record: Record)
    | PutItem(id: Uuid, meta: LegacyItemMeta)
    | PutOrder(batchId: Uuid, ids: seq<Uuid>)

  /** The keys of `order`. */
  function Keys(order: seq<OrderSlot>): (r: seq<Uuid>)
    ensures |r| == |order|
    ensures forall i :: 0 <= i < |order| ==> r[i] == order[i].key
  {
    seq(|order|, i requires 0 <= i < |order| => order[i].key)
  }

  /**
   * Writing `order[key]`: an existing key keeps its position, a new key is
   * appended.
   */
  function PutEntry(order: seq<OrderSlot>, key: Uuid, entry: OrderEntry): (r: seq<OrderSlot>)
    ensures key !in Keys(order) ==> r == order + [OrderSlot(key, entry)]
    ensures key in Keys(order) ==> |r| == |order| && Keys(r) == Keys(order)
    ensures OrderSlot(key, entry) in r
    ensures forall x :: x in order && x.key != key ==> x in r
    decreases |order|
  {
    if |order| == 0 then [OrderSlot(key, entry)]
    else if order[0].key == key then [OrderSlot(key, entry)] + order[1..]
    else
      assert Keys(order) == [order[0].key] + Keys(order[1..]);
      var rest := PutEntry(order[1..], key, entry);
      assert forall x :: x in order <==> x == order[0] || x in order[1..];
      [order[0]] + rest
  }

  function LegacyApplyOp(s: LegacyPartition, op: LegacyOp): LegacyPartition
  {
    match op
    case SetStatus(st) => s.(status := st)
    case PutIdMap(k, id) => s.(idMap := s.idMap[k := id])
    case PutData(id, r) => s.(data := s.data[id := r])
    case PutItem(id, m) => s.(items := s.items[id := m])
    case PutOrder(b, ids) => s.(order := PutEntry(s.order, b, Ids(ids)))
  }

  function LegacyApply(s: LegacyPartition, ops: seq<LegacyOp>): LegacyPartition
    decreases |ops|
  {
    if |ops| == 0 then s else LegacyApply(LegacyApplyOp(s, ops[0]), ops[1..])
  }

  lemma {:induction false} LegacyApplyConcat(s: LegacyPartition, a: seq<LegacyOp>, b: seq<LegacyOp>)
    ensures LegacyApply(s, a + b) == LegacyApply(LegacyApply(s, a), b)
    decreases |a|
  {
    if |a| > 0 {
      assert (a + b)[0] == a[0] && (a + b)[1..] == a[1..] + b;
      LegacyApplyConcat(LegacyApplyOp(s, a[0]), a[1..], b);
    } else {
      assert a + b == b;
    }
  }

  lemma LegacyApplyOne(s: LegacyPartition, a: LegacyOp)
    ensures LegacyApply(s, [a]) == LegacyApplyOp(s, a)
  {
    assert [a][1..] == [];
  }

  lemma LegacyApplyTwo(s: LegacyPartition, a: LegacyOp, b: LegacyOp)
    ensures LegacyApply(s, [a, b]) == LegacyApplyOp(LegacyApplyOp(s, a), b)
  {
    assert [a, b][1..] == [b];
    LegacyApplyOne(LegacyApplyOp(s, a), b);
  }

  lemma LegacyApplyThree(s: LegacyPartition, a: LegacyOp, b: LegacyOp, c: LegacyOp)
    ensures LegacyApply(s, [a, b, c]) == LegacyApplyOp(LegacyApplyOp(LegacyApplyOp(s, a), b), c)
  {
    assert [a, b, c][1..] == [b, c];
    LegacyApplyTwo(LegacyApplyOp(s, a), b, c);
  }

  const LoadingStatus := "loading"
  const CompletedStatus := "completed"

  /** `beforeReadMany`: exactly one operation, the status set to `'loading'`. */
  function LegacyBeforeReadMany(s: LegacyPartition): (ops: seq<LegacyOp>)
    ensures |ops| == 1
    ensures LegacyApply(s, ops) == s.(status := Some(LoadingStatus))
  {
    var op := SetStatus(Some(LoadingStatus));
    LegacyApplyOne(s, op);
    [op]
  }

  /** The undo the process records for `beforeReadMany`: the status it had. */
  function LegacyBeforeReadManyUndo(s: LegacyPartition): (ops: seq<LegacyOp>)
    ensures LegacyApply(LegacyApply(s, LegacyBeforeReadMany(s)), ops) == s
    ensures StatusOnly(ops)
  {
    var op := SetStatus(s.status);
    LegacyApplyOne(s.(status := Some(LoadingStatus)), op);
    [op]
  }

  /** An undo the process records: status writes only. */
  predicate StatusOnly(ops: seq<LegacyOp>)
  {
    forall op :: op in ops ==> op.SetStatus?
  }

  /** Status writes leave everything but the status alone. */
  lemma {:induction false} StatusOnlyKeepsEntities(s: LegacyPartition, ops: seq<LegacyOp>)
    ensures StatusOnly(ops) ==> LegacyApply(s, ops) == s.(status := LegacyApply(s, ops).status)
    decreases |ops|
  {
    if |ops| > 0 && StatusOnly(ops) {
      assert ops[0] in ops;
      assert forall op :: op in ops[1..] ==> op in ops;
      StatusOnlyKeepsEntities(LegacyApplyOp(s, ops[0]), ops[1..]);
    }
  }

  /** `read()`'s result: the items and whether its status is `failed`. */
  datatype LegacyResponse = LegacyResponse(data: seq<Record>, failed: bool)

  /** The three writes for one item: its id mapping, its templated data, its meta. */
  function ItemTriple(item: Record, idKey: string, template: Record -> Record, sid: Uuid): seq<LegacyOp>
  {
    [PutIdMap(KeyOf(item, idKey), sid), PutData(sid, template(item)), PutItem(sid, CompletedItem)]
  }

  /** The per-item writes, item by item in input order, each item with the next fresh id. */
  function ItemOps(items: seq<Record>, idKey: string, template: Record -> Record, next: Uuid): (ops: seq<LegacyOp>)
    ensures |ops| == 3 * |items|
    decreases |items|
  {
    if |items| == 0 then []
    else
      var n := |items| - 1;
      ItemOps(items[..n], idKey, template, next) + ItemTriple(items[n], idKey, template, next + n)
  }

  /** Item `i` of a batch is written by operations `3i`, `3i+1` and `3i+2`, under id `next + i`. */
  lemma {:induction false} ItemOpsAt(items: seq<Record>, idKey: string, template: Record -> Record, next: Uuid, i: nat)
    requires i < |items|
    ensures ItemOps(items, idKey, template, next)[3 * i .. 3 * i + 3] == ItemTriple(items[i], idKey, template, next + i)
    decreases |items|
  {
    var n := |items| - 1;
    var init := ItemOps(items[..n], idKey, template, next);
    var last := ItemTriple(items[n], idKey, template, next + n);
    assert ItemOps(items, idKey, template, next) == init + last;
    if i < n {
      ItemOpsAt(items[..n], idKey, template, next, i);
      assert items[..n][i] == items[i];
      SliceOfConcatLeft(init, last, 3 * i, 3 * i + 3);
    } else {
      SliceOfConcatRight(init, last);
    }
  }

  /** A slice inside the left part of a concatenation is a slice of that part. */
  lemma SliceOfConcatLeft<T>(a: seq<T>, b: seq<T>, lo: nat, hi: nat)
    requires lo <= hi <= |a|
    ensures (a + b)[lo..hi] == a[lo..hi]
  {
  }

  /** The right part of a concatenation is its slice from the left part's end. */
  lemma SliceOfConcatRight<T>(a: seq<T>, b: seq<T>)
    ensures (a + b)[|a|..|a| + |b|] == b
  {
  }

  /** Item `i` is written by operations `3i`, `3i+1` and `3i+2`, under id `next + i`. */
  lemma ItemOpsLayout(items: seq<Record>, idKey: string, template: Record -> Record, next: Uuid)
    ensures var ops := ItemOps(items, idKey, template, next);
      forall i :: 0 <= i < |items| ==>
        && ops[3 * i] == PutIdMap(KeyOf(items[i], idKey), next + i)
        && ops[3 * i + 1] == PutData(next + i, template(items[i]))
        && ops[3 * i + 2] == PutItem(next + i, CompletedItem)
  {
    var ops := ItemOps(items, idKey, template, next);
    forall i | 0 <= i < |items|
      ensures ops[3 * i] == PutIdMap(KeyOf(items[i], idKey), next + i)
      ensures ops[3 * i + 1] == PutData(next + i, template(items[i]))
      ensures ops[3 * i + 2] == PutItem(next + i, CompletedItem)
    {
      ItemOpsAt(items, idKey, template, next, i);
      var t := ops[3 * i .. 3 * i + 3];
      assert t[0] == ops[3 * i] && t[1] == ops[3 * i + 1] && t[2] == ops[3 * i + 2];
    }
  }

  /**
   * `readMany`: a failed read throws; otherwise 3n+2 operations, the item
   * triples in input order, then the status `'completed'` and
   * `order[batchId]` set to the fresh ids in input order.
   */
  function LegacyReadMany(batchId: Uuid, idKey: string, resp: LegacyResponse, template: Record -> Record, next: Uuid): (r: Result<seq<LegacyOp>>)
    ensures r.Err? <==> resp.failed
    ensures r.Err? ==> r.error == ReadFailedMessage
    ensures r.Ok? ==>
      var n := |resp.data|;
      && |r.value| == 3 * n + 2
      && r.value[3 * n] == SetStatus(Some(CompletedStatus))
      && r.value[3 * n + 1] == PutOrder(batchId, FreshIds(next, n))
  {
    if resp.failed then Err(ReadFailedMessage)
    else
      var items := ItemOps(resp.data, idKey, template, next);
      Ok(items + [SetStatus(Some(CompletedStatus)), PutOrder(batchId, FreshIds(next, |resp.data|))])
  }

  /**
   * The item writes of a successful read come first, three per item in
   * input order: the id mapping, the templated data, the completed meta,
   * item `i` under the fresh id `next + i`.
   */
  lemma LegacyReadManyLayout(batchId: Uuid, idKey: string, resp: LegacyResponse, template: Record -> Record, next: Uuid)
    requires !resp.failed
    ensures var ops := LegacyReadMany(batchId, idKey, resp, template, next).value;
      forall i :: 0 <= i < |resp.data| ==>
        && ops[3 * i] == PutIdMap(KeyOf(resp.data[i], idKey), next + i)
        && ops[3 * i + 1] == PutData(next + i, template(resp.data[i]))
        && ops[3 * i + 2] == PutItem(next + i, CompletedItem)
  {
    var items := ItemOps(resp.data, idKey, template, next);
    var ops := LegacyReadMany(batchId, idKey, resp, template, next).value;
    ItemOpsLayout(resp.data, idKey, template, next);
    assert forall j :: 0 <= j < |items| ==> ops[j] == items[j];
  }

  /** An empty read emits exactly the status and an empty order entry. */
  lemma EmptyReadMany(batchId: Uuid, idKey: string, template: Record -> Record, next: Uuid)
    ensures LegacyReadMany(batchId, idKey, LegacyResponse([], false), template, next)
         == Ok([SetStatus(Some(CompletedStatus)), PutOrder(batchId, [])])
  {
    var tail := [SetStatus(Some(CompletedStatus)), PutOrder(batchId, FreshIds(next, 0))];
    assert ItemOps([], idKey, template, next) + tail == tail;
  }

  /** Two items `a` and `b`: the two triples in input order, then the status and the order entry. */
  lemma TwoItemReadMany(batchId: Uuid, template: Record -> Record, next: Uuid)
    ensures var a := Record(map["id" := "a"]);
      var b := Record(map["id" := "b"]);
      LegacyReadMany(batchId, "id", LegacyResponse([a, b], false), template, next)
      == Ok([PutIdMap("a", next), PutData(next, template(a)), PutItem(next, CompletedItem),
             PutIdMap("b", next + 1), PutData(next + 1, template(b)), PutItem(next + 1, CompletedItem),
             SetStatus(Some(CompletedStatus)), PutOrder(batchId, [next, next + 1])])
  {
    var a := Record(map["id" := "a"]);
    var b := Record(map["id" := "b"]);
    assert KeyOf(a, "id") == "a" && KeyOf(b, "id") == "b";
    assert [a, b][..1] == [a] && [a][..0] == [];
    assert FreshIds(next, 2) == [next, next + 1];
    assert ItemOps([a], "id", template, next) == ItemTriple(a, "id", template, next);
    assert ItemOps([a, b], "id", template, next) == ItemTriple(a, "id", template, next) + ItemTriple(b, "id", template, next + 1);
    var r := LegacyReadMany(batchId, "id", LegacyResponse([a, b], false), template, next);
    assert r == Ok(ItemOps([a, b], "id", template, next) + [SetStatus(Some(CompletedStatus)), PutOrder(batchId, FreshIds(next, 2))]);
    assert r.value == [PutIdMap("a", next), PutData(next, template(a)), PutItem(next, CompletedItem),
             PutIdMap("b", next + 1), PutData(next + 1, template(b)), PutItem(next + 1, CompletedItem),
             SetStatus(Some(CompletedStatus)), PutOrder(batchId, [next, next + 1])];
  }

  /** `idMap[item[idKey]] = syntheticId`, written item by item. */
  function WrittenIds(items: seq<Record>, idKey: string, next: Uuid): map<string, Uuid>
    decreases |items|
  {
    if |items| == 0 then map[]
    else
      var n := |items| - 1;
      WrittenIds(items[..n], idKey, next)[KeyOf(items[n], idKey) := next + n]
  }

  /** `data[syntheticId] = template(item)`, written item by item. */
  function WrittenData(items: seq<Record>, template: Record -> Record, next: Uuid): map<Uuid, Record>
    decreases |items|
  {
    if |items| == 0 then map[]
    else
      var n := |items| - 1;
      WrittenData(items[..n], template, next)[next + n := template(items[n])]
  }

  /** `meta.items[syntheticId]`, written item by item. */
  function WrittenItems(n: nat, next: Uuid): map<Uuid, LegacyItemMeta>
  {
    if n == 0 then map[] else WrittenItems(n - 1, next)[next + n - 1 := CompletedItem]
  }

  /** The id writes leave each `idKey` value mapped to the id of the last item carrying it. */
  lemma {:induction false} WrittenIdsAreLastIds(items: seq<Record>, idKey: string, next: Uuid)
    ensures WrittenIds(items, idKey, next) == BatchIdMap(items, idKey, next)
    decreases |items|
  {
    if |items| > 0 {
      WrittenIdsAreLastIds(items[..|items| - 1], idKey, next);
    }
  }

  /** The data writes hold exactly the fresh ids, each with its item's templated record. */
  lemma {:induction false} WrittenDataContents(items: seq<Record>, template: Record -> Record, next: Uuid)
    ensures var m := WrittenData(items, template, next);
      && (forall k :: k in m <==> next <= k < next + |items|)
      && (forall i :: 0 <= i < |items| ==> m[next + i] == template(items[i]))
    decreases |items|
  {
    if |items| > 0 {
      var n := |items| - 1;
      WrittenDataContents(items[..n], template, next);
      assert forall i :: 0 <= i < n ==> items[..n][i] == items[i];
    }
  }

  /** The meta writes hold exactly the fresh ids, each with the completed meta. */
  lemma {:induction false} WrittenItemsContents(n: nat, next: Uuid)
    ensures var m := WrittenItems(n, next);
      && (forall k :: k in m <==> next <= k < next + n)
      && (forall k :: k in m ==> m[k] == CompletedItem)
  {
    if n > 0 {
      WrittenItemsContents(n - 1, next);
      assert WrittenItems(n, next) == WrittenItems(n - 1, next)[next + n - 1 := CompletedItem];
    }
  }

  /**
   * Applying the item writes merges the batch into the partition: each
   * item's templated data and meta under its fresh id, and each `idKey`
   * value mapped to the id of the last item carrying it.
   */
  lemma {:induction false} ApplyItemOps(s: LegacyPartition, items: seq<Record>, idKey: string, template: Record -> Record, next: Uuid)
    ensures LegacyApply(s, ItemOps(items, idKey, template, next))
         == s.(idMap := s.idMap + WrittenIds(items, idKey, next),
               data := s.data + WrittenData(items, template, next),
               items := s.items + WrittenItems(|items|, next))
    decreases |items|
  {
    if |items| == 0 {
      assert ItemOps(items, idKey, template, next) == [];
    } else {
      var n := |items| - 1;
      var init := items[..n];
      var k := KeyOf(items[n], idKey);
      var d := template(items[n]);
      ApplyItemOps(s, init, idKey, template, next);
      var s1 := LegacyApply(s, ItemOps(init, idKey, template, next));
      assert ItemOps(items, idKey, template, next) == ItemOps(init, idKey, template, next) + ItemTriple(items[n], idKey, template, next + n);
      LegacyApplyConcat(s, ItemOps(init, idKey, template, next), ItemTriple(items[n], idKey, template, next + n));
      var sid := next + n;
      ApplyTriple(s1, items[n], idKey, template, sid);
      var t := LegacyApply(s, ItemOps(items, idKey, template, next));
      assert t == s1.(idMap := s1.idMap[k := sid], data := s1.data[sid := d], items := s1.items[sid := CompletedItem]);
      MergeUpdate(s.idMap, WrittenIds(init, idKey, next), k, sid);
      MergeUpdate(s.data, WrittenData(init, template, next), sid, d);
      MergeUpdate(s.items, WrittenItems(n, next), sid, CompletedItem);
      assert t.order == s.order && t.status == s.status;
    }
  }

  lemma ApplyTriple(s: LegacyPartition, item: Record, idKey: string, template: Record -> Record, sid: Uuid)
    ensures LegacyApply(s, ItemTriple(item, idKey, template, sid))
         == s.(idMap := s.idMap[KeyOf(item, idKey) := sid], data := s.data[sid := template(item)], items := s.items[sid := CompletedItem])
  {
    var t := ItemTriple(item, idKey, template, sid);
    LegacyApplyThree(s, t[0], t[1], t[2]);
  }

  /** Writing a key after merging equals merging the written map. */
  lemma MergeUpdate<K, V>(a: map<K, V>, b: map<K, V>, k: K, v: V)
    ensures a + b[k := v] == (a + b)[k := v]
  {
  }

  /** Item `i` of a batch is written under id `next + i`. */
  lemma WrittenDataAt(items: seq<Record>, template: Record -> Record, next: Uuid, i: nat)
    requires i < |items|
    ensures next + i in WrittenData(items, template, next)
    ensures WrittenData(items, template, next)[next + i] == template(items[i])
  {
    WrittenDataContents(items, template, next);
  }

  /** A key of the right-hand map reads its value in the union. */
  lemma UnionRight<K, V>(a: map<K, V>, b: map<K, V>, k: K)
    requires k in b
    ensures k in a + b && (a + b)[k] == b[k]
  {
  }

  /** The meta of item `i` of a batch is written under id `next + i`. */
  lemma WrittenItemsAt(n: nat, next: Uuid, i: nat)
    requires i < n
    ensures next + i in WrittenItems(n, next) && WrittenItems(n, next)[next + i] == CompletedItem
  {
    WrittenItemsContents(n, next);
  }

  /** Ids outside the batch's range get no data write. */
  lemma WrittenDataOutside(items: seq<Record>, template: Record -> Record, next: Uuid, k: Uuid)
    requires !(next <= k < next + |items|)
    ensures k !in WrittenData(items, template, next)
  {
    WrittenDataContents(items, template, next);
  }

  /** A key only the left-hand map holds keeps its value in the union. */
  lemma UnionLeft<K, V>(a: map<K, V>, b: map<K, V>, k: K)
    requires k in a && k !in b
    ensures k in a + b && (a + b)[k] == a[k]
  {
  }

  /** Merged over the partition, item `i`'s data and meta sit under id `next + i`. */
  lemma MergedItemAt(s: LegacyPartition, items: seq<Record>, template: Record -> Record, next: Uuid, i: nat)
    requires i < |items|
    ensures var m := s.data + WrittenData(items, template, next);
      next + i in m && m[next + i] == template(items[i])
    ensures var m := s.items + WrittenItems(|items|, next);
      next + i in m && m[next + i] == CompletedItem
  {
    WrittenDataAt(items, template, next, i);
    WrittenItemsAt(|items|, next, i);
    UnionRight(s.data, WrittenData(items, template, next), next + i);
    UnionRight(s.items, WrittenItems(|items|, next), next + i);
  }

  /** Merged data keeps the records of ids outside the batch's range. */
  lemma MergedDataOutside(data: map<Uuid, Record>, items: seq<Record>, template: Record -> Record, next: Uuid, k: Uuid)
    requires k in data && !(next <= k < next + |items|)
    ensures var m := data + WrittenData(items, template, next);
      k in m && m[k] == data[k]
  {
    WrittenDataOutside(items, template, next, k);
    UnionLeft(data, WrittenData(items, template, next), k);
  }

  /** The partition after a successful read, field by field. */
  lemma LegacyReadManyState(s: LegacyPartition, batchId: Uuid, idKey: string, resp: LegacyResponse, template: Record -> Record, next: Uuid)
    requires !resp.failed
    ensures LegacyApply(s, LegacyReadMany(batchId, idKey, resp, template, next).value)
         == LegacyPartition(
              s.data + WrittenData(resp.data, template, next),
              s.idMap + WrittenIds(resp.data, idKey, next),
              PutEntry(s.order, batchId, Ids(FreshIds(next, |resp.data|))),
              s.items + WrittenItems(|resp.data|, next),
              Some(CompletedStatus))
  {
    var ops := ItemOps(resp.data, idKey, template, next);
    var tail := [SetStatus(Some(CompletedStatus)), PutOrder(batchId, FreshIds(next, |resp.data|))];
    assert LegacyReadMany(batchId, idKey, resp, template, next).value == ops + tail;
    LegacyApplyConcat(s, ops, tail);
    ApplyItemOps(s, resp.data, idKey, template, next);
    LegacyApplyTwo(LegacyApply(s, ops), tail[0], tail[1]);
  }

  /**
   * After a successful read, item `i`'s templated data and completed meta
   * are stored under its fresh id `next + i`.
   */
  lemma LegacyReadManyStoresItem(s: LegacyPartition, batchId: Uuid, idKey: string, resp: LegacyResponse, template: Record -> Record, next: Uuid, i: nat)
    requires !resp.failed && i < |resp.data|
    ensures var t := LegacyApply(s, LegacyReadMany(batchId, idKey, resp, template, next).value);
      && next + i in t.data && t.data[next + i] == template(resp.data[i])
      && next + i in t.items && t.items[next + i] == CompletedItem
  {
    LegacyReadManyState(s, batchId, idKey, resp, template, next);
    MergedItemAt(s, resp.data, template, next, i);
  }

  /** After a successful read a record under an id outside the batch's range is kept. */
  lemma LegacyReadManyKeepsData(s: LegacyPartition, batchId: Uuid, idKey: string, resp: LegacyResponse, template: Record -> Record, next: Uuid, k: Uuid)
    requires !resp.failed
    requires k in s.data && !(next <= k < next + |resp.data|)
    ensures var t := LegacyApply(s, LegacyReadMany(batchId, idKey, resp, template, next).value);
      k in t.data && t.data[k] == s.data[k]
  {
    LegacyReadManyState(s, batchId, idKey, resp, template, next);
    MergedDataOutside(s.data, resp.data, template, next, k);
  }

  /**
   * After a successful read: the status is `'completed'`, `order[batchId]`
   * holds the fresh ids (pairwise distinct, in input order), and every
   * `idKey` value maps to the id of the last item carrying it.
   */
  lemma LegacyReadManyEffect(s: LegacyPartition, batchId: Uuid, idKey: string, resp: LegacyResponse, template: Record -> Record, next: Uuid)
    requires !resp.failed
    ensures LegacyApply(s, LegacyReadMany(batchId, idKey, resp, template, next).value).status == Some(CompletedStatus)
    ensures OrderSlot(batchId, Ids(FreshIds(next, |resp.data|))) in LegacyApply(s, LegacyReadMany(batchId, idKey, resp, template, next).value).order
    ensures var ids := FreshIds(next, |resp.data|); forall i, j :: 0 <= i < j < |ids| ==> ids[i] != ids[j]
    ensures LegacyApply(s, LegacyReadMany(batchId, idKey, resp, template, next).value).idMap == s.idMap + BatchIdMap(resp.data, idKey, next)
  {
    LegacyReadManyState(s, batchId, idKey, resp, template, next);
    WrittenIdsAreLastIds(resp.data, idKey, next);
  }

  /** Every stored record and item meta has an id below `next`. */
  ghost predicate LegacyIdsBelow(s: LegacyPartition, next: Uuid)
  {
    && (forall k :: k in s.data ==> k < next)
    && (forall k :: k in s.items ==> k < next)
  }

  /**
   * A successful read into a partition whose ids are all below `next` never
   * overwrites a stored record or item meta, and leaves every id below the
   * advanced counter.
   */
  lemma LegacyReadManyKeepsEntities(s: LegacyPartition, batchId: Uuid, idKey: string, resp: LegacyResponse, template: Record -> Record, next: Uuid)
    requires !resp.failed
    ensures LegacyIdsBelow(s, next) ==>
      var t := LegacyApply(s, LegacyReadMany(batchId, idKey, resp, template, next).value);
      && LegacyIdsBelow(t, next + |resp.data|)
      && (forall k :: k in s.data ==> k in t.data && t.data[k] == s.data[k])
      && (forall k :: k in s.items ==> k in t.items && t.items[k] == s.items[k])
  {
    var n := |resp.data|;
    LegacyReadManyState(s, batchId, idKey, resp, template, next);
    if LegacyIdsBelow(s, next) {
      WrittenDataContents(resp.data, template, next);
      WrittenItemsContents(n, next);
      MergeFresh(s.data, WrittenData(resp.data, template, next), next, n);
      MergeFresh(s.items, WrittenItems(n, next), next, n);
    }
  }
}

=== FILE: legacy_provider.dfy ===
/**
 * `createResourceProvider(config)`: the oldest provider widget. It reads the
 * partition's single `read.many` status, starts the two-command read process
 * when the status is neither `'loading'` nor `'completed'`, and otherwise
 * flattens `order` into the records it names.
 *
 * A read is dispatched in one step (`beforeReadMany` applied, the batch id
 * minted, a change listener registered) and settled in another (the item
 * writes, or the error hook's undo).
 */
module LegacyProvider {
  import opened Common
  import opened DataStore
  import opened DataCommands
  import opened LegacyCommands

  /** A read in flight: its payload and the undo of its `beforeReadMany`. */
  datatype LegacyPending = LegacyPending(batchId: Uuid, idKey: string, undo: seq<LegacyOp>)

  /**
   * The provider's state: the partition, one entry per `onChange` handle (the
   * widget owning it; a widget may own several), the `uuid()` supply and the
   * reads in flight.
   */
  datatype LegacyEngine = LegacyEngine(store: LegacyPartition, listeners: seq<Uuid>, next: Uuid, pending: seq<LegacyPending>)

  /**
   * What the provider keeps true between calls: every stored id was drawn
   * before `next`, and every pending read undoes only the status.
   */
  ghost predicate LegacyValid(e: LegacyEngine)
  {
    && LegacyIdsBelow(e.store, e.next)
    && forall i :: 0 <= i < |e.pending| ==> StatusOnly(e.pending[i].undo)
  }

  /** The ids one value of `order` names: an array's ids, a truthy single id, or none. */
  function EntryIds(entry: OrderEntry): seq<Uuid>
  {
    match entry
    case Ids(ids) => ids
    case Single(id) => [id]
    case Falsy => []
  }

  /** The ids of `order`, key by key in insertion order. */
  function OrderIds(order: seq<OrderSlot>): (r: seq<Uuid>)
    ensures forall x :: x in r <==> exists i :: 0 <= i < |order| && x in EntryIds(order[i].entry)
    decreases |order|
  {
    if |order| == 0 then []
    else
      var n := |order| - 1;
      var init := OrderIds(order[..n]);
      assert forall i :: 0 <= i < n ==> order[..n][i] == order[i];
      init + EntryIds(order[n].entry)
  }

  /** The records of the ids that have data, in order, skipping the rest. */
  function Records(ids: seq<Uuid>, data: map<Uuid, Record>): (r: seq<Record>)
    ensures |r| <= |ids|
    decreases |ids|
  {
    if |ids| == 0 then []
    else
      var rest := Records(ids[1..], data);
      if ids[0] in data then [data[ids[0]]] + rest else rest
  }

  /** Every record returned is the data of a listed id, and every listed id with data has its record returned. */
  lemma {:induction false} RecordsContents(ids: seq<Uuid>, data: map<Uuid, Record>)
    ensures forall x :: x in Records(ids, data) ==> exists j :: j in ids && j in data && data[j] == x
    ensures forall j :: j in ids && j in data ==> data[j] in Records(ids, data)
    decreases |ids|
  {
    if |ids| > 0 {
      RecordsContents(ids[1..], data);
      assert forall j :: j in ids <==> j == ids[0] || j in ids[1..];
    }
  }

  /** What a call returns and the state after it. */
  datatype LegacyRendered = LegacyRendered(result: seq<Record>, engine: LegacyEngine)

  /** The status is the string `'loading'`. */
  predicate IsLoading(s: LegacyPartition)
  {
    s.status == Some(LoadingStatus)
  }

  /** The status is the string `'completed'`. */
  predicate IsCompleted(s: LegacyPartition)
  {
    s.status == Some(CompletedStatus)
  }

  /**
   * `_getOrRead()` of widget `w`: nothing while loading; a dispatch and
   * nothing while not completed; the records `order` names once completed.
   */
  function LegacyGetOrRead(e: LegacyEngine, w: Uuid, idKey: string): (r: LegacyRendered)
    ensures !IsCompleted(e.store) ==> r.result == []
    ensures IsLoading(e.store) || IsCompleted(e.store) ==> r.engine == e
    ensures IsCompleted(e.store) ==> r.result == Records(OrderIds(e.store.order), e.store.data)
    ensures !IsLoading(e.store) && !IsCompleted(e.store) ==>
      && IsLoading(r.engine.store)
      && Count(r.engine.listeners, w) == Count(e.listeners, w) + 1
      && (forall v :: v != w ==> Count(r.engine.listeners, v) == Count(e.listeners, v))
      && r.engine.next == e.next + 1
      && |r.engine.pending| == |e.pending| + 1
      && r.engine.pending[..|e.pending|] == e.pending
      && r.engine.pending[|e.pending|].batchId == e.next
      && LegacyApply(r.engine.store, r.engine.pending[|e.pending|].undo) == e.store
    ensures LegacyValid(e) ==> LegacyValid(r.engine)
  {
    var s := e.store;
    if IsLoading(s) then LegacyRendered([], e)
    else if !IsCompleted(s) then
      var p := LegacyPending(e.next, idKey, LegacyBeforeReadManyUndo(s));
      var e1 := LegacyEngine(LegacyApply(s, LegacyBeforeReadMany(s)), e.listeners + [w], e.next + 1, e.pending + [p]);
      assert e1.pending[..|e.pending|] == e.pending;
      assert multiset(e1.listeners) == multiset(e.listeners) + multiset{w};
      LegacyRendered([], e1)
    else LegacyRendered(Records(OrderIds(s.order), s.data), e)
  }

  /**
   * The process finishing read `k`: on success its `readMany` writes are
   * applied and one id is minted per item; on failure the error hook applies
   * only the recorded undo.
   */
  function LegacySettle(e: LegacyEngine, k: nat, resp: LegacyResponse, template: Record -> Record): (t: LegacyEngine)
    requires k < |e.pending|
    ensures t.pending == e.pending[..k] + e.pending[k + 1..]
    ensures t.listeners == e.listeners
    ensures !resp.failed ==> t.next == e.next + |resp.data| && IsCompleted(t.store)
    ensures resp.failed ==> t.next == e.next && t.store == LegacyApply(e.store, e.pending[k].undo)
    ensures LegacyValid(e) ==> LegacyValid(t)
  {
    var p := e.pending[k];
    var rest := e.pending[..k] + e.pending[k + 1..];
    assert forall i :: 0 <= i < |rest| ==> rest[i] in e.pending;
    var r := LegacyReadMany(p.batchId, p.idKey, resp, template, e.next);
    if r.Ok? then
      LegacyReadManyEffect(e.store, p.batchId, p.idKey, resp, template, e.next);
      LegacyReadManyKeepsEntities(e.store, p.batchId, p.idKey, resp, template, e.next);
      LegacyEngine(LegacyApply(e.store, r.value), e.listeners, e.next + |resp.data|, rest)
    else
      StatusOnlyKeepsEntities(e.store, p.undo);
      LegacyEngine(LegacyApply(e.store, p.undo), e.listeners, e.next, rest)
  }

  /**
   * Settling a read never loses or overwrites a stored record or item meta:
   * a success only adds the response's items under fresh ids, and a failure
   * changes nothing but the status.
   */
  lemma LegacySettleKeepsRecords(e: LegacyEngine, k: nat, resp: LegacyResponse, template: Record -> Record)
    requires LegacyValid(e) && k < |e.pending|
    ensures var t := LegacySettle(e, k, resp, template).store;
      && (forall j :: j in e.store.data ==> j in t.data && t.data[j] == e.store.data[j])
      && (forall j :: j in e.store.items ==> j in t.items && t.items[j] == e.store.items[j])
      && (resp.failed ==> t == e.store.(status := t.status))
  {
    var p := e.pending[k];
    if resp.failed {
      StatusOnlyKeepsEntities(e.store, p.undo);
    } else {
      LegacyReadManyKeepsEntities(e.store, p.batchId, p.idKey, resp, template, e.next);
    }
  }

  /** `template` applied to each item, in order. */
  function Templated(items: seq<Record>, template: Record -> Record): (r: seq<Record>)
    ensures |r| == |items|
    ensures forall i :: 0 <= i < |items| ==> r[i] == template(items[i])
  {
    seq(|items|, i requires 0 <= i < |items| => template(items[i]))
  }

  /**
   * A failed read leaves the partition exactly as before the call that
   * started it: the status goes back to what it was (absent on a fresh
   * partition) and never becomes `'failed'`; nothing else was written.
   */
  lemma FailedReadRestores(e: LegacyEngine, w: Uuid, idKey: string, resp: LegacyResponse, template: Record -> Record)
    requires resp.failed
    requires !IsLoading(e.store) && !IsCompleted(e.store)
    ensures var r := LegacyGetOrRead(e, w, idKey);
      var t := LegacySettle(r.engine, |e.pending|, resp, template);
      && t.store == e.store
      && t.pending == e.pending
      && t.next == e.next + 1
  {
    var r := LegacyGetOrRead(e, w, idKey);
    assert r.engine.pending[..|e.pending|] == e.pending;
    assert r.engine.pending[|e.pending| + 1..] == [];
  }

  /** Flattening an order holding one batch yields that batch's ids. */
  lemma OneBatchIds(batchId: Uuid, ids: seq<Uuid>)
    ensures OrderIds(PutEntry([], batchId, Ids(ids))) == ids
  {
    var order := PutEntry([], batchId, Ids(ids));
    assert order == [OrderSlot(batchId, Ids(ids))];
    assert order[..0] == [];
  }

  /** Ids that all have data give back their records, in order. */
  lemma {:induction false} AllPresentRecords(ids: seq<Uuid>, data: map<Uuid, Record>, records: seq<Record>)
    requires |records| == |ids|
    requires forall i :: 0 <= i < |ids| ==> ids[i] in data && data[ids[i]] == records[i]
    ensures Records(ids, data) == records
    decreases |ids|
  {
    if |ids| > 0 {
      AllPresentRecords(ids[1..], data, records[1..]);
      assert records == [records[0]] + records[1..];
    }
  }

  /** The `i`-th fresh id of a batch reads the `i`-th templated item. */
  lemma {:induction false} BatchRecordAt(data: map<Uuid, Record>, items: seq<Record>, template: Record -> Record, next: Uuid, i: nat)
    requires i < |items|
    ensures var m := data + WrittenData(items, template, next);
      FreshIds(next, |items|)[i] in m && m[FreshIds(next, |items|)[i]] == Templated(items, template)[i]
  {
    var wd := WrittenData(items, template, next);
    assert FreshIds(next, |items|)[i] == next + i;
    assert Templated(items, template)[i] == template(items[i]);
    WrittenDataAt(items, template, next, i);
    UnionRight(data, wd, next + i);
  }

  /** Data holding a batch's templated items under its fresh ids gives them back, in order. */
  lemma WrittenBatchRecords(data: map<Uuid, Record>, items: seq<Record>, template: Record -> Record, next: Uuid)
    ensures Records(FreshIds(next, |items|), data + WrittenData(items, template, next)) == Templated(items, template)
  {
    var ids := FreshIds(next, |items|);
    var m := data + WrittenData(items, template, next);
    var records := Templated(items, template);
    forall i | 0 <= i < |ids|
      ensures ids[i] in m && m[ids[i]] == records[i]
    {
      BatchRecordAt(data, items, template, next, i);
    }
    AllPresentRecords(ids, m, records);
  }

  /** A successful read into a partition without batches leaves exactly its templated items to render. */
  lemma SettledRecords(s: LegacyPartition, batchId: Uuid, idKey: string, resp: LegacyResponse, template: Record -> Record, next: Uuid)
    requires !resp.failed && s.order == []
    ensures var t := LegacyApply(s, LegacyReadMany(batchId, idKey, resp, template, next).value);
      IsCompleted(t) && Records(OrderIds(t.order), t.data) == Templated(resp.data, template)
  {
    var ids := FreshIds(next, |resp.data|);
    LegacyReadManyState(s, batchId, idKey, resp, template, next);
    OneBatchIds(batchId, ids);
    WrittenBatchRecords(s.data, resp.data, template, next);
  }

  /**
   * The round trip on an empty partition: the first call dispatches and
   * returns nothing; once the read succeeds, the next call returns the
   * templated items in the order `read` gave them, and a further call
   * changes nothing.
   */
  lemma ReadThenRender(e: LegacyEngine, w: Uuid, idKey: string, resp: LegacyResponse, template: Record -> Record)
    requires !resp.failed
    requires e.store.order == [] && e.store.status.None?
    ensures var r1 := LegacyGetOrRead(e, w, idKey);
      var t := LegacySettle(r1.engine, |e.pending|, resp, template);
      var r2 := LegacyGetOrRead(t, w, idKey);
      && r1.result == []
      && r2.result == Templated(resp.data, template)
      && r2.engine == t
  {
    var r1 := LegacyGetOrRead(e, w, idKey);
    var e1 := r1.engine;
    var p := e1.pending[|e.pending|];
    assert e1.store.order == [];
    var t := LegacySettle(e1, |e.pending|, resp, template);
    assert t.store == LegacyApply(e1.store, LegacyReadMany(p.batchId, p.idKey, resp, template, e1.next).value);
    SettledRecords(e1.store, p.batchId, p.idKey, resp, template, e1.next);
  }

  /**
   * Once completed, no call reads again, whichever widget makes it: a
   * second provider sharing the partition renders the cached records.
   */
  lemma CompletedIsStable(e: LegacyEngine, w1: Uuid, w2: Uuid, idKey: string)
    requires IsCompleted(e.store)
    ensures var r1 := LegacyGetOrRead(e, w1, idKey);
      && r1.engine == e
      && LegacyGetOrRead(r1.engine, w2, idKey) == LegacyRendered(r1.result, e)
  {
  }

  /** Every dispatch registers another listener, even for a widget that already has one. */
  lemma RedispatchAddsListener(e: LegacyEngine, w: Uuid, idKey: string, resp: LegacyResponse, template: Record -> Record)
    requires resp.failed
    requires !IsLoading(e.store) && !IsCompleted(e.store)
    ensures var r1 := LegacyGetOrRead(e, w, idKey);
      var t := LegacySettle(r1.engine, |e.pending|, resp, template);
      var r2 := LegacyGetOrRead(t, w, idKey);
      Count(r2.engine.listeners, w) == Count(e.listeners, w) + 2
  {
    FailedReadRestores(e, w, idKey, resp, template);
  }

  /** Destroying a widget removes every handle it owns and no other. */
  function ReleaseListeners(listeners: seq<Uuid>, w: Uuid): (r: seq<Uuid>)
    ensures Count(r, w) == 0
    ensures forall v :: v != w ==> Count(r, v) == Count(listeners, v)
    decreases |listeners|
  {
    if |listeners| == 0 then []
    else
      var rest := ReleaseListeners(listeners[1..], w);
      assert listeners == [listeners[0]] + listeners[1..];
      assert multiset(listeners) == multiset{listeners[0]} + multiset(listeners[1..]);
      if listeners[0] == w then rest
      else
        assert multiset([listeners[0]] + rest) == multiset{listeners[0]} + multiset(rest);
        [listeners[0]] + rest
  }
}

=== FILE: provider.dfy ===
/**
 * The `provider(config)` widget class: the same store partition, commands,
 * processes and error hook as the data middleware, with one consumer per
 * widget instance (its `_initiatorId`) and its own window and fetch rules.
 *
 * The widget reads its cursor from `meta.pagination[initiatorId]` (the
 * partition's `byInitiator` map) while the commands write
 * `meta.pagination.current[initiatorId]`; the model keeps both, so the
 * cursor the widget reads is never the one the commands store.
 *
 * Each widget's handle map is keyed by path; the union of all widgets' maps
 * is the engine's set of `(initiator, path)` handle keys.
 */
module Provider {
  import opened Common
  import opened DataStore
  import opened DataCommands
  import opened Subscriptions
  import opened DataMiddleware

  /**
   * `_getStatus`: with `action` and `type` it reads that slot, with only an
   * `action` that action's `many` slot, and `read.many` otherwise; a
   * missing slot throws.
   */
  function WidgetStatus(s: Partition, initiator: Uuid, o: StatusOptions, kind: StatusKind): (r: Result<bool>)
    ensures !Truthy(o.action) ==>
      (r.Ok? <==> Ready(s)) && (r.Ok? ==> (r.value <==> initiator in ReadMany(s, kind)))
    ensures Truthy(o.action) && !Truthy(o.actionType) ==>
      (r.Ok? <==> Slot(s, o.action.value, "many").Some?)
      && (r.Ok? ==> (r.value <==> initiator in List(s, o.action.value, "many", kind)))
    ensures Truthy(o.action) && Truthy(o.actionType) ==>
      (r.Ok? <==> Slot(s, o.action.value, o.actionType.value).Some?)
      && (r.Ok? ==> (r.value <==> initiator in List(s, o.action.value, o.actionType.value, kind)))
  {
    GetStatus(s, initiator, o, kind)
  }

  /** `_total()`: the page count of `meta.pagination[initiatorId]`. */
  function WidgetTotal(s: Partition, id: Uuid): PageNumber
  {
    PageCount(CursorOf(s.byInitiator, id))
  }

  /** `_current()`: the page index of `meta.pagination[initiatorId]`. */
  function WidgetCurrent(s: Partition, id: Uuid): PageNumber
  {
    PageIndex(CursorOf(s.byInitiator, id))
  }

  /**
   * The window of a `_getOrRead(options)` call: the stored cursor's window,
   * moved to `options.start` (in pages of the stored size) when that is
   * truthy and differs from the stored start; without a stored cursor, the
   * window the options ask for.
   */
  function WidgetWindow(s: Partition, id: Uuid, opts: Option<PageRequest>): (w: Option<Window>)
    ensures w.None? <==> id !in s.byInitiator && opts.None?
    ensures id !in s.byInitiator && opts.Some? ==> w == Some(ToWindow(opts.value))
    ensures id in s.byInitiator ==> w.Some? && w.value.size == s.byInitiator[id].size
    ensures id in s.byInitiator && (opts.None? || opts.value.start == 0 || opts.value.start == s.byInitiator[id].start) ==>
      w == Some(Window(s.byInitiator[id].offset, s.byInitiator[id].size, s.byInitiator[id].start))
    ensures opts.Some? && opts.value.start != 0 ==>
      w.Some? && w.value.start == opts.value.start
      && (id !in s.byInitiator || opts.value.start != s.byInitiator[id].start ==>
            w.value.offset == (opts.value.start - 1) * w.value.size)
  {
    if id in s.byInitiator then
      var c := s.byInitiator[id];
      if opts.Some? && opts.value.start != 0 && opts.value.start != c.start
      then Some(Window((opts.value.start - 1) * c.size, c.size, opts.value.start))
      else Some(Window(c.offset, c.size, c.start))
    else if opts.Some? then Some(ToWindow(opts.value))
    else None
  }

  /** A read is wanted for a window without cached ids, or when the widget has not completed. */
  predicate WidgetWantsRead(s: Partition, id: Uuid, w: Option<Window>)
  {
    (w.Some? && |PaginationIds(s, w)| == 0) || id !in ReadMany(s, Completed)
  }

  /** What `_getOrRead` returns after any dispatch: nothing until the widget completed. */
  function WidgetRender(s: Partition, id: Uuid, w: Option<Window>): Option<seq<Option<Record>>>
  {
    if id !in ReadMany(s, Completed) then None
    else
      var ids := PaginationIds(s, w);
      if |ids| > 0 then Some(PageRecords(ids, s.data))
      else Some(Present(AllIds(s.order), s.data))
  }

  /** `_getOrRead(options)` of the widget whose initiator id is `id`. */
  function WidgetGetOrRead(e: Engine, id: Uuid, opts: Option<PageRequest>, idKey: string): Rendered
  {
    var w := WidgetWindow(e.store, id, opts);
    if id in ReadMany(e.store, Loading) then Rendered(None, e)
    else
      var e1 := if WidgetWantsRead(e.store, id, w) then StartRead(e, id, w, idKey) else e;
      Rendered(WidgetRender(e1.store, id, w), e1)
  }

  /**
   * A loading widget gets `undefined` and nothing changes, whatever page it
   * asks for; otherwise exactly one read is started when one is wanted (no
   * page invalidation) and none when not.
   */
  lemma WidgetDispatch(e: Engine, id: Uuid, opts: Option<PageRequest>, idKey: string)
    requires Valid(e)
    ensures var r := WidgetGetOrRead(e, id, opts, idKey);
      var w := WidgetWindow(e.store, id, opts);
      && Valid(r.engine)
      && (id in ReadMany(e.store, Loading) ==> r == Rendered(None, e))
      && (id !in ReadMany(e.store, Loading) && !WidgetWantsRead(e.store, id, w) ==> r.engine == e)
      && (id !in ReadMany(e.store, Loading) && WidgetWantsRead(e.store, id, w) ==>
            && r.engine.pending == e.pending + [PendingRead(ReadPayload(id, e.next, idKey, w), BeforeReadMany(e.store, id, w), BeforeReadManyUndo(e.store, id, w))]
            && r.engine.store.loadedPages == e.store.loadedPages
            && id in ReadMany(r.engine.store, Loading))
  {
    var w := WidgetWindow(e.store, id, opts);
    if id !in ReadMany(e.store, Loading) && WidgetWantsRead(e.store, id, w) {
      StartReadEffect(e, id, w, idKey);
    }
  }

  /**
   * An unguarded call returns `undefined` exactly when the widget has not
   * completed, even when the page is cached and even on the first call;
   * otherwise the cached page's records or the records of `order`.
   */
  lemma WidgetResult(e: Engine, id: Uuid, opts: Option<PageRequest>, idKey: string)
    requires Valid(e) && id !in ReadMany(e.store, Loading)
    ensures var r := WidgetGetOrRead(e, id, opts, idKey);
      var s := e.store;
      var ids := PaginationIds(s, WidgetWindow(s, id, opts));
      && (r.result.None? <==> id !in ReadMany(s, Completed))
      && (id in ReadMany(s, Completed) && |ids| > 0 ==> r.result == Some(PageRecords(ids, s.data)))
      && (id in ReadMany(s, Completed) && |ids| == 0 ==> r.result == Some(Present(AllIds(s.order), s.data)))
  {
    var w := WidgetWindow(e.store, id, opts);
    if WidgetWantsRead(e.store, id, w) {
      StartReadEffect(e, id, w, idKey);
    }
  }

  /**
   * Re-rendering a completed widget does not read again: without a window,
   * or with a window whose page is cached, the state is unchanged and a
   * second call returns the same.
   */
  lemma WidgetRerenderDoesNotRead(e: Engine, id: Uuid, opts: Option<PageRequest>, idKey: string)
    requires Valid(e)
    requires id in ReadMany(e.store, Completed) && id !in ReadMany(e.store, Loading)
    requires var w := WidgetWindow(e.store, id, opts); w.None? || |PaginationIds(e.store, w)| > 0
    ensures var r := WidgetGetOrRead(e, id, opts, idKey);
      r.engine == e && WidgetGetOrRead(r.engine, id, opts, idKey) == r
  {
  }

  /**
   * A new widget (never loading nor completed) starts its own read and gets
   * `undefined`; if that read fails, the store ends as `failedResource`
   * leaves the store from before the call, with the widget in `failed`.
   */
  lemma NewWidgetFailedRead(e: Engine, id: Uuid, opts: Option<PageRequest>, idKey: string, resp: Response, template: Record -> Record)
    requires Valid(e) && !resp.success
    requires id !in ReadMany(e.store, Loading) && id !in ReadMany(e.store, Completed)
    ensures var r := WidgetGetOrRead(e, id, opts, idKey);
      && r.result.None?
      && |r.engine.pending| == |e.pending| + 1
      && var t := Settle(r.engine, |e.pending|, resp, template);
      && t.store == Apply(e.store, FailedResource(e.store, "read", "many", id))
      && ReadMany(t.store, Failed) == ReadMany(e.store, Failed) + [id]
      && t.pending == e.pending
  {
    var w := WidgetWindow(e.store, id, opts);
    StartReadEffect(e, id, w, idKey);
    assert WidgetGetOrRead(e, id, opts, idKey) == Rendered(None, StartRead(e, id, w, idKey));
    StartReadThenFail(e, id, w, idKey, resp, template);
    var e1 := StartRead(e, id, w, idKey);
    assert e1.pending[..|e.pending|] == e.pending;
  }

  /**
   * No step writes `meta.pagination[initiatorId]`: a widget's page queries
   * and its window never see the cursor the page commands maintain.
   */
  lemma CursorNeverStored(e: Engine, id: Uuid, other: Uuid, opts: Option<PageRequest>, idKey: string, cmd: PageCommand, k: nat, resp: Response, template: Record -> Record)
    requires Valid(e)
    ensures WidgetGetOrRead(e, other, opts, idKey).engine.store.byInitiator == e.store.byInitiator
    ensures PageStep(e, other, cmd).store.byInitiator == e.store.byInitiator
    ensures k < |e.pending| ==> Settle(e, k, resp, template).store.byInitiator == e.store.byInitiator
    ensures id !in e.store.byInitiator ==>
      WidgetTotal(e.store, id) == Undefined && WidgetCurrent(e.store, id) == Undefined
      && WidgetWindow(e.store, id, opts) == RequestWindow(opts)
  {
    WidgetDispatch(e, other, opts, idKey);
    var w := WidgetWindow(e.store, other, opts);
    if other !in ReadMany(e.store, Loading) && WidgetWantsRead(e.store, other, w) {
      StartReadEffect(e, other, w, idKey);
    }
    var r := PageOps(e.store, other, cmd);
    if r.Ok? {
      ApplyKeepsByInitiator(e.store, r.value);
    }
    if k < |e.pending| {
      SettleKeepsByInitiator(e, k, resp, template);
    }
  }

  /** Settling a read, either way, leaves `meta.pagination[initiatorId]` alone. */
  lemma SettleKeepsByInitiator(e: Engine, k: nat, resp: Response, template: Record -> Record)
    requires k < |e.pending|
    ensures Settle(e, k, resp, template).store.byInitiator == e.store.byInitiator
  {
    var pr := e.pending[k];
    var p := ProcessReadMany(e.store, pr.payload, resp, template, e.next);
    if p.Ok? {
      ApplyKeepsByInitiator(e.store, p.value);
    } else if StillHolds(e.store, pr.written) {
      var s1 := Apply(e.store, pr.undo);
      ApplyKeepsByInitiator(e.store, pr.undo);
      ApplyKeepsByInitiator(s1, FailedResource(s1, "read", "many", pr.payload.initiator));
    }
  }

  /** Teardown: the widget's own handles are destroyed and its map cleared. */
  function Release(handles: seq<HandleKey>, id: Uuid): (r: seq<HandleKey>)
    ensures forall k :: k in r <==> k in handles && k.consumer != id
    ensures Unique(handles) ==> Unique(r)
    ensures |r| <= |handles|
    decreases |handles|
  {
    if |handles| == 0 then []
    else
      var rest := Release(handles[1..], id);
      assert forall k :: k in handles <==> k == handles[0] || k in handles[1..];
      if handles[0].consumer == id then rest
      else
        assert Unique(handles) ==> handles[0] !in handles[1..];
        [handles[0]] + rest
  }

  /** Destroying a widget keeps the engine valid and leaves it no handle on any path. */
  lemma DestroyWidget(e: Engine, id: Uuid)
    requires Valid(e)
    ensures var t := e.(handles := Release(e.handles, id));
      Valid(t) && forall p :: HandleKey(id, p) !in t.handles
  {
  }
}

=== FILE: subscriptions.dfy ===
/**
 * Store-change listeners owned by a consumer. A listener registration is
 * recorded by the key it was registered under; the store's `onChange`
 * itself (and the invalidation it triggers) is outside the model.
 */
module Subscriptions {
  import opened Common

  /** The paths the engines listen on. */
  datatype StorePath =
    | DataPath            // path(pathPrefix, 'data')
    | PaginationMetaPath  // path(pathPrefix, 'meta', 'pagination')
    | PartitionPath       // path(pathPrefix)

  /** No key was registered twice. */
  ghost predicate Unique<K>(listeners: seq<K>)
  {
    forall i, j :: 0 <= i < j < |listeners| ==> listeners[i] != listeners[j]
  }

  /**
   * Register a listener under `key` unless one is already registered under
   * it (the `storeHandles.get(key)` guard). Listeners are never registered
   * twice, and a listener for `key` is present afterwards.
   */
  function Subscribe<K(==,!new)>(listeners: seq<K>, key: K): (r: seq<K>)
    ensures key in r
    ensures Count(r, key) == if key in listeners then Count(listeners, key) else 1
    ensures forall k :: k != key ==> Count(r, k) == Count(listeners, k)
    ensures Unique(listeners) ==> Unique(r)
  {
    if key in listeners then listeners else listeners + [key]
  }

  lemma {:induction false} UniqueCountsAtMostOne<K>(listeners: seq<K>, key: K)
    requires Unique(listeners)
    ensures Count(listeners, key) <= 1
  {
    if |listeners| > 0 {
      var last := listeners[|listeners| - 1];
      var init := listeners[..|listeners| - 1];
      assert listeners == init + [last];
      assert Unique(init);
      UniqueCountsAtMostOne(init, key);
      if last == key {
        forall i | 0 <= i < |init|
          ensures init[i] != key
        {
          assert listeners[i] != listeners[|listeners| - 1];
        }
      }
    }
  }

  /**
   * Any sequence of subscriptions, starting from no listeners, leaves at
   * most one listener per key.
   */
  function SubscribeAll<K(==,!new)>(listeners: seq<K>, keys: seq<K>): seq<K>
    decreases |keys|
  {
    if |keys| == 0 then listeners else SubscribeAll(Subscribe(listeners, keys[0]), keys[1..])
  }

  lemma {:induction false} AtMostOneListenerPerKey<K(!new)>(keys: seq<K>, key: K)
    ensures Count(SubscribeAll([], keys), key) <= 1
    ensures key in keys <==> key in SubscribeAll([], keys)
  {
    SubscribeAllKeepsUnique([], keys);
    UniqueCountsAtMostOne(SubscribeAll([], keys), key);
  }

  lemma {:induction false} SubscribeAllKeepsUnique<K(!new)>(listeners: seq<K>, keys: seq<K>)
    requires Unique(listeners)
    ensures Unique(SubscribeAll(listeners, keys))
    ensures forall k :: k in SubscribeAll(listeners, keys) <==> k in listeners || k in keys
    decreases |keys|
  {
    if |keys| > 0 {
      SubscribeAllKeepsUnique(Subscribe(listeners, keys[0]), keys[1..]);
      assert keys == [keys[0]] + keys[1..];
    }
  }
}
